=== FILE: README.md ===
# A verified model of the 8cc-in-Go x86-64 code generator

This project models `gen.go`, the back end of a small C compiler. The back end walks a typed syntax
tree and emits x86-64 assembly. The model keeps its structure:

- The global state (`stackpos`, the output, the label counter, and the frame offsets and
  float-constant labels that the source writes into the tree) lives in one `Generator` class.
- Each `emit_*` routine is a method of `Generator` that appends abstract instructions to `out`.
- The straight-line code shapes are pure functions in their own modules:
  - register choice (`get_int_reg`);
  - loads and stores (`emit_lload`, `emit_gload`, `emit_lsave`, `emit_gsave`, `emit_load_deref`);
  - data directives;
  - argument marshalling;
  - frame layout (`align`).

Modules:

| module | file | contents |
|---|---|---|
| `Syntax` | `syntax.dfy` | the type descriptors and tree nodes the generator reads |
| `Asm` | `asm.dfy` | instructions, operands, the stack effect of an instruction, `get_int_reg` |
| `Layout` | `layout.dfy` | Go's `%`, `align`, and frame offsets as running sums of aligned sizes |
| `Access` | `access.dfy` | the load and store sequences; offsets along struct-field chains; the char-array initialiser |
| `Data` | `data.dfy` | data directives for globals, strings and float constants |
| `Marshal` | `marshal.dfy` | which register each argument travels in; the save, push, pop, call and restore sequences; a small push/pop machine that gives them meaning |
| `Codegen` | `codegen.dfy` | the `Generator` class with one method per emitting routine |

What is proved, besides the code each routine emits when it succeeds, stated in terms of its operands' code:

- **When generation succeeds.** The ghost predicate `Emittable` says which trees the generator handles
  without an error: node kinds it has a case for, loads and stores of widths it has an instruction for,
  a pointee type wherever it scales or stores through a pointer, and calls whose integer arguments fit
  in the argument registers. `EmitExpr`, `EmitFunction` and `EmitToplevel` succeed exactly on such trees,
  and every helper states the same condition for its own operands.
- **Binary dispatch.** `BinopRoute` is the order in which `emit_binop` tries its cases: assignment, `==`,
  a pointer-typed node, `<`, `>`, then integer or floating arithmetic. `EmitBinop` takes exactly that route.

- **Stack cursor.** Every expression and statement leaves `stackpos` where it found it. The generator
  keeps a ghost `depth`, the real stack depth implied by the instructions emitted so far in the
  current function. `InBody()` states that the cursor equals it and is a multiple of 8.
- **Call alignment.** Every `call` in a function's code is made with the stack pointer 16-byte aligned.
  This covers the 8-byte pad, which is emitted under the same test as its removal.
- **Argument delivery.** The k-th integer argument is popped into `REGS[k]` and the k-th floating
  argument into `%xmm k`. Distinct arguments use distinct registers. `FunCallExec` runs a call's whole
  sequence on the push/pop machine, provided each argument's code leaves the stack as it found it.
  At the `call`, argument j's register holds the value argument j's code computed. After the
  restoring pops, the stack and every argument register are back to their values from before the call.
- **Frame layout.** The parameter and local offsets are the negated running sums of 8-aligned sizes.
  Every offset is at most 0, a multiple of 8 and non-increasing. When every parameter is between 1
  and 8 bytes, the parameter slots coincide with the prologue's pushes.
- **Struct-field chains.** A chain of field references loads or stores at the base plus the sum of
  every field offset along the chain.
- **Data emission.** Initialised data has exactly the sizes of its elements, and each float
  constant's label is defined right before its two words.

Failure: an `errorf`, a failed `assert` or a nil dereference in the source aborts the compilation.
An index past the end of `REGS` panics. The model turns each of these into a result `ok == false`
or `None`. When a method fails, the model says which operand made it fail (through `Emittable`) and that the
output still keeps the invariants, but not what was emitted before the failing point.
The `assert` in `pop`/`pop_xmm` that the cursor stays at least 8 becomes a precondition
(`stackpos >= 16`), and the model proves that every caller meets it.

## Model

| member | source | states |
|---|---|---|
| Asm.IntReg | gen.go:32-57 | a register exists exactly for sizes 1, 4 and 8, and it is the register of that width in the requested family (%al/%eax/%rax or %cl/%ecx/%rcx) |
| Asm.IntRegUnique | gen.go:32-57 | a register's width and family determine it: get_int_reg has exactly one answer |
| Asm.SumDeltaAppend | gen.go:59-81 | the net stack effect of consecutive code is the sum of the parts' effects |
| Layout.GoRem | gen.go:606 | Go's `%` result is smaller in magnitude than the divisor and agrees with the Euclidean remainder for a non-negative dividend |
| Layout.AlignProperties | gen.go:605-612 | for n >= 0 and m > 0, align(n, m) is a multiple of m with n <= align(n, m) < n + m, and it equals n exactly when m divides n |
| Layout.AlignMultiple | gen.go:605-612 | align(n, m) is a multiple of m for every n, including negative sizes |
| Layout.FrameStep | gen.go:675-680 | laying out one more variable lowers the offset by its 8-aligned size and records that offset for a local variable |
| Layout.SumAlignedShape | gen.go:659-681 | the frame size is a non-negative multiple of 8 |
| Layout.SumAlignedMultiple | gen.go:659-681 | the frame size is a multiple of 8 whatever the sizes |
| Layout.FrameOffsetShape | gen.go:659-681 | each offset is at most 0, is a multiple of 8, is the previous offset minus this variable's aligned size, and does not exceed the previous offset |
| Layout.FrameOffsetMonotone | gen.go:659-681 | offsets do not increase in declaration order, parameters then locals |
| Layout.FrameMapLookup | gen.go:675-680 | with distinct variables, the recorded offset of each one is the offset of its own position |
| Layout.FrameMapKeys | gen.go:675-680 | offsets are recorded for exactly the local variables laid out |
| Layout.ParamSlotsMatchPushes | gen.go:662-676 | when every parameter is 1 to 8 bytes, parameter k's slot is -8(k+1), the slot its register was pushed to |
| Layout.SumAlignedSmall | gen.go:662-676 | parameters of at most 8 bytes take 8 bytes each |
| Layout.CallPad | gen.go:434-440 | the pad is 0 or 8, and it brings a cursor that is a multiple of 8 to a multiple of 16 |
| Access.LloadCode | gen.go:117-131 | a local load exists exactly for arrays, floats and widths 1/4/8; it ends in an access to off(%rbp), which is a `lea` into %rax exactly for an array, goes to %xmm0 for a float type, and otherwise goes to the %rax-family register of the value's width; it moves no stack |
| Access.GloadCode | gen.go:83-101 | a global load exists exactly for arrays and widths 1/4/8; it ends in an access to label+off(%rip), a `lea` exactly for an array, and otherwise goes to the %rax-family register of the value's width |
| Access.LsaveCode | gen.go:143-152 | a local store exists exactly for floating types and widths 1/4/8; it is one store to off(%rbp) from %xmm0 or from the %rax-family register of the value's width |
| Access.GsaveCode | gen.go:133-141 | a global store exists exactly for non-array types of width 1/4/8; it is one store to name+off(%rip) from the %rax-family register of that width |
| Access.DerefStoreCode | gen.go:154-163 | a store through a pointer reads the saved value from the stack top into %rcx, stores its width-sized part at off(%rax), and pops %rax |
| Access.LoadDerefCode | gen.go:359-375 | the load exists exactly when the pointee is an array (then nothing is loaded) or the result has width 1/4/8; in that case it reads off(%rax) into the %rcx-family register of the result's width and moves %rcx to %rax; an unknown pointee fails |
| Access.AssignConversion | gen.go:314-322 | a conversion is inserted exactly when source and target differ in being floating, and it leaves the value in the target class's primary register |
| Access.PathChain | gen.go:184-216 | a chain of field references built on a base resolves to that base and to the sum of its fields' offsets |
| Access.ResolvedOffset | gen.go:184-216 | the offset the recursive struct-reference walk reaches, outer field plus the inner chain, is the sum of all the chain's field offsets |
| Access.CharStoresImage | gen.go:463-466 | the character stores write exactly the bytes loff .. loff+len-1, each with its own character |
| Access.StringInitCode | gen.go:461-467 | the char-array initialiser is one store per character plus the terminator, and it moves no stack |
| Access.CharStoresNeutral | gen.go:463-466 | the character stores are one instruction per character and move no stack |
| Access.StringInitImage | gen.go:461-467 | the initialiser leaves 0 at loff, characters 1.. at their own offsets, and nothing past the last character, because the terminator's offset uses the outer `i`, which stays 0 |
| Data.DataInt | gen.go:614-626 | a directive exists exactly for non-array sizes 1/4/8; it has the initialiser's width and value |
| Data.DataInts | gen.go:628-635 | an initialiser list gives one directive per element, in order, and succeeds exactly when every element does |
| Data.DataIntsBytes | gen.go:628-635 | the directives of an initialiser list occupy exactly the sum of the elements' sizes |
| Data.DataCode | gen.go:628-639 | an initialised global is declared global and defined, then followed by its list's directives or by the one directive of its single literal, which must be an integer literal |
| Data.GlobalVarCode | gen.go:645-651 | without an initialiser a global is one `.lcomm` of its size; with one it is its data |
| Data.StringsCode | gen.go:582-590 | the string section succeeds exactly when every collected global is a string or a global variable |
| Data.StringsCodeLength | gen.go:582-590 | the string section has two entries per string literal and none for a global variable |
| Data.StringsCodeDefines | gen.go:582-590 | string k's label and its bytes come next to each other, after the entries of the strings before it, in the order of the globals |
| Data.FloCode | gen.go:591-602 | the float section is three entries per constant |
| Data.FloEntry | gen.go:591-602 | one float constant is its label, then the low and the high 32-bit word of its value, moving no stack |
| Data.FloStep | gen.go:591-602 | one more constant appends its entry with the next label and records that label for it |
| Data.FloCodeDefines | gen.go:591-602 | constant k's label base+k is defined right before its low and high words |
| Data.FloLabelsOwn | gen.go:591-602 | with distinct constants, each constant records the label defined before its own words |
| Data.FloLabelsFresh | gen.go:591-602 | every recorded float label is one of the labels drawn for this section |
| Marshal.Flags | gen.go:401-409 | the class of each argument is whether its type is floating |
| Marshal.CountSplit | gen.go:401-409 | every argument is counted in exactly one class |
| Marshal.CountStep | gen.go:401-409 | one more argument raises exactly the count of its own class |
| Marshal.CountMono | gen.go:401-409 | the class counts do not decrease along the arguments |
| Marshal.RoomFor | gen.go:406 | when the integer arguments fit in REGS, each integer argument's index into REGS is in range |
| Marshal.RegsDistinct | gen.go:8 | the integer argument registers are pairwise different |
| Marshal.ArgDestDistinct | gen.go:424-432 | different arguments travel in different registers |
| Marshal.IntDestsArePrefix | gen.go:424-432 | the integer registers used are exactly the first ones of REGS, one per integer argument |
| Marshal.FloDestsArePrefix | gen.go:424-432 | the floating registers used are exactly %xmm0 upward, one per floating argument |
| Marshal.IntDestsInRange | gen.go:424-432 | every integer argument's register is one of the first CountInt registers of REGS |
| Marshal.FloDestsInRange | gen.go:424-432 | every floating argument's register is one of %xmm0 .. %xmm(CountFlo-1) |
| Marshal.FitsPrefix | gen.go:401-409 | a prefix of arguments that fit also fits |
| Marshal.ArgDestPrefix | gen.go:424-432 | an argument's register depends only on the arguments before it |
| Marshal.ArgsStep | gen.go:410-417 | one more argument appends its code and the push of its primary register |
| Marshal.ExecAppend | gen.go:59-81 | running consecutive code is running its parts one after the other |
| Marshal.PushLocExec | gen.go:59-75 | push and push_xmm put the register's value on top of the stack |
| Marshal.PopLocExec | gen.go:65-81 | pop and pop_xmm move the top of the stack into the register and remove it |
| Marshal.SaveExec | gen.go:401-409 | the saving pushes leave the registers alone and put each argument register's value on the stack, in argument order |
| Marshal.SpillLast | gen.go:662-676 | the parameter spill is the spill of the earlier parameters followed by the last parameter's push |
| Marshal.ParamSpillExec | gen.go:662-676 | the prologue's spill puts each parameter register's value in its slot, in parameter order |
| Marshal.PopRangeExec | gen.go:424-432 | popping the pushed argument values puts each value into its own argument's register, removes exactly those values, and changes no other register |
| Marshal.ArgumentsDelivered | gen.go:410-432 | after the argument pushes and pops, the register of argument j holds argument j's value and the stack is as before |
| Marshal.ArgValues | gen.go:410-417 | one value per argument: what that argument's code leaves in its class's primary register |
| Marshal.ArgsCodeLast | gen.go:410-417 | the last argument's code runs after the earlier ones and pushes its primary register |
| Marshal.KeepsStackBalanced | gen.go:410-417 | argument code that leaves the stack as it found it, wherever it runs, is balanced where the call runs it |
| Marshal.ArgsCodeExec | gen.go:410-417 | the argument loop leaves each argument's value on the stack above the saved registers, in argument order |
| Marshal.CallSeqExec | gen.go:433-440 | the padded call sequence leaves the machine as it was: the pad is pushed and popped again, and the machine gives the count move and the call no effect |
| Marshal.FunCallExec | gen.go:398-449 | over a whole call: provided each argument's code leaves the machine stack as it found it (`KeepsStack`), at the `call` each argument register holds its argument's value, and afterwards the stack and every argument register are as before the call |
| Marshal.SaveRestoreIdentity | gen.go:441-449 | saving the argument registers and then popping them back in reverse restores every register and the stack |
| Marshal.RestoredReg | gen.go:441-449 | a register that the restoring pops write gets the value saved from it, and one they do not write keeps its value |
| Marshal.SavedValues | gen.go:401-409 | the values the saving pushes leave above the old stack are the argument registers' values, in order |
| Marshal.CallSeqAligned | gen.go:433-440 | with a cursor that is a multiple of 8, the call is reached at a multiple of 16, and the padded sequence as a whole leaves the depth unchanged |
| Codegen.TraceExtend | gen.go:12-14 | appending output keeps the record of the code already traced |
| Codegen.TraceAppend | gen.go:12-14 | emitting one instruction moves the traced depth by its stack effect, and a call is only traced at a multiple of 16 |
| Codegen.TraceMeaning | gen.go:433-440 | the traced depth is 8 plus the net stack effect of the function's code, and every call in it is aligned |
| Codegen.TracedCallsAligned | gen.go:433-440 | code traced from its own first instruction makes every call at a 16-byte-aligned depth |
| Codegen.BinopRoute | gen.go:313-349 | emit_binop's case order: assignment, then `==`, then any pointer-typed node, then `<` and `>`, then integer, then floating arithmetic; each route is taken exactly under its own condition and the earlier ones failing |
| Codegen.AllEmittableAt | gen.go:398-417 | every member of a list of emittable trees is emittable |
| Codegen.AllEmittableStep | gen.go:525-528 | an emittable prefix followed by an emittable tree is an emittable prefix |
| Codegen.ArrayInitStep | gen.go:456-459 | one more initialiser element appends its code and its store at loff + k·size |
| Codegen.InitSoFarStep | gen.go:456-459 | after one more element the running offset has grown by the element size and the code is the list's code so far |
| Codegen.Generator.constructor | gen.go:10 | the generator starts with an empty output, cursor 0, no labels and no recorded offsets |
| Codegen.Generator.Emit | gen.go:12-14 | one instruction is appended and the depth moves by its stack effect |
| Codegen.Generator.EmitCode | gen.go:12-17 | code that moves no stack is appended and the depth is unchanged |
| Codegen.Generator.MakeLabel | gen.go:489 | a label is the counter's next value, and the counter advances past it |
| Codegen.Generator.Push | gen.go:72-75 | push appends `push` and raises cursor and depth by exactly 8 |
| Codegen.Generator.Pop | gen.go:77-81 | pop appends `pop` and lowers cursor and depth by exactly 8, leaving at least 8 |
| Codegen.Generator.PushXmm | gen.go:59-63 | push_xmm appends its two instructions and raises cursor and depth by exactly 8 |
| Codegen.Generator.PopXmm | gen.go:65-70 | pop_xmm appends its two instructions and lowers cursor and depth by exactly 8, leaving at least 8 |
| Codegen.Generator.EmitExpr | gen.go:377-579 | a node succeeds exactly when it is emittable; every node keeps the cursor equal to the real depth and every call aligned; a node that succeeds leaves the cursor where it was |
| Codegen.Generator.EmitStmt | gen.go:450-528 | the statement cases of emit_expr (declaration, if, for, return, compound) succeed exactly when the statement is emittable, with the cursor balanced |
| Codegen.Generator.EmitReturn | gen.go:520-524 | the returned value's code, then `leave; ret`; it succeeds exactly when the value is emittable |
| Codegen.Generator.EmitOperator | gen.go:531-578 | the operator cases of emit_expr succeed exactly when the node is emittable, with the cursor balanced |
| Codegen.Generator.EmitLiteral | gen.go:379-391 | an integer literal is moved into %eax (int) or %rax (char, long); a floating one is loaded from its label into %xmm0; any other type fails |
| Codegen.Generator.EmitAddr | gen.go:475-483 | the address of a local is a `lea` of its slot and of a global a `lea` of its label; anything else fails |
| Codegen.Generator.EmitDeref | gen.go:484-486 | a dereference is the operand's code followed by the load through the operand's pointer type |
| Codegen.Generator.EmitIf | gen.go:487-501 | it succeeds exactly when the condition and both branches are emittable; the condition, a test and jump to a fresh label, the then-part, and either that label or a jump to a second fresh label around the else-part; the stack is balanced |
| Codegen.Generator.EmitElse | gen.go:492-498 | the jump over the else-part to a fresh label distinct from the else label, the else label, the else-part and the end label |
| Codegen.Generator.EmitFor | gen.go:502-519 | it succeeds exactly when its present parts are emittable; init, the loop label, the optional condition and exit jump, body, step, and the jump back, with two consecutive fresh labels; absent parts emit nothing |
| Codegen.Generator.EmitForLoop | gen.go:505-519 | after the initialiser: the next two labels, the loop head, the condition and exit, body, step and the jump back |
| Codegen.Generator.EmitForCond | gen.go:508-512 | a present condition is followed by the test and exit jump; an absent one emits nothing |
| Codegen.Generator.EmitOptExpr | gen.go:503-517 | an absent init or step emits nothing and changes nothing |
| Codegen.Generator.EmitCompound | gen.go:525-528 | the statements in order keep the cursor balanced; it succeeds exactly when every statement is emittable |
| Codegen.Generator.EmitNot | gen.go:535-539 | the operand's code, then a compare with 0, `sete` and zero-extension |
| Codegen.Generator.EmitBitwise | gen.go:540-551 | left, push, right, pop into %rcx, then `and` or `or` by the operator |
| Codegen.Generator.EmitLogical | gen.go:552-575 | && and \|\| short-circuit to one fresh label, with 0 (&&) or 1 (\|\|) as the early result and the other value as the fall-through result |
| Codegen.Generator.EmitBinop | gen.go:313-349 | the route taken is `BinopRoute`'s, and the code is that route's code (store, comparison, pointer, integer or floating arithmetic); it succeeds exactly when the route's operands are emittable; with no route it fails and emits nothing |
| Codegen.Generator.EmitAssignExpr | gen.go:314-323 | an assignment is the right-hand side, its conversion to the target's class, and the store |
| Codegen.Generator.EmitComp | gen.go:237-257 | a floating comparison converts both sides to double and compares with `ucomisd`; an integer one truncates both, compares, sets %al by the condition and zero-extends |
| Codegen.Generator.EmitAsDouble | gen.go:239-240 | an operand is evaluated and then converted to double |
| Codegen.Generator.EmitFloatComp | gen.go:238-245 | the floating comparison's exact code |
| Codegen.Generator.EmitIntComp | gen.go:246-256 | the integer comparison's exact code |
| Codegen.Generator.EmitIntOperand | gen.go:247-248 | an operand of integer comparison or arithmetic: its code followed by the conversion to an integer |
| Codegen.Generator.EmitIntArith | gen.go:259-287 | an operator other than + - * / fails with no code; otherwise left, push, right, move to %rcx, pop, then `mov $0,%edx; idiv` for division or the operator's instruction |
| Codegen.Generator.EmitIntArithRight | gen.go:277-286 | the right operand's part of integer arithmetic, which pops the saved left operand |
| Codegen.Generator.EmitFloatArith | gen.go:289-311 | an operator other than + - * / fails with no code; otherwise both operands as doubles, the right one moved to %xmm1, the left popped to %xmm0, and the operator's instruction |
| Codegen.Generator.EmitPointerArith | gen.go:171-182 | left, push, right, a multiply by the pointee size only when it exceeds 1, then an add; a pointer without pointee fails |
| Codegen.Generator.EmitIncDec | gen.go:351-357 | the operand's value, pushed, incremented or decremented by 1, stored back, and the old value popped |
| Codegen.Generator.EmitAssign | gen.go:218-235 | the store into a local, global, dereference or field chain by the target's kind (a field chain stores at the sum of its offsets); it succeeds exactly when the target is assignable; any other target fails |
| Codegen.Generator.EmitAssignVar | gen.go:228-233 | a store into a local or a global variable by its type; any other target fails |
| Codegen.Generator.EmitAssignDeref | gen.go:165-169 | the value is pushed, the pointer evaluated, and the store through it done at offset 0 |
| Codegen.Generator.EmitAssignDerefInt | gen.go:154-163 | the store through %rax exists exactly for widths 1/4/8 and pops the saved value |
| Codegen.Generator.EmitAssignStructRef | gen.go:184-200 | a store into a field chain is the store at the chain's base with the field's offset plus every enclosing field's offset |
| Codegen.Generator.EmitStoreAtBase | gen.go:185-199 | at the base of a chain, a local, global or dereference store at the accumulated offset; any other base fails |
| Codegen.Generator.EmitLoadStructRef | gen.go:202-216 | a load from a field chain is the load at the chain's base with the field's offset plus every enclosing field's offset |
| Codegen.Generator.EmitLoadAtBase | gen.go:203-215 | at the base of a chain, a local, global or dereference load at the accumulated offset; any other base fails |
| Codegen.Generator.EmitStoreThrough | gen.go:192-196 | through a dereference base: push, the pointer's code, and the store at the accumulated offset |
| Codegen.Generator.EmitLoadThrough | gen.go:210-212 | through a dereference base: the pointer's code and the load at the accumulated offset, with the dereference node's own type as the result type |
| Codegen.Generator.EmitDecl | gen.go:450-474 | a declaration without initialiser emits nothing; an empty list emits nothing and a non-empty one stores element k at loff + k·size; a char array takes its string's bytes and fails for anything else; a string is loaded by address and stored; any other value is evaluated and stored |
| Codegen.Generator.EmitLocalArrayInit | gen.go:454-460 | one element code and one store per list element, at consecutive element offsets; an empty list emits nothing |
| Codegen.Generator.EmitArrayElem | gen.go:456-459 | an element's code followed by its store at the given address, for a storable element type |
| Codegen.Generator.EmitInitItem | gen.go:456-459 | element k of a list: its code and store at the running offset, which then grows by the element size |
| Codegen.Generator.EmitLocalStringInit | gen.go:461-467 | the char-array initialiser's code, with the terminator at loff |
| Codegen.Generator.EmitFunCall | gen.go:398-449 | a call succeeds exactly when its integer arguments fit in REGS and every argument is emittable; it saves the argument registers, pushes each argument, pops them into their registers, makes the padded call, and restores the saved registers, with the cursor balanced |
| Codegen.Generator.EmitArgsAndCall | gen.go:410-449 | the argument pushes followed by the pops into the argument registers, the call sequence under the cursor at the call, and the restoring pops |
| Codegen.Generator.EmitCallRestore | gen.go:424-449 | the pops into argument registers, the call sequence, and the restoring pops, lowering the cursor by two words per argument |
| Codegen.Generator.EmitSaveArgRegs | gen.go:399-409 | the save succeeds exactly when the integer arguments fit in REGS; it pushes each argument's register in order and returns the class counts |
| Codegen.Generator.EmitArgs | gen.go:410-417 | each argument's code followed by the push of its value, raising the cursor by one word per argument; it succeeds exactly when every argument is emittable |
| Codegen.Generator.EmitArg | gen.go:411-416 | one argument's code, then the push of its class's primary register |
| Codegen.Generator.EmitPopArgs | gen.go:424-432 | the pops into the argument registers, last argument first, lowering the cursor by one word per argument |
| Codegen.Generator.EmitCallSeq | gen.go:433-440 | %eax gets the number of floating arguments, and the call is padded under the cursor test |
| Codegen.Generator.EmitDataSection | gen.go:581-603 | the section succeeds exactly when every global is a string or a variable; it is the strings then the float constants, with one fresh label per constant recorded for it |
| Codegen.Generator.EmitStrings | gen.go:582-590 | the strings part of the data section |
| Codegen.Generator.EmitFloats | gen.go:591-602 | one entry and one fresh label per float constant, each recorded for its constant |
| Codegen.Generator.EmitFloat | gen.go:592-601 | one more float constant extends the section's code and label map by its own entry |
| Codegen.Generator.EmitDataInt | gen.go:614-626 | one directive exactly when the size is 1, 4 or 8 and not an array |
| Codegen.Generator.EmitData | gen.go:628-639 | an initialised global's data |
| Codegen.Generator.EmitBss | gen.go:641-643 | one `.lcomm` of the variable's size |
| Codegen.Generator.EmitGlobalVar | gen.go:645-651 | data for an initialised global, bss otherwise |
| Codegen.Generator.EmitFuncPrologue | gen.go:653-686 | the prologue succeeds exactly when the integer parameters fit in REGS; it records every parameter's and local's offset and sets the cursor to 16 + 8·params + frame size, equal to the real depth |
| Codegen.Generator.EmitFuncHeader | gen.go:654-658 | the function header, including the push of %rbp, which raises cursor and depth to 8 and 16 |
| Codegen.Generator.EmitFrame | gen.go:678-685 | the locals' slots after the parameters', then the frame allocation by the negated frame size; the cursor grows by 8 plus the frame size |
| Codegen.Generator.AllocFrame | gen.go:682-685 | the frame reservation is emitted only for a non-empty frame, and the cursor grows by 8 plus the frame size |
| Codegen.Generator.EmitParams | gen.go:659-677 | each parameter register is spilled in order, and the parameters' offsets are the negated running sums of their aligned sizes |
| Codegen.Generator.LayoutLocals | gen.go:678-681 | the locals continue the same downward layout after the parameters |
| Codegen.Generator.SpillParam | gen.go:662-676 | one parameter: its register is narrowed if floating and pushed, and its class count advances |
| Codegen.Generator.NextSlot | gen.go:675-676 | one variable's slot is the next one down by its aligned size |
| Codegen.Generator.EmitFuncEpilogue | gen.go:688-691 | `leave; ret` |
| Codegen.Generator.EmitToplevel | gen.go:693-704 | a function succeeds exactly when its integer parameters fit in REGS and its body is emittable; its code is its prologue, body and epilogue, with every call aligned and every offset recorded; a declaration is its global data; any other node fails |
| Codegen.Generator.EmitFunction | gen.go:695-698 | the function case succeeds exactly when the parameters fit and the body is emittable: prologue, body and epilogue, and every call in the function is made at a 16-byte-aligned stack |

## Left out

- Text formatting: the model has no `emit`, `emit_label` or `printf` strings. Operand spellings such as `(%rax)` vs `off(%rax)` are folded into one operand form.
- The caller-name annotation of `emit_int` (gen.go:19-30) is left out. It uses Go runtime introspection and only annotates the text.
- Float constants' bit split into two 32-bit words uses `unsafe` memory access. `FloatWord(value, high)` stands for each word without computing it.
- What the instructions compute is not modelled. The model keeps their stack effect, plus a small machine for push, pop and the `%xmm` moves in argument passing. It does not say what arithmetic, comparisons, conversions or jumps compute.
- `make_label`, `is_flotype`, `is_inttype`, `quote_cstring`, `errorf` and `assert` are outside gen.go. They are modelled as a label counter, type-kind predicates, the raw bytes, and failure.
- The push/pop machine gives every instruction other than pushes, pops and the `%xmm` stack moves no effect. In particular it gives none to the `call` and to the move of the float count into `%eax`. The callee is not modelled, so `FunCallExec` takes a callee that returns with the stack as it found it.
- `globalenv.vars` and `flonums` are inputs to `EmitDataSection`.
- The `reversed_args` copy is not built. The pops run from the last argument down to the first directly.
- `v.loff` and `v.flabel` are not written into the tree. They are recorded in maps keyed by the node's `id`. A variable that was never laid out reads as offset 0.
- Statement nodes carry a void type, where the source leaves the type pointer nil. Nothing reads it.
- `%xmm` register numbers are not bounded. The source never checks them, and nothing in the model depends on a bound.
- Label targets are not checked: the model does not prove that each jump and its label are reached at the same stack depth.
- header.go and utiltest.c are not part of this model. header.go declares an older form of the data structures; utiltest.c tests a utility library that is not shown.
- Codegen.Generator.EmitFuncPrologue: requires every parameter's and local's size to be non-negative. The type model guarantees this for every type the generator meets.
- Codegen.Generator.EmitToplevel: same non-negative size requirement for a function.
- Codegen.Generator.EmitExpr: on failure it states which subtree is not emittable and that the output keeps the invariants, not what was emitted before the failing point. The source aborts there.

Quirks of gen.go that the model reproduces as written:

- A floating comparison emits only `ucomisd`: no `set` instruction selects the condition (gen.go:238-245).
- The prologue's double branch (gen.go:667-669) is unreachable, because `is_flotype` already covers double. Double parameters are therefore narrowed with `cvtpd2ps` like floats.
- The dereference case of `emit_load_struct_ref` loads by the dereference node's type (gen.go:212).
- The char-array initialiser's terminator goes to `loff + 0`, because the outer `i` is shadowed (gen.go:463-467).
- `emit_assign` tests for a dereference twice (gen.go:219-225). The second test is unreachable.
- Division clears `%edx` with `mov $0` rather than sign-extending (gen.go:282).
- A floating global is loaded and stored through the `%rax` family like an integer of its width, not through `%xmm0` (gen.go:83-101, 133-141; `GloadCode`, `GsaveCode`).
- Pointer arithmetic always adds, whatever the operator (gen.go:171-182).
- The prologue pushes one 8-byte register per parameter but lowers the offset by the parameter's size aligned to 8 (gen.go:662-677). For a parameter larger than 8 bytes, or of size 0, that parameter's slot and every later parameter's slot therefore do not hold the register pushed for it; `Layout.ParamSlotsMatchPushes` is stated only for sizes 1 to 8.

=== FILE: access.dfy ===
/**
 * The straight-line load and store helpers of the generator, as the instruction
 * sequences they emit (None where the source stops with a fatal error), and the
 * offset arithmetic of struct-field chains.
 *
 * The primary registers are %rax (integers, pointers) and %xmm0 (floating values).
 */
module Access {
  import opened Syntax
  import opened Asm

  function Last(code: seq<Instr>): Instr
    requires |code| > 0
  {
    code[|code| - 1]
  }

  /** Whether a type is loaded and stored through %xmm0 or as an array address, rather than by width. */
  predicate ByClass(t: Ctype) {
    t.kind == Array || t.kind == Float || t.kind == Double
  }

  predicate KnownWidth(t: Ctype) {
    t.size == 1 || t.size == 4 || t.size == 8
  }

  /** A byte-wide load clears %eax first, so that the whole of %rax holds the loaded value. */
  function ClearFor(t: Ctype, r: Reg): seq<Instr> {
    if t.size == 1 then [Op2(Mov, Imm(0), R(r))] else []
  }

  /**
   * emit_lload: load the local at `off(%rbp)`.  An array yields its address (it decays to
   * a pointer); a float is widened to double in %xmm0; a double is moved to %xmm0; any
   * other type is moved into the part of %rax of its width.
   */
  function LloadCode(t: Ctype, off: int): (code: Option<seq<Instr>>)
    ensures code.Some? <==> ByClass(t) || KnownWidth(t)
    ensures code.Some? ==> Neutral(code.value) && |code.value| >= 1
    ensures code.Some? ==> Last(code.value).Op2? && Last(code.value).src == Frame(off)
    ensures code.Some? ==> (Last(code.value).opc == Lea <==> t.kind == Array)
    ensures code.Some? && IsFloType(t) ==> Last(code.value).dst == X(0)
    ensures code.Some? && !ByClass(t) ==>
      Last(code.value).dst.R? && Width(Last(code.value).dst.reg) == t.size && InFamily(Last(code.value).dst.reg, 'a')
    ensures code.Some? && t.kind == Array ==> Last(code.value).dst == R(RAX)
  {
    if t.kind == Array then Some([Op2(Lea, Frame(off), R(RAX))])
    else if t.kind == Float then Some([Op2(Cvtps2pd, Frame(off), X(0))])
    else if t.kind == Double then Some([Op2(Movsd, Frame(off), X(0))])
    else
      match IntReg(t, 'a')
      case None => None
      case Some(reg) => Some(ClearFor(t, EAX) + [Op2(Mov, Frame(off), R(reg))])
  }

  /**
   * emit_gload: load the global `sym` at displacement `off`.  An array yields its address;
   * every other type, floating ones included, is moved into %rax by its width.
   */
  function GloadCode(t: Ctype, sym: Sym, off: int): (code: Option<seq<Instr>>)
    ensures code.Some? <==> t.kind == Array || KnownWidth(t)
    ensures code.Some? ==> Neutral(code.value) && |code.value| >= 1
    ensures code.Some? ==> Last(code.value).Op2? && Last(code.value).src == Rip(sym, off)
    ensures code.Some? ==> (Last(code.value).opc == Lea <==> t.kind == Array)
    ensures code.Some? && t.kind != Array ==>
      Last(code.value).dst.R? && Width(Last(code.value).dst.reg) == t.size && InFamily(Last(code.value).dst.reg, 'a')
  {
    if t.kind == Array then Some([Op2(Lea, Rip(sym, off), R(RAX))])
    else
      match IntReg(t, 'a')
      case None => None
      case Some(reg) => Some(ClearFor(t, EAX) + [Op2(Mov, Rip(sym, off), R(reg))])
  }

  /**
   * emit_lsave: store the primary register into the local at `off(%rbp)`: a float is
   * narrowed from the double in %xmm0, a double is stored from %xmm0, any other type is
   * stored from the part of %rax of its width.
   */
  function LsaveCode(t: Ctype, off: int): (code: Option<seq<Instr>>)
    ensures code.Some? <==> IsFloType(t) || KnownWidth(t)
    ensures code.Some? ==> Neutral(code.value) && |code.value| == 1
    ensures code.Some? ==> code.value[0].Op2? && code.value[0].dst == Frame(off)
    ensures code.Some? && IsFloType(t) ==> code.value[0].src == X(0)
    ensures code.Some? && !IsFloType(t) ==>
      code.value[0].src.R? && Width(code.value[0].src.reg) == t.size && InFamily(code.value[0].src.reg, 'a')
  {
    if t.kind == Float then Some([Op2(Cvtpd2ps, X(0), Frame(off))])
    else if t.kind == Double then Some([Op2(Movsd, X(0), Frame(off))])
    else
      match IntReg(t, 'a')
      case None => None
      case Some(reg) => Some([Op2(Mov, R(reg), Frame(off))])
  }

  /** emit_gsave: store %rax, by the type's width, into the global `name` at displacement `off`; never an array. */
  function GsaveCode(name: string, t: Ctype, off: int): (code: Option<seq<Instr>>)
    ensures code.Some? <==> t.kind != Array && KnownWidth(t)
    ensures code.Some? ==> Neutral(code.value) && |code.value| == 1
    ensures code.Some? ==> code.value[0].Op2? && code.value[0].dst == Rip(Named(name), off)
    ensures code.Some? ==>
      code.value[0].src.R? && Width(code.value[0].src.reg) == t.size && InFamily(code.value[0].src.reg, 'a')
  {
    if t.kind == Array then None
    else
      match IntReg(t, 'a')
      case None => None
      case Some(reg) => Some([Op2(Mov, R(reg), Rip(Named(name), off))])
  }

  /**
   * emit_assign_deref_int: with the address in %rax and the value saved on top of the
   * stack, fetch the value into %rcx, store it by the type's width at `off(%rax)`, and pop
   * the saved value back into %rax.
   */
  function DerefStoreCode(t: Ctype, off: int): (code: Option<seq<Instr>>)
    ensures code.Some? <==> KnownWidth(t)
    ensures code.Some? ==> |code.value| == 3 && code.value[0] == Op2(Mov, Mem(RSP, 0), R(RCX)) && code.value[2] == PopReg(RAX)
    ensures code.Some? ==>
      code.value[1].Op2? && code.value[1].dst == Mem(RAX, off) &&
      code.value[1].src.R? && Width(code.value[1].src.reg) == t.size && InFamily(code.value[1].src.reg, 'c')
  {
    match IntReg(t, 'c')
    case None => None
    case Some(reg) => Some([Op2(Mov, Mem(RSP, 0), R(RCX)), Op2(Mov, R(reg), Mem(RAX, off)), PopReg(RAX)])
  }

  /** Whether the load through a pointer of type `operandType` is skipped (the source's nil element is None). */
  function PointsToArray(operandType: Ctype): Option<bool> {
    if operandType.kind != Ptr then Some(false)
    else if operandType.ptr.None? then None
    else Some(operandType.ptr.value.kind == Array)
  }

  /** Whether a load through a pointer succeeds: nothing to load through a pointer to an array, otherwise a known width. */
  predicate DerefLoads(resultType: Ctype, operandType: Ctype) {
    PointsToArray(operandType) == Some(true) || (PointsToArray(operandType) == Some(false) && KnownWidth(resultType))
  }

  /**
   * emit_load_deref: with the address in %rax, load `off(%rax)` by the width of
   * `resultType` into %rcx and move it to %rax.  Through a pointer to an array nothing is
   * loaded: the address already is the array's address.
   */
  function LoadDerefCode(resultType: Ctype, operandType: Ctype, off: int): (code: Option<seq<Instr>>)
    ensures PointsToArray(operandType) == Some(true) ==> code == Some([])
    ensures PointsToArray(operandType) == Some(false) ==> (code.Some? <==> KnownWidth(resultType))
    ensures PointsToArray(operandType).None? ==> code.None?
    ensures code.Some? <==> DerefLoads(resultType, operandType)
    ensures code.Some? ==> Neutral(code.value)
    ensures code.Some? && |code.value| > 0 ==>
      |code.value| >= 2 &&
      code.value[|code.value| - 2].Op2? && code.value[|code.value| - 2].src == Mem(RAX, off) &&
      code.value[|code.value| - 2].dst.R? && Width(code.value[|code.value| - 2].dst.reg) == resultType.size &&
      InFamily(code.value[|code.value| - 2].dst.reg, 'c') &&
      Last(code.value) == Op2(Mov, R(RCX), R(RAX))
  {
    match PointsToArray(operandType)
    case None => None
    case Some(true) => Some([])
    case Some(false) =>
      match IntReg(resultType, 'c')
      case None => None
      case Some(reg) => Some(ClearFor(resultType, ECX) + [Op2(Mov, Mem(RAX, off), R(reg)), Op2(Mov, R(RCX), R(RAX))])
  }

  /** emit_toint: a floating value in %xmm0 is truncated into %eax. */
  function ToIntCode(t: Ctype): seq<Instr> {
    if IsFloType(t) then [Op2(Cvttsd2si, X(0), R(EAX))] else []
  }

  /** emit_todouble: an integer value in %eax is converted into %xmm0. */
  function ToDoubleCode(t: Ctype): seq<Instr> {
    if IsFloType(t) then [] else [Op2(Cvtsi2sd, R(EAX), X(0))]
  }

  /**
   * The coercion of an assignment's right-hand side (of type `source`) to its target's
   * type: a conversion is inserted exactly when the two types differ in floating-ness,
   * and it leaves the value in the primary register of the target's class.
   */
  function AssignConversion(target: Ctype, source: Ctype): (code: seq<Instr>)
    ensures |code| == 0 <==> IsFloType(target) == IsFloType(source)
    ensures |code| <= 1 && Neutral(code)
    ensures |code| == 1 ==> code[0].Op2? && code[0].dst == (if IsFloType(target) then X(0) else R(EAX))
  {
    if IsFloType(target) then ToDoubleCode(source) else ToIntCode(source)
  }

  /** The node a chain of struct-field references starts from. */
  function ChainBase(e: Ast): Ast {
    if e.StructRef? then ChainBase(e.struc) else e
  }

  /** The sum of the field offsets along a chain of struct-field references. */
  function ChainSum(e: Ast): int {
    if e.StructRef? then e.field.offset + ChainSum(e.struc) else 0
  }

  /** The sum of the offsets of a sequence of fields. */
  function SumOffsets(fields: seq<Ctype>): int {
    if fields == [] then 0 else SumOffsets(fields[..|fields| - 1]) + fields[|fields| - 1].offset
  }

  /** The reference `base.f1.f2 ... fn` for the fields `[f1, ..., fn]`. */
  function Path(base: Ast, fields: seq<Ctype>): Ast {
    if fields == [] then base
    else
      var f := fields[|fields| - 1];
      StructRef(f, Path(base, fields[..|fields| - 1]), f)
  }

  /** A chain built from a base and fields starts at that base and sums those fields' offsets. */
  lemma {:induction false} PathChain(base: Ast, fields: seq<Ctype>)
    requires !base.StructRef?
    ensures ChainBase(Path(base, fields)) == base
    ensures ChainSum(Path(base, fields)) == SumOffsets(fields)
  {
    if fields != [] {
      PathChain(base, fields[..|fields| - 1]);
    }
  }

  /**
   * The offset a load or store of `base.f1 ... fn` uses relative to its base: the last
   * field's own offset plus that of every intermediate field, i.e. the sum over all of them.
   */
  lemma ResolvedOffset(base: Ast, fields: seq<Ctype>)
    requires !base.StructRef? && |fields| >= 1
    ensures var e := Path(base, fields);
      ChainBase(e.struc) == base && e.field.offset + ChainSum(e.struc) == SumOffsets(fields)
  {
    PathChain(base, fields[..|fields| - 1]);
  }

  /** The `movb` stores of the characters of a string, at `loff`, `loff + 1`, ... */
  function CharStores(loff: int, val: seq<Byte>): seq<Instr> {
    if val == [] then []
    else CharStores(loff, val[..|val| - 1]) + [Op2(Movb, Imm(val[|val| - 1]), Frame(loff + |val| - 1))]
  }

  /** The bytes a sequence of `movb $v, d(%rbp)` stores leaves in the frame, by offset. */
  function ByteImage(code: seq<Instr>): map<int, int> {
    if code == [] then map[]
    else
      var m := ByteImage(code[..|code| - 1]);
      match Last(code)
      case Op2(Movb, Imm(v), Mem(RBP, d)) => m[d := v]
      case _ => m
  }

  /** The character stores write exactly the offsets `loff .. loff + |val| - 1`, each with its character. */
  lemma {:induction false} CharStoresImage(loff: int, val: seq<Byte>)
    ensures forall d :: d in ByteImage(CharStores(loff, val)) <==> loff <= d < loff + |val|
    ensures forall i :: 0 <= i < |val| ==> ByteImage(CharStores(loff, val))[loff + i] == val[i]
  {
    if val != [] {
      var n := |val|;
      var init := val[..n - 1];
      CharStoresImage(loff, init);
      var code := CharStores(loff, val);
      assert code[..|code| - 1] == CharStores(loff, init);
      forall i | 0 <= i < n - 1 ensures val[i] == init[i] { }
    }
  }

  /**
   * The code of a local char-array initialised from a string literal: the characters, then
   * a zero byte at `loff + i`, where `i` is the outer variable that the loop's own `i`
   * shadows, so it is always 0.
   */
  function StringInitCode(loff: int, val: seq<Byte>): (code: seq<Instr>)
    ensures Neutral(code) && |code| == |val| + 1
  {
    CharStoresNeutral(loff, val);
    var i := 0;
    CharStores(loff, val) + [Op2(Movb, Imm(0), Frame(loff + i))]
  }

  lemma {:induction false} CharStoresNeutral(loff: int, val: seq<Byte>)
    ensures Neutral(CharStores(loff, val)) && |CharStores(loff, val)| == |val|
  {
    if val != [] {
      CharStoresNeutral(loff, val[..|val| - 1]);
    }
  }

  /**
   * What the string initialiser leaves in the frame: the zero byte lands on the first
   * character's slot, every later character stays, and the byte just past the last
   * character is never written, so the array is not terminated there.
   */
  lemma StringInitImage(loff: int, val: seq<Byte>)
    ensures forall d :: d in ByteImage(StringInitCode(loff, val)) <==> loff <= d < loff + |val| || d == loff
    ensures ByteImage(StringInitCode(loff, val))[loff] == 0
    ensures forall i :: 1 <= i < |val| ==> ByteImage(StringInitCode(loff, val))[loff + i] == val[i]
    ensures |val| > 0 ==> loff + |val| !in ByteImage(StringInitCode(loff, val))
  {
    var code := StringInitCode(loff, val);
    CharStoresImage(loff, val);
    assert code[..|code| - 1] == CharStores(loff, val);
  }
}

=== FILE: asm.dfy ===
/**
 * The emitted assembly, as abstract instructions rather than formatted text, and the
 * register choice by operand size (get_int_reg).
 *
 * Instructions are uninterpreted tokens, except for what they do to the stack pointer
 * (`Delta`), which is what the stack-depth properties are about.
 */
module Asm {
  import opened Syntax

  datatype Reg = RAX | EAX | AL | RCX | ECX | CL | EDX | RDX | RDI | RSI | R8 | R9 | RBP | RSP

  /** A symbol: a name from the program, or a label made by the label counter (make_label). */
  datatype Sym = Named(name: string) | Local(n: nat)

  /** Operands in AT&T order: `Mem(b, d)` is `d(%b)`, `Rip(s, d)` is `s+d(%rip)`, `X(k)` is `%xmmk`. */
  datatype Operand = R(reg: Reg) | X(xmm: int) | Imm(v: int) | Mem(base: Reg, disp: int) | Rip(sym: Sym, disp: int)

  datatype Opcode =
    | Mov | Movb | Movzb | Movsd | Lea
    | Add | Sub | Imul | And | Or | Cmp | Test
    | Ucomisd | Addsd | Subsd | Mulsd | Divsd
    | Cvttsd2si | Cvtsi2sd | Cvtps2pd | Cvtpd2ps

  /** The condition of a `set` instruction writing %al: setl, setg, sete. */
  datatype Cond = SetL | SetG | SetE

  datatype JumpKind = Je | Jne | Jmp

  datatype Instr =
    | PushReg(r: Reg)
    | PopReg(r: Reg)
    | Op2(opc: Opcode, src: Operand, dst: Operand)
    | Idiv(divisor: Reg)
    | SetCC(cc: Cond)
    | Jump(kind: JumpKind, target: Sym)
    | Def(sym: Sym)
    | Call(fname: string)
    | Leave
    | Ret
    | Text
    | DataSection
    | Global(name: string)
    | Lcomm(name: string, size: int)
    | ByteData(v: int)
    | LongData(v: int)
    | QuadData(v: int)
    | StringData(bytes: seq<Byte>)
    | FloatWord(value: real, high: bool)

  /** `off(%rbp)`: a slot in the current frame. */
  function Frame(off: int): Operand {
    Mem(RBP, off)
  }

  /** The integer argument registers, in calling-convention order (REGS). */
  const REGS: seq<Reg> := [RDI, RSI, RDX, RCX, R8, R9]

  /**
   * How many bytes an instruction pushes onto the machine stack (negative: pops).
   * `leave` and `ret` leave the function (the code after them is reached only through
   * a label); they count as zero here.
   */
  function Delta(i: Instr): int {
    match i
    case PushReg(_) => 8
    case PopReg(_) => -8
    case Op2(Sub, Imm(n), R(RSP)) => n
    case Op2(Add, Imm(n), R(RSP)) => -n
    case _ => 0
  }

  /** An instruction that neither moves the stack pointer nor calls. */
  predicate Quiet(i: Instr) {
    Delta(i) == 0 && !i.Call?
  }

  predicate Neutral(code: seq<Instr>) {
    forall k :: 0 <= k < |code| ==> Quiet(code[k])
  }

  // QuietOne and QuietTwo follow from the definition of Neutral. They are proof hints
  // that spare the emitters from unfolding Neutral's quantifier at each short piece.

  /** A single quiet instruction is neutral code. */
  lemma QuietOne(a: Instr)
    requires Quiet(a)
    ensures Neutral([a])
  {
  }

  /** Two quiet instructions are neutral code. */
  lemma QuietTwo(a: Instr, b: Instr)
    requires Quiet(a) && Quiet(b)
    ensures Neutral([a, b])
  {
  }

  /** The net number of bytes a sequence of instructions pushes. */
  function SumDelta(code: seq<Instr>): int {
    if code == [] then 0 else SumDelta(code[..|code| - 1]) + Delta(code[|code| - 1])
  }

  lemma {:induction false} SumDeltaAppend(a: seq<Instr>, b: seq<Instr>)
    ensures SumDelta(a + b) == SumDelta(a) + SumDelta(b)
    decreases |b|
  {
    if b == [] {
      assert a + b == a;
    } else {
      assert (a + b)[..|a + b| - 1] == a + b[..|b| - 1];
      SumDeltaAppend(a, b[..|b| - 1]);
    }
  }

  /** Width in bytes of an integer register. */
  function Width(r: Reg): int {
    match r
    case AL | CL => 1
    case EAX | ECX | EDX => 4
    case _ => 8
  }

  /** Whether `r` is one of the two scratch-register families %rax ('a') and %rcx ('c'). */
  predicate InFamily(r: Reg, letter: char) {
    (letter == 'a' && (r == AL || r == EAX || r == RAX)) ||
    (letter == 'c' && (r == CL || r == ECX || r == RCX))
  }

  /**
   * get_int_reg: the register of family `letter` whose width is the type's size; no
   * register (the source's fatal error) for a size other than 1, 4 or 8.
   */
  function IntReg(t: Ctype, letter: char): (reg: Option<Reg>)
    requires letter == 'a' || letter == 'c'
    ensures reg.Some? <==> t.size == 1 || t.size == 4 || t.size == 8
    ensures reg.Some? ==> Width(reg.value) == t.size && InFamily(reg.value, letter)
  {
    match t.size
    case 1 => Some(if letter == 'a' then AL else CL)
    case 4 => Some(if letter == 'a' then EAX else ECX)
    case 8 => Some(if letter == 'a' then RAX else RCX)
    case _ => None
  }

  /** Width and family determine the register: get_int_reg has exactly one answer. */
  lemma IntRegUnique(t: Ctype, letter: char, r: Reg)
    requires letter == 'a' || letter == 'c'
    requires Width(r) == t.size && InFamily(r, letter)
    ensures IntReg(t, letter) == Some(r)
  {
  }
}

=== FILE: codegen.dfy ===
/**
 * The generator: its state (the stack cursor `stackpos`, the output, the label counter,
 * and the frame offsets and float-constant labels it assigns) and the emitters that walk
 * the tree.
 *
 * Besides the source's own state, a generator carries the stack depth implied by the
 * instructions emitted so far in the current function (`depth`, counting the return
 * address, so 8 at entry).  The instruction-level emitter refuses a `call` at a depth
 * that is not a multiple of 16, so every emitter that verifies against it never
 * produces one.
 */
module Codegen {
  import opened Syntax
  import opened Asm
  import opened Layout
  import opened Access
  import opened Marshal
  import opened Data

  /** The stack depth before the k-th instruction of a function's code, counting the return address. */
  function DepthAt(code: seq<Instr>, k: nat): int
    requires k <= |code|
  {
    8 + SumDelta(code[..k])
  }

  /**
   * Every call in the code is made with the stack pointer 16-byte aligned (stated
   * instruction by instruction from the end; `CallsAlignedAt` gives it for each index).
   */
  predicate CallsAligned(code: seq<Instr>) {
    code == [] ||
    (var n := |code| - 1;
     CallsAligned(code[..n]) && (code[n].Call? ==> (8 + SumDelta(code[..n])) % 16 == 0))
  }

  /**
   * The generator's record of the current function's code, `out[fstart..n]`, kept
   * instruction by instruction from the end: the stack starts at depth 8, each
   * instruction moves it by its stack effect, it ends at `depth`, and every call is made
   * at a depth that is a multiple of 16.  `TraceMeaning` restates it as a sum and
   * `CallsAligned`.
   */
  predicate Trace(out: seq<Instr>, fstart: nat, n: nat, depth: int)
    decreases n
  {
    fstart <= n <= |out| &&
    if n == fstart then depth == 8
    else
      Trace(out, fstart, n - 1, depth - Delta(out[n - 1])) &&
      (out[n - 1].Call? ==> (depth - Delta(out[n - 1])) % 16 == 0)
  }

  /** Code traced from its first instruction makes every call at an aligned depth. */
  lemma TracedCallsAligned(o: seq<Instr>, code: seq<Instr>, depth: int)
    requires Trace(o + code, |o|, |o + code|, depth)
    ensures CallsAligned(code)
  {
    TraceMeaning(o + code, |o|, |o + code|, depth);
    Tail(o, code);
  }

  /** What is traced stays traced when more code follows it. */
  lemma {:induction false} TraceExtend(out: seq<Instr>, fstart: nat, n: nat, depth: int, more: seq<Instr>)
    requires Trace(out, fstart, n, depth)
    ensures Trace(out + more, fstart, n, depth)
    decreases n
  {
    if n > fstart {
      TraceExtend(out, fstart, n - 1, depth - Delta(out[n - 1]), more);
      assert (out + more)[n - 1] == out[n - 1];
    }
  }

  /** Appending an instruction moves the traced depth by its stack effect; a call must come at an aligned depth. */
  lemma TraceAppend(out: seq<Instr>, fstart: nat, depth: int, i: Instr)
    requires Trace(out, fstart, |out|, depth)
    requires i.Call? ==> depth % 16 == 0
    ensures Trace(out + [i], fstart, |out| + 1, depth + Delta(i))
  {
    TraceExtend(out, fstart, |out|, depth, [i]);
  }

  /** A traced stretch of code ends at 8 plus its net effect, and all its calls are aligned. */
  lemma {:induction false} TraceMeaning(out: seq<Instr>, fstart: nat, n: nat, depth: int)
    requires Trace(out, fstart, n, depth)
    ensures depth == 8 + SumDelta(out[fstart..n])
    ensures CallsAligned(out[fstart..n])
    decreases n
  {
    var c := out[fstart..n];
    if n > fstart {
      TraceMeaning(out, fstart, n - 1, depth - Delta(out[n - 1]));
      assert c[..|c| - 1] == out[fstart..n - 1];
      assert c[|c| - 1] == out[n - 1];
    } else {
      assert c == [];
    }
  }

  // Cat, Tail, MergeUpdate and NoCode state sequence and map identities Dafny already
  // knows. They are proof hints: calling one at an emitter's step names the exact
  // regrouping needed, which keeps the cost of verifying each emitter low.

  /**
   * Appending one more piece after the code emitted so far: the solver has no
   * associativity rule for sequences, so the emitters regroup with this at each step.
   */
  lemma Cat(o: seq<Instr>, code: seq<Instr>, piece: seq<Instr>)
    ensures o + code + piece == o + (code + piece)
  {
  }

  /** The code appended after `o` is what follows position `|o|`. */
  lemma Tail(o: seq<Instr>, code: seq<Instr>)
    ensures (o + code)[|o|..|o + code|] == code
  {
  }

  /** Recording one more offset over a merged map. */
  lemma MergeUpdate<T>(a: map<nat, T>, b: map<nat, T>, k: nat, x: T)
    ensures (a + b)[k := x] == a + b[k := x]
  {
  }

  /** Nothing emitted is the empty piece. */
  lemma NoCode(o: seq<Instr>)
    ensures o + [] == o
  {
  }

  /** The frame allocation at the end of the prologue: `add` of the (negative) offset to %rsp, when there is any frame. */
  function FrameCode(off: int): seq<Instr> {
    if off != 0 then [Op2(Add, Imm(off), R(RSP))] else []
  }

  /** The arithmetic instruction of an integer operator; division is emitted separately. */
  function IntOp(op: BinOp): Opcode {
    match op
    case Plus => Add
    case Minus => Sub
    case _ => Imul
  }

  /** The arithmetic instruction of a floating operator. */
  function FloOp(op: BinOp): Opcode {
    match op
    case Plus => Addsd
    case Minus => Subsd
    case Times => Mulsd
    case _ => Divsd
  }

  predicate ArithOp(op: BinOp) {
    op == Plus || op == Minus || op == Times || op == Divide
  }

  /** The code of an initialiser list: element k's own code, then its store at `loff + k * size`. */
  function ArrayInitCode(parts: seq<seq<Instr>>, t: Ctype, loff: int): seq<Instr>
    requires IsFloType(t) || KnownWidth(t)
  {
    if parts == [] then []
    else
      var k := |parts| - 1;
      ArrayInitCode(parts[..k], t, loff) + parts[k] + LsaveCode(t, loff + k * t.size).value
  }

  /**
   * emit_func_prologue's code: the function is made global and defined, the frame base
   * is saved and set, each parameter's register is spilled, and the frame is allocated.
   */
  function PrologueCode(fn: Ast): seq<Instr>
    requires fn.Func? && Fits(Flags(fn.params))
  {
    FuncHeader(fn.fname) + ParamSpill(Flags(fn.params)) + FrameCode(-SumAligned(fn.params + fn.localvars))
  }

  /** The start of a function: text section, global symbol, its label, and the new frame base. */
  function FuncHeader(fname: string): seq<Instr> {
    [Text, Global(fname), Def(Named(fname)), PushReg(RBP), Op2(Mov, R(RSP), R(RBP))]
  }

  /**
   * The state of the initialiser-list loop after the elements `parts`: nothing yet, or a
   * storable element type, the offset of the next element, and the code so far.
   */
  ghost predicate InitSoFar(t: Option<Ctype>, loff: int, off: int, code: seq<Instr>, parts: seq<seq<Instr>>) {
    if parts == [] then code == [] && off == 0
    else (t.Some? && (IsFloType(t.value) || KnownWidth(t.value)) &&
      off == |parts| * t.value.size && code == ArrayInitCode(parts, t.value, loff))
  }

  /** One more element of an initialiser list: its code and its store come after the earlier elements'. */
  lemma ArrayInitStep(parts: seq<seq<Instr>>, p: seq<Instr>, t: Ctype, loff: int)
    requires IsFloType(t) || KnownWidth(t)
    ensures ArrayInitCode(parts + [p], t, loff) ==
      ArrayInitCode(parts, t, loff) + p + LsaveCode(t, loff + |parts| * t.size).value
  {
    assert (parts + [p])[..|parts|] == parts;
  }

  /** The loop state after one more element: its code and store appended, the offset one element on. */
  lemma InitSoFarStep(t: Option<Ctype>, loff: int, off: int, code: seq<Instr>, parts: seq<seq<Instr>>, p: seq<Instr>)
    requires InitSoFar(t, loff, off, code, parts)
    requires t.Some? && (IsFloType(t.value) || KnownWidth(t.value))
    ensures InitSoFar(t, loff, off + t.value.size, code + (p + LsaveCode(t.value, loff + off).value), parts + [p])
  {
    var elt := t.value;
    assert off == |parts| * elt.size;
    assert ArrayInitCode(parts, elt, loff) == code by {
      if parts == [] {
        assert code == [];
      }
    }
    ArrayInitStep(parts, p, elt, loff);
    assert |parts + [p]| * elt.size == off + elt.size;
  }

  /** The branch emit_binop takes for a node: the comparisons carry their condition code. */
  datatype Route = AssignRoute | CompRoute(cc: Cond) | PointerRoute | IntArithRoute | FloArithRoute | NoRoute

  /**
   * emit_binop's order of tests: assignment, then `==`, then a node of pointer type
   * (whatever its operator, so a pointer-typed `<` is pointer arithmetic), then `<` and
   * `>`, then integer or floating arithmetic by the node's type.
   */
  function BinopRoute(op: BinOp, t: Ctype): (r: Route)
    ensures r == AssignRoute <==> op == Assign
    ensures r == CompRoute(SetE) <==> op == Eq
    ensures r == PointerRoute <==> op != Assign && op != Eq && t.kind == Ptr
    ensures r == CompRoute(SetL) <==> op == Lt && t.kind != Ptr
    ensures r == CompRoute(SetG) <==> op == Gt && t.kind != Ptr
    ensures r == IntArithRoute <==> op !in {Assign, Eq, Lt, Gt} && t.kind != Ptr && IsIntType(t)
    ensures r == FloArithRoute <==> op !in {Assign, Eq, Lt, Gt} && t.kind != Ptr && IsFloType(t)
    ensures r == NoRoute <==> op !in {Assign, Eq, Lt, Gt} && t.kind != Ptr && !IsIntType(t) && !IsFloType(t)
  {
    if op == Assign then AssignRoute
    else if op == Eq then CompRoute(SetE)
    else if t.kind == Ptr then PointerRoute
    else if op == Lt then CompRoute(SetL)
    else if op == Gt then CompRoute(SetG)
    else if IsIntType(t) then IntArithRoute
    else if IsFloType(t) then FloArithRoute
    else NoRoute
  }

  /** A floating comparison: both sides as doubles, the left one through the stack into %xmm1, then `ucomisd`. */
  function FloCompCode(ast: Ast, lc: seq<Instr>, rc: seq<Instr>): seq<Instr>
    requires ast.Binary?
  {
    lc + ToDoubleCode(ast.left.ctype) + PushLoc(Xmm(0)) +
      rc + ToDoubleCode(ast.right.ctype) + PopLoc(Xmm(1)) + [Op2(Ucomisd, X(0), X(1))]
  }

  /** An integer comparison: the left value through the stack into %rcx, `cmp`, and the condition as 0 or 1 in %eax. */
  function IntCompCode(cc: Cond, ast: Ast, lc: seq<Instr>, rc: seq<Instr>): seq<Instr>
    requires ast.Binary?
  {
    lc + ToIntCode(ast.left.ctype) + [PushReg(RAX)] +
      rc + ToIntCode(ast.right.ctype) + [PopReg(RCX)] + [Op2(Cmp, R(RAX), R(RCX)), SetCC(cc), Op2(Movzb, R(AL), R(EAX))]
  }

  /** The second half of integer arithmetic: the right value into %rcx, the left one popped into %rax, and the operation. */
  function IntArithTail(ast: Ast, rc: seq<Instr>): seq<Instr>
    requires ast.Binary?
  {
    rc + ToIntCode(ast.right.ctype) + [Op2(Mov, R(RAX), R(RCX))] + [PopReg(RAX)] +
      (if ast.op == Divide then [Op2(Mov, Imm(0), R(EDX)), Idiv(RCX)] else [Op2(IntOp(ast.op), R(RCX), R(RAX))])
  }

  /** Integer arithmetic: the left value saved on the stack while the right one is computed. */
  function IntArithCode(ast: Ast, lc: seq<Instr>, rc: seq<Instr>): seq<Instr>
    requires ast.Binary?
  {
    lc + ToIntCode(ast.left.ctype) + [PushReg(RAX)] + IntArithTail(ast, rc)
  }

  /** Floating arithmetic: the right value into %xmm1, the left one popped into %xmm0, and the operation. */
  function FloArithCode(ast: Ast, lc: seq<Instr>, rc: seq<Instr>): seq<Instr>
    requires ast.Binary?
  {
    lc + ToDoubleCode(ast.left.ctype) + PushLoc(Xmm(0)) + rc + ToDoubleCode(ast.right.ctype) +
      [Op2(Movsd, X(0), X(1))] + PopLoc(Xmm(0)) + [Op2(FloOp(ast.op), X(1), X(0))]
  }

  /**
   * The loop of a for statement: the head label `begin`, the condition's code and, when
   * there is a condition, the exit to `end` when it is 0, the body, the step and the jump back.
   */
  function ForLoopCode(begin: nat, end: nat, cc: seq<Instr>, hasCond: bool, bc: seq<Instr>, sc: seq<Instr>): seq<Instr> {
    [Def(Local(begin))] + cc + (if hasCond then [Op2(Test, R(RAX), R(RAX)), Jump(Je, Local(end))] else []) +
      bc + sc + [Jump(Jmp, Local(begin)), Def(Local(end))]
  }

  /** Pointer arithmetic: the integer scaled by the element size when that exceeds 1, then added to the pointer. */
  function PointerArithCode(size: int, lc: seq<Instr>, rc: seq<Instr>): seq<Instr> {
    lc + [PushReg(RAX)] + rc + (if size > 1 then [Op2(Imul, Imm(size), R(RAX))] else []) +
      [Op2(Mov, R(RAX), R(RCX))] + [PopReg(RAX)] + [Op2(Add, R(RCX), R(RAX))]
  }

  /**
   * The trees the generator emits without reporting an error: the node kinds it handles,
   * loads and stores of types it has an instruction for, a pointee type wherever a pointer
   * is scaled or stored through, and calls whose integer arguments fit in the argument
   * registers.
   */
  ghost predicate Emittable(e: Ast)
    decreases e, 1
  {
    match e
    case Literal(t, _, _, _) => IsIntType(t) || IsFloType(t)
    case Str(_, _, _) => true
    case LVar(t, _) => ByClass(t) || KnownWidth(t)
    case GVar(t, _, _) => t.kind == Array || KnownWidth(t)
    case FunCall(_, _, args) => Fits(Flags(args)) && AllEmittable(args)
    case Func(_, _, _, _, _) => false
    case Decl(_, _, _) => DeclEmittable(e)
    case ArrayInit(_, _) => false
    case Addr(_, operand) => operand.LVar? || operand.GVar?
    case Deref(t, operand) => Emittable(operand) && DerefLoads(t, operand.ctype)
    case If(_, cond, thenPart, els) =>
      Emittable(cond) && Emittable(thenPart) && (els.Some? ==> Emittable(els.value))
    case For(_, init, forCond, step, body) =>
      (init.Some? ==> Emittable(init.value)) && (forCond.Some? ==> Emittable(forCond.value)) &&
      Emittable(body) && (step.Some? ==> Emittable(step.value))
    case Return(_, retval) => Emittable(retval)
    case Compound(_, stmts) => AllEmittable(stmts)
    case StructRef(_, struc, field) => FieldLoads(struc, field)
    case Unary(_, uop, operand) => Emittable(operand) && (uop != Not ==> Assignable(operand))
    case Binary(_, op, left, right) =>
      if op == BitAnd || op == BitOr || op == LogAnd || op == LogOr then Emittable(left) && Emittable(right)
      else BinopEmittable(e)
  }

  /**
   * A declaration: an initialiser list with every element emittable and, unless it is
   * empty, an element type to store; a char array from a string literal; a string
   * literal's address or an emittable value, stored into a variable of a storable type.
   */
  ghost predicate DeclEmittable(e: Ast)
    requires e.Decl?
    decreases e, 0
  {
    match e.declinit
    case None => true
    case Some(init) =>
      var t := e.declvar.ctype;
      if init.ArrayInit? then ItemsEmittable(init.arrayinit, t.ptr)
      else if t.kind == Array then init.Str?
      else if init.Str? then (init.ctype.kind == Array || KnownWidth(init.ctype)) && (IsFloType(t) || KnownWidth(t))
      else Emittable(init) && (IsFloType(t) || KnownWidth(t))
  }

  /** Every one of `es` is emittable. */
  ghost predicate AllEmittable(es: seq<Ast>)
    decreases es, 0
  {
    es == [] || (AllEmittable(es[..|es| - 1]) && Emittable(es[|es| - 1]))
  }

  /** An initialiser list: every element emittable and, unless there is none, an element type to store them with. */
  ghost predicate ItemsEmittable(items: seq<Ast>, elt: Option<Ctype>)
    decreases items, 1
  {
    AllEmittable(items) &&
    (|items| > 0 ==> elt.Some? && (IsFloType(elt.value) || KnownWidth(elt.value)))
  }

  /** A binary node emit_binop handles: both operands emittable along its route, which must be one it has. */
  ghost predicate BinopEmittable(e: Ast)
    requires e.Binary?
    decreases e, 0
  {
    match BinopRoute(e.op, e.ctype)
    case AssignRoute => Emittable(e.right) && Assignable(e.left)
    case CompRoute(_) => Emittable(e.left) && Emittable(e.right)
    case PointerRoute => Emittable(e.left) && Emittable(e.right) && e.left.ctype.ptr.Some?
    case IntArithRoute => ArithOp(e.op) && Emittable(e.left) && Emittable(e.right)
    case FloArithRoute => ArithOp(e.op) && Emittable(e.left) && Emittable(e.right)
    case NoRoute => false
  }

  /** An lvalue emit_assign can store into: through a pointer to a known width, a field, a local or a non-array global. */
  ghost predicate Assignable(v: Ast)
    decreases v, 1
  {
    match v
    case Deref(_, operand) =>
      Emittable(operand) && operand.ctype.ptr.Some? && KnownWidth(operand.ctype.ptr.value)
    case StructRef(_, struc, field) => FieldStores(struc, field)
    case LVar(t, _) => IsFloType(t) || KnownWidth(t)
    case GVar(t, _, _) => t.kind != Array && KnownWidth(t)
    case _ => false
  }

  /** A store of a field of type `field` into the field chain ending in `base`. */
  ghost predicate FieldStores(base: Ast, field: Ctype)
    decreases base, 1
  {
    match base
    case StructRef(_, struc, _) => FieldStores(struc, field)
    case LVar(_, _) => IsFloType(field) || KnownWidth(field)
    case GVar(_, _, _) => field.kind != Array && KnownWidth(field)
    case Deref(_, operand) => Emittable(operand) && KnownWidth(field)
    case _ => false
  }

  /** A load of a field of type `field` from the field chain ending in `base`. */
  ghost predicate FieldLoads(base: Ast, field: Ctype)
    decreases base, 1
  {
    match base
    case StructRef(_, struc, _) => FieldLoads(struc, field)
    case LVar(_, _) => ByClass(field) || KnownWidth(field)
    case GVar(_, _, _) => field.kind == Array || KnownWidth(field)
    case Deref(t, operand) => Emittable(operand) && DerefLoads(t, field)
    case _ => false
  }

  /** The members of an emittable list are emittable, and only those lists are. */
  lemma {:induction false} AllEmittableAt(es: seq<Ast>, k: nat)
    requires k < |es|
    ensures AllEmittable(es) ==> Emittable(es[k])
  {
    if k < |es| - 1 {
      AllEmittableAt(es[..|es| - 1], k);
    }
  }

  /** One more emittable element keeps a prefix emittable. */
  lemma AllEmittableStep(es: seq<Ast>, j: nat)
    requires j < |es| && AllEmittable(es[..j]) && Emittable(es[j])
    ensures AllEmittable(es[..j + 1])
  {
    assert es[..j + 1][..j] == es[..j];
  }

  class Generator {
    /** The stack cursor: bytes pushed in the current function, as the generator counts them. */
    var stackpos: int
    /** The assembly emitted so far. */
    var out: seq<Instr>
    /** The next label the label counter will hand out. */
    var nextLabel: nat
    /** The frame offset assigned to each local variable, by identity. */
    var loff: map<nat, int>
    /** The label assigned to each float constant, by identity. */
    var flabel: map<nat, Sym>

    /** Where the current function's code starts in `out`. */
    ghost var fstart: nat
    /** The stack depth after the code emitted so far in the current function. */
    ghost var depth: int

    ghost predicate Valid()
      reads this`stackpos, this`out, this`fstart, this`depth
    {
      stackpos % 8 == 0 && Trace(out, fstart, |out|, depth)
    }

    /** Inside a function body: the cursor is the real stack depth and at least covers the saved frame base. */
    ghost predicate InBody()
      reads this`stackpos, this`out, this`fstart, this`depth
    {
      Valid() && stackpos == depth && stackpos >= 8
    }

    constructor ()
      ensures Valid()
      ensures out == [] && stackpos == 0 && nextLabel == 0 && loff == map[] && flabel == map[]
    {
      stackpos := 0;
      out := [];
      nextLabel := 0;
      loff := map[];
      flabel := map[];
      fstart := 0;
      depth := 8;
    }

    /** A node's `loff` field: the offset assigned to a local variable, 0 if none was. */
    function LoffOf(v: Ast): int
      reads this`loff
    {
      if v.LVar? && v.id in loff then loff[v.id] else 0
    }

    /** A node's `flabel` field: the label assigned to a float constant, empty if none was. */
    function FlabelOf(e: Ast): Sym
      reads this`flabel
    {
      if e.Literal? && e.id in flabel then flabel[e.id] else Named("")
    }

    /** emit: append one instruction. */
    method Emit(i: Instr)
      requires Valid()
      requires i.Call? ==> depth % 16 == 0
      modifies this`out, this`depth
      ensures Valid()
      ensures out == old(out) + [i] && depth == old(depth) + Delta(i)
    {
      TraceAppend(out, fstart, depth, i);
      out := out + [i];
      depth := depth + Delta(i);
    }

    /** Append a straight-line sequence that neither moves the stack pointer nor calls. */
    method EmitCode(code: seq<Instr>)
      requires Valid() && Neutral(code)
      modifies this`out, this`depth
      ensures Valid()
      ensures out == old(out) + code && depth == old(depth)
    {
      for k := 0 to |code|
        invariant Valid()
        invariant out == old(out) + code[..k] && depth == old(depth)
      {
        assert Quiet(code[k]);
        Emit(code[k]);
        assert code[..k + 1] == code[..k] + [code[k]];
      }
      assert code[..|code|] == code;
    }

    /** Append the code of a load or store helper, or fail where the helper stops with an error. */
    method EmitOpt(code: Option<seq<Instr>>) returns (ok: bool, ghost emitted: seq<Instr>)
      requires Valid() && (code.Some? ==> Neutral(code.value))
      modifies this`out, this`depth
      ensures Valid() && depth == old(depth)
      ensures ok == code.Some?
      ensures out == old(out) + emitted && emitted == if ok then code.value else []
    {
      if code.None? {
        NoCode(out);
        return false, [];
      }
      EmitCode(code.value);
      ok, emitted := true, code.value;
    }

    /** make_label: a label never handed out before. */
    method MakeLabel() returns (l: nat)
      requires Valid()
      modifies this`nextLabel
      ensures Valid()
      ensures l == old(nextLabel) && nextLabel == l + 1
    {
      l := nextLabel;
      nextLabel := nextLabel + 1;
    }

    /** push: one 8-byte push, counted by the cursor. */
    method Push(r: Reg)
      requires Valid()
      modifies this`out, this`depth, this`stackpos
      ensures Valid()
      ensures out == old(out) + [PushReg(r)]
      ensures stackpos == old(stackpos) + 8 && depth == old(depth) + 8
    {
      Emit(PushReg(r));
      stackpos := stackpos + 8;
    }

    /** pop: one 8-byte pop; the source's check that the cursor stays at least 8 is this precondition. */
    method Pop(r: Reg)
      requires Valid() && stackpos >= 16
      modifies this`out, this`depth, this`stackpos
      ensures Valid()
      ensures out == old(out) + [PopReg(r)]
      ensures stackpos == old(stackpos) - 8 && depth == old(depth) - 8 && stackpos >= 8
    {
      Emit(PopReg(r));
      stackpos := stackpos - 8;
    }

    /** push_xmm: make room for 8 bytes and store %xmm`k` there. */
    method PushXmm(k: int)
      requires Valid()
      modifies this`out, this`depth, this`stackpos
      ensures Valid()
      ensures out == old(out) + PushLoc(Xmm(k))
      ensures stackpos == old(stackpos) + 8 && depth == old(depth) + 8
    {
      Emit(Op2(Sub, Imm(8), R(RSP)));
      Emit(Op2(Movsd, X(k), Mem(RSP, 0)));
      stackpos := stackpos + 8;
    }

    /** pop_xmm: load %xmm`k` from the top of the stack and release it; the same check as `Pop`. */
    method PopXmm(k: int)
      requires Valid() && stackpos >= 16
      modifies this`out, this`depth, this`stackpos
      ensures Valid()
      ensures out == old(out) + PopLoc(Xmm(k))
      ensures stackpos == old(stackpos) - 8 && depth == old(depth) - 8 && stackpos >= 8
    {
      Emit(Op2(Movsd, Mem(RSP, 0), X(k)));
      Emit(Op2(Add, Imm(8), R(RSP)));
      stackpos := stackpos - 8;
    }

    /**
     * emit_expr: the code of one node, leaving its value in %rax or %xmm0.  `code` is what
     * it appends.  On success the cursor is back where it was; in every case the emitted
     * code keeps calls aligned.  A node kind the source reports as an internal error (a
     * function or a bare initialiser list) fails.
     */
    method EmitExpr(ast: Ast) returns (ok: bool, ghost code: seq<Instr>)
      requires InBody()
      modifies this`out, this`depth, this`stackpos, this`nextLabel
      ensures InBody() && out == old(out) + code && old(nextLabel) <= nextLabel
      ensures ok ==> stackpos == old(stackpos)
      ensures ok <==> Emittable(ast)
      decreases ast, 4
    {
      match ast
      case Literal(_, _, _, _) =>
        ok, code := EmitLiteral(ast);
      case Str(_, _, slabel) =>
        var lea := [Op2(Lea, Rip(Named(slabel), 0), R(RAX))];
        EmitCode(lea);
        ok, code := true, lea;
      case LVar(ctype, _) =>
        ok, code := EmitOpt(LloadCode(ctype, LoffOf(ast)));
      case GVar(ctype, _, glabel) =>
        ok, code := EmitOpt(GloadCode(ctype, Named(glabel), 0));
      case FunCall(_, _, _) =>
        ghost var parts, sp;
        ok, code, parts, sp := EmitFunCall(ast);
      case Addr(_, operand) =>
        ok, code := EmitAddr(ast);
      case Deref(_, _) =>
        ghost var oc;
        ok, code, oc := EmitDeref(ast);
      case Decl(_, _, _) =>
        ok, code := EmitStmt(ast);
      case If(_, _, _, _) =>
        ok, code := EmitStmt(ast);
      case For(_, _, _, _, _) =>
        ok, code := EmitStmt(ast);
      case Return(_, _) =>
        ok, code := EmitStmt(ast);
      case Compound(_, _) =>
        ok, code := EmitStmt(ast);
      case StructRef(_, struc, field) =>
        ghost var oc;
        var total;
        ok, code, oc, total := EmitLoadStructRef(struc, field, 0);
      case Unary(_, _, _) =>
        ok, code := EmitOperator(ast);
      case Binary(_, _, _, _) =>
        ok, code := EmitOperator(ast);
      case Func(_, _, _, _, _) =>
        NoCode(out);
        ok, code := false, [];
      case ArrayInit(_, _) =>
        NoCode(out);
        ok, code := false, [];
    }

    /** The statement kinds of emit_expr: a declaration, an if or for statement, a return, a compound statement. */
    method EmitStmt(ast: Ast) returns (ok: bool, ghost code: seq<Instr>)
      requires InBody() && (ast.Decl? || ast.If? || ast.For? || ast.Return? || ast.Compound?)
      modifies this`out, this`depth, this`stackpos, this`nextLabel
      ensures InBody() && out == old(out) + code && old(nextLabel) <= nextLabel
      ensures ok ==> stackpos == old(stackpos)
      ensures ok <==> Emittable(ast)
      decreases ast, 3
    {
      if ast.Decl? {
        ghost var parts;
        ok, code, parts := EmitDecl(ast);
      } else if ast.If? {
        var ne, end;
        ghost var cc, tc, ec;
        ok, ne, end, code, cc, tc, ec := EmitIf(ast);
      } else if ast.For? {
        var begin, end;
        ghost var ic, cc, bc, sc;
        ok, begin, end, code, ic, cc, bc, sc := EmitFor(ast);
      } else if ast.Return? {
        ghost var rc;
        ok, code, rc := EmitReturn(ast);
      } else {
        ok, code := EmitCompound(ast);
      }
    }

    /** A return statement: the value, then the frame is left and control returns. */
    method EmitReturn(ast: Ast) returns (ok: bool, ghost code: seq<Instr>, ghost rc: seq<Instr>)
      requires InBody() && ast.Return?
      modifies this`out, this`depth, this`stackpos, this`nextLabel
      ensures InBody() && out == old(out) + code && old(nextLabel) <= nextLabel
      ensures ok ==> stackpos == old(stackpos)
      ensures ok <==> Emittable(ast.retval)
      ensures ok ==> code == rc + [Leave, Ret]
      decreases ast, 2
    {
      ok, rc := EmitExpr(ast.retval);
      code := rc;
      if ok {
        EmitCode([Leave, Ret]);
        Cat(old(out), code, [Leave, Ret]);
        code := code + [Leave, Ret];
      }
    }

    /**
     * The operator cases of emit_expr: `++` and `--`, `!`, `&` and `|`, `&&` and `||`, and
     * every other binary operator through emit_binop.
     */
    method EmitOperator(ast: Ast) returns (ok: bool, ghost code: seq<Instr>)
      requires InBody() && (ast.Unary? || ast.Binary?)
      modifies this`out, this`depth, this`stackpos, this`nextLabel
      ensures InBody() && out == old(out) + code && old(nextLabel) <= nextLabel
      ensures ok ==> stackpos == old(stackpos)
      ensures ok <==> Emittable(ast)
      decreases ast, 3
    {
      if ast.Unary? {
        ghost var oc;
        if ast.uop == Not {
          ok, code, oc := EmitNot(ast);
        } else {
          ghost var ac;
          ok, code, oc, ac := EmitIncDec(ast, if ast.uop == Inc then Add else Sub);
        }
      } else {
        ghost var lc, rc;
        if ast.op == BitAnd || ast.op == BitOr {
          ok, code, lc, rc := EmitBitwise(ast);
        } else if ast.op == LogAnd || ast.op == LogOr {
          var end;
          ok, end, code, lc, rc := EmitLogical(ast);
        } else {
          ghost var route, ac;
          ok, code, route, lc, rc, ac := EmitBinop(ast);
        }
      }
    }

    /**
     * A literal: an integer into %rax (%eax for an int), a floating constant loaded from
     * its label; a literal of any other type is an internal error.
     */
    method EmitLiteral(ast: Ast) returns (ok: bool, ghost code: seq<Instr>)
      requires InBody() && ast.Literal?
      modifies this`out, this`depth, this`stackpos, this`nextLabel
      ensures InBody() && out == old(out) + code && stackpos == old(stackpos) && nextLabel == old(nextLabel)
      ensures ok <==> IsIntType(ast.ctype) || IsFloType(ast.ctype)
      ensures ok && IsIntType(ast.ctype) ==> code == [Op2(Mov, Imm(ast.ival), R(if ast.ctype.kind == Int then EAX else RAX))]
      ensures ok && IsFloType(ast.ctype) ==> code == [Op2(Movsd, Rip(FlabelOf(ast), 0), X(0))]
    {
      var c: seq<Instr>;
      match ast.ctype.kind {
      case Char =>
        c := [Op2(Mov, Imm(ast.ival), R(RAX))];
        ok := true;
      case Int =>
        c := [Op2(Mov, Imm(ast.ival), R(EAX))];
        ok := true;
      case Long =>
        c := [Op2(Mov, Imm(ast.ival), R(RAX))];
        ok := true;
      case Float =>
        c := [Op2(Movsd, Rip(FlabelOf(ast), 0), X(0))];
        ok := true;
      case Double =>
        c := [Op2(Movsd, Rip(FlabelOf(ast), 0), X(0))];
        ok := true;
      case _ =>
        c := [];
        ok := false;
      }
      EmitCode(c);
      code := c;
    }

    /** The address of a local (in the frame) or of a global; of anything else, an internal error. */
    method EmitAddr(ast: Ast) returns (ok: bool, ghost code: seq<Instr>)
      requires InBody() && ast.Addr?
      modifies this`out, this`depth, this`stackpos, this`nextLabel
      ensures InBody() && out == old(out) + code && stackpos == old(stackpos) && nextLabel == old(nextLabel)
      ensures ok <==> ast.operand.LVar? || ast.operand.GVar?
      ensures ok && ast.operand.LVar? ==> code == [Op2(Lea, Frame(LoffOf(ast.operand)), R(RAX))]
      ensures ok && ast.operand.GVar? ==> code == [Op2(Lea, Rip(Named(ast.operand.glabel), 0), R(RAX))]
    {
      var c: seq<Instr>;
      match ast.operand {
      case LVar(_, _) =>
        c := [Op2(Lea, Frame(LoffOf(ast.operand)), R(RAX))];
        ok := true;
      case GVar(_, _, glabel) =>
        c := [Op2(Lea, Rip(Named(glabel), 0), R(RAX))];
        ok := true;
      case _ =>
        c := [];
        ok := false;
      }
      EmitCode(c);
      code := c;
    }

    /** A dereference: the operand's value is the address, then the load through it. */
    method EmitDeref(ast: Ast) returns (ok: bool, ghost code: seq<Instr>, ghost oc: seq<Instr>)
      requires InBody() && ast.Deref?
      modifies this`out, this`depth, this`stackpos, this`nextLabel
      ensures InBody() && out == old(out) + code && old(nextLabel) <= nextLabel
      ensures ok ==> stackpos == old(stackpos)
      ensures ok <==> Emittable(ast)
      ensures ok ==> (LoadDerefCode(ast.ctype, ast.operand.ctype, 0).Some? &&
        code == oc + LoadDerefCode(ast.ctype, ast.operand.ctype, 0).value)
      decreases ast, 2
    {
      ok, oc := EmitExpr(ast.operand);
      code := oc;
      if !ok {
        return;
      }
      ghost var lc;
      ok, lc := EmitOpt(LoadDerefCode(ast.ctype, ast.operand.ctype, 0));
      Cat(old(out), code, lc);
      code := code + lc;
    }

    /** An if statement or a conditional expression: test, skip the then-part to `ne` when false, and join at `end`. */
    method EmitIf(ast: Ast) returns (ok: bool, ne: nat, end: nat,
                                     ghost code: seq<Instr>, ghost cc: seq<Instr>, ghost tc: seq<Instr>, ghost ec: seq<Instr>)
      requires InBody() && ast.If?
      modifies this`out, this`depth, this`stackpos, this`nextLabel
      ensures InBody() && out == old(out) + code && old(nextLabel) <= nextLabel
      ensures ok ==> stackpos == old(stackpos)
      ensures ok <==> Emittable(ast.cond) && Emittable(ast.thenPart) && (ast.els.Some? ==> Emittable(ast.els.value))
      ensures ok ==> old(nextLabel) <= ne < nextLabel
      ensures ok && ast.els.None? ==>
        code == cc + [Op2(Test, R(RAX), R(RAX)), Jump(Je, Local(ne))] + tc + [Def(Local(ne))]
      ensures ok && ast.els.Some? ==>
        old(nextLabel) <= end < nextLabel && ne != end &&
        code == cc + [Op2(Test, R(RAX), R(RAX)), Jump(Je, Local(ne))] + tc +
          [Jump(Jmp, Local(end)), Def(Local(ne))] + ec + [Def(Local(end))]
      decreases ast, 2
    {
      ne, end, tc, ec := 0, 0, [], [];
      ok, cc := EmitExpr(ast.cond);
      code := cc;
      if !ok {
        return;
      }
      ne := MakeLabel();
      var test := [Op2(Test, R(RAX), R(RAX)), Jump(Je, Local(ne))];
      EmitCode(test);
      Cat(old(out), code, test);
      code := code + test;
      ok, tc := EmitExpr(ast.thenPart);
      Cat(old(out), code, tc);
      code := code + tc;
      if !ok {
        return;
      }
      if ast.els.Some? {
        ghost var c;
        ok, end, c, ec := EmitElse(ast, ne);
        Cat(old(out), code, c);
        code := code + c;
      } else {
        EmitCode([Def(Local(ne))]);
        Cat(old(out), code, [Def(Local(ne))]);
        code := code + [Def(Local(ne))];
      }
    }

    /** The else branch of an if statement: the jump over it from the then branch, its label `ne`, its code and the end label. */
    method EmitElse(ast: Ast, ne: nat) returns (ok: bool, end: nat, ghost code: seq<Instr>, ghost ec: seq<Instr>)
      requires InBody() && ast.If? && ast.els.Some? && ne < nextLabel
      modifies this`out, this`depth, this`stackpos, this`nextLabel
      ensures InBody() && out == old(out) + code && old(nextLabel) <= end < nextLabel && ne != end
      ensures ok ==> stackpos == old(stackpos)
      ensures ok <==> Emittable(ast.els.value)
      ensures ok ==> code == [Jump(Jmp, Local(end)), Def(Local(ne))] + ec + [Def(Local(end))]
      decreases ast, 1
    {
      end := MakeLabel();
      var skip := [Jump(Jmp, Local(end)), Def(Local(ne))];
      EmitCode(skip);
      ok, ec := EmitExpr(ast.els.value);
      Cat(old(out), skip, ec);
      code := skip + ec;
      if !ok {
        return;
      }
      EmitCode([Def(Local(end))]);
      Cat(old(out), code, [Def(Local(end))]);
      code := code + [Def(Local(end))];
    }

    /**
     * A for statement: the initialiser, the loop head `begin`, the condition and its exit
     * to `end`, the body and the step, and the jump back.
     */
    method EmitFor(ast: Ast) returns (ok: bool, begin: nat, end: nat, ghost code: seq<Instr>,
                                      ghost ic: seq<Instr>, ghost cc: seq<Instr>, ghost bc: seq<Instr>, ghost sc: seq<Instr>)
      requires InBody() && ast.For?
      modifies this`out, this`depth, this`stackpos, this`nextLabel
      ensures InBody() && out == old(out) + code && old(nextLabel) <= nextLabel
      ensures ok ==> stackpos == old(stackpos)
      ensures ok <==> ((ast.init.Some? ==> Emittable(ast.init.value)) && (ast.forCond.Some? ==> Emittable(ast.forCond.value)) &&
        Emittable(ast.body) && (ast.step.Some? ==> Emittable(ast.step.value)))
      ensures ok ==> old(nextLabel) <= begin && end == begin + 1 && end < nextLabel
      ensures ok ==> code == ic + ForLoopCode(begin, end, cc, ast.forCond.Some?, bc, sc)
      ensures ok && ast.init.None? ==> ic == []
      ensures ok && ast.forCond.None? ==> cc == []
      ensures ok && ast.step.None? ==> sc == []
      decreases ast, 2
    {
      begin, end, cc, bc, sc := 0, 0, [], [], [];
      ok, ic := EmitOptExpr(ast, ast.init);
      code := ic;
      if !ok {
        return;
      }
      ghost var lc;
      ok, begin, end, lc, cc, bc, sc := EmitForLoop(ast);
      Cat(old(out), code, lc);
      code := code + lc;
    }

    /** The loop of a for statement after its initialiser: head label, condition, body, step and the jump back. */
    method EmitForLoop(ast: Ast) returns (ok: bool, begin: nat, end: nat, ghost code: seq<Instr>,
                                          ghost cc: seq<Instr>, ghost bc: seq<Instr>, ghost sc: seq<Instr>)
      requires InBody() && ast.For?
      modifies this`out, this`depth, this`stackpos, this`nextLabel
      ensures InBody() && out == old(out) + code && old(nextLabel) <= nextLabel
      ensures old(nextLabel) == begin && end == begin + 1 && end < nextLabel
      ensures ok ==> stackpos == old(stackpos)
      ensures ok <==> ((ast.forCond.Some? ==> Emittable(ast.forCond.value)) &&
        Emittable(ast.body) && (ast.step.Some? ==> Emittable(ast.step.value)))
      ensures ok ==> code == ForLoopCode(begin, end, cc, ast.forCond.Some?, bc, sc)
      ensures ok && ast.forCond.None? ==> cc == []
      ensures ok && ast.step.None? ==> sc == []
      decreases ast, 1
    {
      cc, bc, sc := [], [], [];
      begin := MakeLabel();
      end := MakeLabel();
      EmitCode([Def(Local(begin))]);
      code := [Def(Local(begin))];
      ghost var tc;
      ok, tc, cc := EmitForCond(ast, end);
      Cat(old(out), code, tc);
      Cat(code, cc, if ast.forCond.Some? then [Op2(Test, R(RAX), R(RAX)), Jump(Je, Local(end))] else []);
      code := code + tc;
      if !ok {
        return;
      }
      ok, bc := EmitExpr(ast.body);
      Cat(old(out), code, bc);
      code := code + bc;
      if !ok {
        return;
      }
      ok, sc := EmitOptExpr(ast, ast.step);
      Cat(old(out), code, sc);
      code := code + sc;
      if !ok {
        return;
      }
      var back := [Jump(Jmp, Local(begin)), Def(Local(end))];
      EmitCode(back);
      Cat(old(out), code, back);
      code := code + back;
    }

    /** The condition of a for statement, when present: its code and the exit to `end` when it is 0. */
    method EmitForCond(ast: Ast, end: nat) returns (ok: bool, ghost code: seq<Instr>, ghost cc: seq<Instr>)
      requires InBody() && ast.For?
      modifies this`out, this`depth, this`stackpos, this`nextLabel
      ensures InBody() && out == old(out) + code && old(nextLabel) <= nextLabel
      ensures ok ==> stackpos == old(stackpos)
      ensures ok ==>
        code == cc + (if ast.forCond.Some? then [Op2(Test, R(RAX), R(RAX)), Jump(Je, Local(end))] else [])
      ensures ast.forCond.None? ==> ok && cc == []
      ensures ok <==> (ast.forCond.Some? ==> Emittable(ast.forCond.value))
      decreases ast, 0
    {
      if ast.forCond.None? {
        NoCode(out);
        return true, [], [];
      }
      ok, cc := EmitExpr(ast.forCond.value);
      code := cc;
      if !ok {
        return;
      }
      var test := [Op2(Test, R(RAX), R(RAX)), Jump(Je, Local(end))];
      EmitCode(test);
      Cat(old(out), code, test);
      code := code + test;
    }

    /** An optional clause of a for statement: its code when present, nothing when absent. */
    method EmitOptExpr(ast: Ast, e: Option<Ast>) returns (ok: bool, ghost code: seq<Instr>)
      requires InBody() && ast.For? && (e == ast.init || e == ast.forCond || e == ast.step)
      modifies this`out, this`depth, this`stackpos, this`nextLabel
      ensures InBody() && out == old(out) + code && old(nextLabel) <= nextLabel
      ensures ok ==> stackpos == old(stackpos)
      ensures e.None? ==> ok && code == [] && stackpos == old(stackpos) && nextLabel == old(nextLabel)
      ensures ok <==> (e.Some? ==> Emittable(e.value))
      decreases ast, 0
    {
      if e.Some? {
        ok, code := EmitExpr(e.value);
      } else {
        NoCode(out);
        ok, code := true, [];
      }
    }

    /** A compound statement: its statements in order. */
    method EmitCompound(ast: Ast) returns (ok: bool, ghost code: seq<Instr>)
      requires InBody() && ast.Compound?
      modifies this`out, this`depth, this`stackpos, this`nextLabel
      ensures InBody() && out == old(out) + code && old(nextLabel) <= nextLabel
      ensures ok ==> stackpos == old(stackpos)
      ensures ok <==> Emittable(ast)
      decreases ast, 2
    {
      code := [];
      NoCode(out);
      for j := 0 to |ast.stmts|
        invariant InBody() && out == old(out) + code && old(nextLabel) <= nextLabel && stackpos == old(stackpos)
        invariant AllEmittable(ast.stmts[..j])
      {
        ghost var c;
        ok, c := EmitExpr(ast.stmts[j]);
        Cat(old(out), code, c);
        code := code + c;
        if !ok {
          AllEmittableAt(ast.stmts, j);
          return;
        }
        AllEmittableStep(ast.stmts, j);
      }
      assert ast.stmts[..|ast.stmts|] == ast.stmts;
      ok := true;
    }

    /** Logical negation: compare with 0 and set %eax to 1 exactly when it was 0. */
    method EmitNot(ast: Ast) returns (ok: bool, ghost code: seq<Instr>, ghost oc: seq<Instr>)
      requires InBody() && ast.Unary?
      modifies this`out, this`depth, this`stackpos, this`nextLabel
      ensures InBody() && out == old(out) + code && old(nextLabel) <= nextLabel
      ensures ok ==> stackpos == old(stackpos)
      ensures ok <==> Emittable(ast.operand)
      ensures ok ==> code == oc + [Op2(Cmp, Imm(0), R(RAX)), SetCC(SetE), Op2(Movzb, R(AL), R(EAX))]
      decreases ast, 2
    {
      ok, oc := EmitExpr(ast.operand);
      code := oc;
      if !ok {
        return;
      }
      var test := [Op2(Cmp, Imm(0), R(RAX)), SetCC(SetE), Op2(Movzb, R(AL), R(EAX))];
      EmitCode(test);
      Cat(old(out), code, test);
      code := code + test;
    }

    /** `&` and `|`: the left value is saved on the stack while the right one is computed. */
    method EmitBitwise(ast: Ast) returns (ok: bool, ghost code: seq<Instr>, ghost lc: seq<Instr>, ghost rc: seq<Instr>)
      requires InBody() && ast.Binary? && (ast.op == BitAnd || ast.op == BitOr)
      modifies this`out, this`depth, this`stackpos, this`nextLabel
      ensures InBody() && out == old(out) + code && old(nextLabel) <= nextLabel
      ensures ok ==> stackpos == old(stackpos)
      ensures ok <==> Emittable(ast.left) && Emittable(ast.right)
      ensures ok ==> (code == lc + [PushReg(RAX)] + rc +
        [PopReg(RCX)] + [Op2(if ast.op == BitAnd then And else Or, R(RCX), R(RAX))])
      decreases ast, 2
    {
      rc := [];
      ok, lc := EmitExpr(ast.left);
      code := lc;
      if !ok {
        return;
      }
      Push(RAX);
      Cat(old(out), code, [PushReg(RAX)]);
      code := code + [PushReg(RAX)];
      ok, rc := EmitExpr(ast.right);
      Cat(old(out), code, rc);
      code := code + rc;
      if !ok {
        return;
      }
      Pop(RCX);
      Cat(old(out), code, [PopReg(RCX)]);
      code := code + [PopReg(RCX)];
      var opc := [Op2(if ast.op == BitAnd then And else Or, R(RCX), R(RAX))];
      EmitCode(opc);
      Cat(old(out), code, opc);
      code := code + opc;
    }

    /**
     * `&&` and `||`, short-circuit: `v` (0 for `&&`, 1 for `||`) is the result as soon as
     * one operand decides it, the other value once both have been tested.
     */
    method EmitLogical(ast: Ast) returns (ok: bool, end: nat, ghost code: seq<Instr>, ghost lc: seq<Instr>, ghost rc: seq<Instr>)
      requires InBody() && ast.Binary? && (ast.op == LogAnd || ast.op == LogOr)
      modifies this`out, this`depth, this`stackpos, this`nextLabel
      ensures InBody() && out == old(out) + code && old(nextLabel) <= nextLabel
      ensures ok ==> stackpos == old(stackpos)
      ensures ok <==> Emittable(ast.left) && Emittable(ast.right)
      ensures ok ==> (end == old(nextLabel) &&
        var v := if ast.op == LogAnd then 0 else 1;
        var jk := if ast.op == LogAnd then Je else Jne;
        code == lc + [Op2(Test, R(RAX), R(RAX)), Op2(Mov, Imm(v), R(RAX)), Jump(jk, Local(end))] +
          rc + [Op2(Test, R(RAX), R(RAX)), Op2(Mov, Imm(v), R(RAX)), Jump(jk, Local(end)),
                Op2(Mov, Imm(1 - v), R(RAX)), Def(Local(end))])
      decreases ast, 2
    {
      rc := [];
      var v := if ast.op == LogAnd then 0 else 1;
      var jk := if ast.op == LogAnd then Je else Jne;
      end := MakeLabel();
      ok, lc := EmitExpr(ast.left);
      code := lc;
      if !ok {
        return;
      }
      var test := [Op2(Test, R(RAX), R(RAX)), Op2(Mov, Imm(v), R(RAX)), Jump(jk, Local(end))];
      EmitCode(test);
      Cat(old(out), code, test);
      code := code + test;
      ok, rc := EmitExpr(ast.right);
      Cat(old(out), code, rc);
      code := code + rc;
      if !ok {
        return;
      }
      var last := [Op2(Test, R(RAX), R(RAX)), Op2(Mov, Imm(v), R(RAX)), Jump(jk, Local(end)),
                   Op2(Mov, Imm(1 - v), R(RAX)), Def(Local(end))];
      EmitCode(last);
      Cat(old(out), code, last);
      code := code + last;
    }

    /**
     * emit_binop: assignment, then `==`, then anything of pointer type as pointer
     * arithmetic, then `<` and `>`, then integer or floating arithmetic by the node's type;
     * a node of any other type is an internal error.
     */
    method EmitBinop(ast: Ast) returns (ok: bool, ghost code: seq<Instr>, ghost route: Route,
                                        ghost lc: seq<Instr>, ghost rc: seq<Instr>, ghost ac: seq<Instr>)
      requires InBody() && ast.Binary?
      modifies this`out, this`depth, this`stackpos, this`nextLabel
      ensures InBody() && out == old(out) + code && old(nextLabel) <= nextLabel
      ensures ok ==> stackpos == old(stackpos)
      ensures route == BinopRoute(ast.op, ast.ctype)
      ensures ok <==> BinopEmittable(ast)
      ensures ok && route == AssignRoute ==> code == rc + AssignConversion(ast.ctype, ast.right.ctype) + ac
      ensures ok && route.CompRoute? ==>
        code == if IsFloType(ast.ctype) then FloCompCode(ast, lc, rc) else IntCompCode(route.cc, ast, lc, rc)
      ensures ok && route == PointerRoute ==>
        ast.left.ctype.ptr.Some? && code == PointerArithCode(ast.left.ctype.ptr.value.size, lc, rc)
      ensures ok && route == IntArithRoute ==> code == IntArithCode(ast, lc, rc)
      ensures ok && route == FloArithRoute ==> code == FloArithCode(ast, lc, rc)
      ensures route == NoRoute ==> code == []
      decreases ast, 2
    {
      lc, rc, ac := [], [], [];
      if ast.op == Assign {
        route := AssignRoute;
        ok, code, rc, ac := EmitAssignExpr(ast);
      } else if ast.op == Eq {
        route := CompRoute(SetE);
        ok, code, lc, rc := EmitComp(SetE, ast);
      } else if ast.ctype.kind == Ptr {
        route := PointerRoute;
        ok, code, lc, rc := EmitPointerArith(ast);
      } else if ast.op == Lt {
        route := CompRoute(SetL);
        ok, code, lc, rc := EmitComp(SetL, ast);
      } else if ast.op == Gt {
        route := CompRoute(SetG);
        ok, code, lc, rc := EmitComp(SetG, ast);
      } else if IsIntType(ast.ctype) {
        route := IntArithRoute;
        ok, code, lc, rc := EmitIntArith(ast);
      } else if IsFloType(ast.ctype) {
        route := FloArithRoute;
        ok, code, lc, rc := EmitFloatArith(ast);
      } else {
        route := NoRoute;
        NoCode(out);
        ok, code := false, [];
      }
    }

    /** `=`: the right value, converted to the class of the node's type, is stored into the left operand. */
    method EmitAssignExpr(ast: Ast) returns (ok: bool, ghost code: seq<Instr>, ghost rc: seq<Instr>, ghost ac: seq<Instr>)
      requires InBody() && ast.Binary?
      modifies this`out, this`depth, this`stackpos, this`nextLabel
      ensures InBody() && out == old(out) + code && old(nextLabel) <= nextLabel
      ensures ok ==> stackpos == old(stackpos)
      ensures ok <==> Emittable(ast.right) && Assignable(ast.left)
      ensures ok ==> code == rc + AssignConversion(ast.ctype, ast.right.ctype) + ac
      decreases ast, 1
    {
      ac := [];
      ok, rc := EmitExpr(ast.right);
      code := rc;
      if !ok {
        return;
      }
      var conv := AssignConversion(ast.ctype, ast.right.ctype);
      EmitCode(conv);
      Cat(old(out), code, conv);
      code := code + conv;
      ghost var oc;
      ok, ac, oc := EmitAssign(ast.left);
      Cat(old(out), code, ac);
      code := code + ac;
    }

    /**
     * emit_comp: a floating comparison leaves only the flags of `ucomisd`; an integer one
     * compares the left value (saved on the stack, popped into %rcx) with the right one
     * and sets %eax to 0 or 1 by the condition.  The node's own type chooses the branch.
     */
    method EmitComp(cc: Cond, ast: Ast) returns (ok: bool, ghost code: seq<Instr>, ghost lc: seq<Instr>, ghost rc: seq<Instr>)
      requires InBody() && ast.Binary?
      modifies this`out, this`depth, this`stackpos, this`nextLabel
      ensures InBody() && out == old(out) + code && old(nextLabel) <= nextLabel
      ensures ok ==> stackpos == old(stackpos)
      ensures ok <==> Emittable(ast.left) && Emittable(ast.right)
      ensures ok && IsFloType(ast.ctype) ==> code == FloCompCode(ast, lc, rc)
      ensures ok && !IsFloType(ast.ctype) ==> code == IntCompCode(cc, ast, lc, rc)
      decreases ast, 1
    {
      if IsFloType(ast.ctype) {
        ok, code, lc, rc := EmitFloatComp(ast);
      } else {
        ok, code, lc, rc := EmitIntComp(cc, ast);
      }
    }

    /** An operand of a floating operation: its value, widened to a double in %xmm0. */
    method EmitAsDouble(e: Ast) returns (ok: bool, ghost code: seq<Instr>, ghost c: seq<Instr>)
      requires InBody()
      modifies this`out, this`depth, this`stackpos, this`nextLabel
      ensures InBody() && out == old(out) + code && old(nextLabel) <= nextLabel
      ensures ok ==> stackpos == old(stackpos) && code == c + ToDoubleCode(e.ctype)
      ensures ok <==> Emittable(e)
      decreases e, 5
    {
      ok, c := EmitExpr(e);
      code := c;
      if !ok {
        return;
      }
      EmitCode(ToDoubleCode(e.ctype));
      Cat(old(out), code, ToDoubleCode(e.ctype));
      code := code + ToDoubleCode(e.ctype);
    }

    /** The floating branch of emit_comp: both values as doubles, the left one in %xmm1, then `ucomisd`. */
    method EmitFloatComp(ast: Ast) returns (ok: bool, ghost code: seq<Instr>, ghost lc: seq<Instr>, ghost rc: seq<Instr>)
      requires InBody() && ast.Binary?
      modifies this`out, this`depth, this`stackpos, this`nextLabel
      ensures InBody() && out == old(out) + code && old(nextLabel) <= nextLabel
      ensures ok ==> stackpos == old(stackpos)
      ensures ok <==> Emittable(ast.left) && Emittable(ast.right)
      ensures ok ==> code == FloCompCode(ast, lc, rc)
      decreases ast, 0
    {
      rc := [];
      ok, code, lc := EmitAsDouble(ast.left);
      if !ok {
        return;
      }
      PushXmm(0);
      Cat(old(out), code, PushLoc(Xmm(0)));
      code := code + PushLoc(Xmm(0));
      ghost var rd;
      ok, rd, rc := EmitAsDouble(ast.right);
      Cat(old(out), code, rd);
      if !ok {
        code := code + rd;
        return;
      }
      Cat(code, rc, ToDoubleCode(ast.right.ctype));
      code := code + rd;
      PopXmm(1);
      Cat(old(out), code, PopLoc(Xmm(1)));
      code := code + PopLoc(Xmm(1));
      Emit(Op2(Ucomisd, X(0), X(1)));
      Cat(old(out), code, [Op2(Ucomisd, X(0), X(1))]);
      code := code + [Op2(Ucomisd, X(0), X(1))];
    }

    /** The integer branch of emit_comp: the left value in %rcx, `cmp`, and the condition as 0 or 1 in %eax. */
    method EmitIntComp(cc: Cond, ast: Ast) returns (ok: bool, ghost code: seq<Instr>, ghost lc: seq<Instr>, ghost rc: seq<Instr>)
      requires InBody() && ast.Binary?
      modifies this`out, this`depth, this`stackpos, this`nextLabel
      ensures InBody() && out == old(out) + code && old(nextLabel) <= nextLabel
      ensures ok ==> stackpos == old(stackpos)
      ensures ok <==> Emittable(ast.left) && Emittable(ast.right)
      ensures ok ==> code == IntCompCode(cc, ast, lc, rc)
      decreases ast, 0
    {
      rc := [];
      ok, code, lc := EmitIntOperand(ast.left);
      if !ok {
        return;
      }
      Push(RAX);
      Cat(old(out), code, [PushReg(RAX)]);
      code := code + [PushReg(RAX)];
      ghost var c;
      ok, c, rc := EmitIntOperand(ast.right);
      Cat(old(out), code, c);
      code := code + c;
      if !ok {
        return;
      }
      Pop(RCX);
      Cat(old(out), code, [PopReg(RCX)]);
      code := code + [PopReg(RCX)];
      var test := [Op2(Cmp, R(RAX), R(RCX)), SetCC(cc), Op2(Movzb, R(AL), R(EAX))];
      EmitCode(test);
      Cat(old(out), code, test);
      code := code + test;
    }

    /** An operand of an integer comparison or operation: its code, then the conversion of its value to an integer. */
    method EmitIntOperand(e: Ast) returns (ok: bool, ghost code: seq<Instr>, ghost ec: seq<Instr>)
      requires InBody()
      modifies this`out, this`depth, this`stackpos, this`nextLabel
      ensures InBody() && out == old(out) + code && old(nextLabel) <= nextLabel
      ensures ok ==> stackpos == old(stackpos)
      ensures ok <==> Emittable(e)
      ensures ok ==> code == ec + ToIntCode(e.ctype)
      decreases e, 5
    {
      ok, ec := EmitExpr(e);
      code := ec;
      if !ok {
        return;
      }
      EmitCode(ToIntCode(e.ctype));
      Cat(old(out), code, ToIntCode(e.ctype));
      code := code + ToIntCode(e.ctype);
    }

    /**
     * emit_bion_int_arith: the operator is checked before anything is emitted; the right
     * value goes to %rcx, the left one is popped into %rax, and `/` clears %edx before `idiv`.
     */
    method EmitIntArith(ast: Ast) returns (ok: bool, ghost code: seq<Instr>, ghost lc: seq<Instr>, ghost rc: seq<Instr>)
      requires InBody() && ast.Binary?
      modifies this`out, this`depth, this`stackpos, this`nextLabel
      ensures InBody() && out == old(out) + code && old(nextLabel) <= nextLabel
      ensures ok ==> stackpos == old(stackpos)
      ensures !ArithOp(ast.op) ==> !ok && code == []
      ensures ok <==> ArithOp(ast.op) && Emittable(ast.left) && Emittable(ast.right)
      ensures ok ==> code == IntArithCode(ast, lc, rc)
      decreases ast, 1
    {
      lc, rc := [], [];
      if !ArithOp(ast.op) {
        NoCode(out);
        return false, [], [], [];
      }
      ok, code, lc := EmitIntOperand(ast.left);
      if !ok {
        return;
      }
      Push(RAX);
      Cat(old(out), code, [PushReg(RAX)]);
      code := code + [PushReg(RAX)];
      ghost var tc;
      ok, tc, rc := EmitIntArithRight(ast);
      Cat(old(out), code, tc);
      code := code + tc;
    }

    /** The second half of an integer operation: the right value into %rcx, the left one popped into %rax, and the operation. */
    method EmitIntArithRight(ast: Ast) returns (ok: bool, ghost code: seq<Instr>, ghost rc: seq<Instr>)
      requires InBody() && ast.Binary? && stackpos >= 16
      modifies this`out, this`depth, this`stackpos, this`nextLabel
      ensures InBody() && out == old(out) + code && old(nextLabel) <= nextLabel
      ensures ok ==> stackpos == old(stackpos) - 8
      ensures ok <==> Emittable(ast.right)
      ensures ok ==> code == IntArithTail(ast, rc)
      decreases ast, 0
    {
      ok, code, rc := EmitIntOperand(ast.right);
      if !ok {
        return;
      }
      EmitCode([Op2(Mov, R(RAX), R(RCX))]);
      Cat(old(out), code, [Op2(Mov, R(RAX), R(RCX))]);
      code := code + [Op2(Mov, R(RAX), R(RCX))];
      Pop(RAX);
      Cat(old(out), code, [PopReg(RAX)]);
      code := code + [PopReg(RAX)];
      var opc := if ast.op == Divide then [Op2(Mov, Imm(0), R(EDX)), Idiv(RCX)] else [Op2(IntOp(ast.op), R(RCX), R(RAX))];
      if ast.op == Divide {
        QuietTwo(Op2(Mov, Imm(0), R(EDX)), Idiv(RCX));
      } else {
        QuietOne(Op2(IntOp(ast.op), R(RCX), R(RAX)));
      }
      EmitCode(opc);
      Cat(old(out), code, opc);
      code := code + opc;
    }

    /**
     * emit_binop_float_arith: the operator is checked first; the right value goes to
     * %xmm1, the left one is popped into %xmm0, and the operation leaves its result in %xmm0.
     */
    method EmitFloatArith(ast: Ast) returns (ok: bool, ghost code: seq<Instr>, ghost lc: seq<Instr>, ghost rc: seq<Instr>)
      requires InBody() && ast.Binary?
      modifies this`out, this`depth, this`stackpos, this`nextLabel
      ensures InBody() && out == old(out) + code && old(nextLabel) <= nextLabel
      ensures ok ==> stackpos == old(stackpos)
      ensures !ArithOp(ast.op) ==> !ok && code == []
      ensures ok <==> ArithOp(ast.op) && Emittable(ast.left) && Emittable(ast.right)
      ensures ok ==> code == FloArithCode(ast, lc, rc)
      decreases ast, 1
    {
      lc, rc := [], [];
      if !ArithOp(ast.op) {
        NoCode(out);
        return false, [], [], [];
      }
      ok, code, lc := EmitAsDouble(ast.left);
      if !ok {
        return;
      }
      PushXmm(0);
      Cat(old(out), code, PushLoc(Xmm(0)));
      code := code + PushLoc(Xmm(0));
      ghost var rd;
      ok, rd, rc := EmitAsDouble(ast.right);
      Cat(old(out), code, rd);
      if !ok {
        code := code + rd;
        return;
      }
      Cat(code, rc, ToDoubleCode(ast.right.ctype));
      code := code + rd;
      EmitCode([Op2(Movsd, X(0), X(1))]);
      Cat(old(out), code, [Op2(Movsd, X(0), X(1))]);
      code := code + [Op2(Movsd, X(0), X(1))];
      PopXmm(0);
      Cat(old(out), code, PopLoc(Xmm(0)));
      code := code + PopLoc(Xmm(0));
      EmitCode([Op2(FloOp(ast.op), X(1), X(0))]);
      Cat(old(out), code, [Op2(FloOp(ast.op), X(1), X(0))]);
      code := code + [Op2(FloOp(ast.op), X(1), X(0))];
    }

    /**
     * emit_pointer_arith: pointer plus integer, the integer scaled by the element size when
     * that exceeds 1.  The operator is not looked at: the sum is emitted for any of them.
     * A pointer type without an element type fails once both operands are emitted.
     */
    method EmitPointerArith(ast: Ast) returns (ok: bool, ghost code: seq<Instr>, ghost lc: seq<Instr>, ghost rc: seq<Instr>)
      requires InBody() && ast.Binary?
      modifies this`out, this`depth, this`stackpos, this`nextLabel
      ensures InBody() && out == old(out) + code && old(nextLabel) <= nextLabel
      ensures ok ==> stackpos == old(stackpos)
      ensures ok <==> Emittable(ast.left) && Emittable(ast.right) && ast.left.ctype.ptr.Some?
      ensures ok ==> ast.left.ctype.ptr.Some? && code == PointerArithCode(ast.left.ctype.ptr.value.size, lc, rc)
      decreases ast, 1
    {
      rc := [];
      ok, lc := EmitExpr(ast.left);
      code := lc;
      if !ok {
        return;
      }
      Push(RAX);
      Cat(old(out), code, [PushReg(RAX)]);
      code := code + [PushReg(RAX)];
      ok, rc := EmitExpr(ast.right);
      Cat(old(out), code, rc);
      code := code + rc;
      if !ok {
        return;
      }
      if ast.left.ctype.ptr.None? {
        return false, code, lc, rc;
      }
      var size := ast.left.ctype.ptr.value.size;
      var scale := if size > 1 then [Op2(Imul, Imm(size), R(RAX))] else [];
      EmitCode(scale);
      Cat(old(out), code, scale);
      code := code + scale;
      EmitCode([Op2(Mov, R(RAX), R(RCX))]);
      Cat(old(out), code, [Op2(Mov, R(RAX), R(RCX))]);
      code := code + [Op2(Mov, R(RAX), R(RCX))];
      Pop(RAX);
      Cat(old(out), code, [PopReg(RAX)]);
      code := code + [PopReg(RAX)];
      EmitCode([Op2(Add, R(RCX), R(RAX))]);
      Cat(old(out), code, [Op2(Add, R(RCX), R(RAX))]);
      code := code + [Op2(Add, R(RCX), R(RAX))];
    }

    /**
     * emit_inc_dec: the operand's value is computed and saved, incremented or decremented
     * by 1 and stored back, and the saved (old) value becomes the result.
     */
    method EmitIncDec(ast: Ast, opc: Opcode) returns (ok: bool, ghost code: seq<Instr>, ghost oc: seq<Instr>, ghost ac: seq<Instr>)
      requires InBody() && ast.Unary?
      modifies this`out, this`depth, this`stackpos, this`nextLabel
      ensures InBody() && out == old(out) + code && old(nextLabel) <= nextLabel
      ensures ok ==> stackpos == old(stackpos)
      ensures ok <==> Emittable(ast.operand) && Assignable(ast.operand)
      ensures ok ==> code == oc + [PushReg(RAX)] + [Op2(opc, Imm(1), R(RAX))] + ac + [PopReg(RAX)]
      decreases ast, 2
    {
      ac := [];
      ok, oc := EmitExpr(ast.operand);
      code := oc;
      if !ok {
        return;
      }
      Push(RAX);
      Cat(old(out), code, [PushReg(RAX)]);
      code := code + [PushReg(RAX)];
      EmitCode([Op2(opc, Imm(1), R(RAX))]);
      Cat(old(out), code, [Op2(opc, Imm(1), R(RAX))]);
      code := code + [Op2(opc, Imm(1), R(RAX))];
      ghost var dc;
      ok, ac, dc := EmitAssign(ast.operand);
      Cat(old(out), code, ac);
      code := code + ac;
      if !ok {
        return;
      }
      Pop(RAX);
      Cat(old(out), code, [PopReg(RAX)]);
      code := code + [PopReg(RAX)];
    }

    /**
     * emit_assign: store the primary register into an lvalue: through a pointer, into a
     * struct field, a local or a global; anything else is an internal error.  (The source
     * tests for a dereference twice; the second test can never succeed.)
     */
    method EmitAssign(v: Ast) returns (ok: bool, ghost code: seq<Instr>, ghost oc: seq<Instr>)
      requires InBody()
      modifies this`out, this`depth, this`stackpos, this`nextLabel
      ensures InBody() && out == old(out) + code && old(nextLabel) <= nextLabel
      ensures ok ==> stackpos == old(stackpos)
      ensures ok <==> Assignable(v)
      ensures !(v.Deref? || v.StructRef? || v.LVar? || v.GVar?) ==> !ok
      ensures v.LVar? ==> ((ok <==> LsaveCode(v.ctype, LoffOf(v)).Some?) &&
        (ok ==> code == LsaveCode(v.ctype, LoffOf(v)).value))
      ensures v.GVar? ==> ((ok <==> GsaveCode(v.varname, v.ctype, 0).Some?) &&
        (ok ==> code == GsaveCode(v.varname, v.ctype, 0).value))
      ensures v.Deref? && ok ==> (v.operand.ctype.ptr.Some? && DerefStoreCode(v.operand.ctype.ptr.value, 0).Some? &&
        code == [PushReg(RAX)] + oc + DerefStoreCode(v.operand.ctype.ptr.value, 0).value)
      ensures v.StructRef? ==> StoresAt(ok, ChainBase(v.struc), v.field, v.field.offset + ChainSum(v.struc), code, oc)
      decreases v, 2
    {
      oc := [];
      if v.Deref? {
        ok, code, oc := EmitAssignDeref(v);
        return;
      }
      if v.StructRef? {
        var total;
        ok, code, oc, total := EmitAssignStructRef(v.struc, v.field, 0);
        return;
      }
      ok, code := EmitAssignVar(v);
    }

    /** The variable cases of emit_assign: a store into a local or a global; any other node fails. */
    method EmitAssignVar(v: Ast) returns (ok: bool, ghost code: seq<Instr>)
      requires InBody() && !v.Deref? && !v.StructRef?
      modifies this`out, this`depth
      ensures InBody() && out == old(out) + code
      ensures ok <==> Assignable(v)
      ensures !(v.LVar? || v.GVar?) ==> !ok
      ensures v.LVar? ==> ((ok <==> LsaveCode(v.ctype, LoffOf(v)).Some?) &&
        (ok ==> code == LsaveCode(v.ctype, LoffOf(v)).value))
      ensures v.GVar? ==> ((ok <==> GsaveCode(v.varname, v.ctype, 0).Some?) &&
        (ok ==> code == GsaveCode(v.varname, v.ctype, 0).value))
    {
      match v
      case LVar(ctype, _) =>
        ok, code := EmitOpt(LsaveCode(ctype, LoffOf(v)));
      case GVar(ctype, varname, _) =>
        ok, code := EmitOpt(GsaveCode(varname, ctype, 0));
      case _ =>
        NoCode(out);
        ok, code := false, [];
    }

    /** emit_assign_deref: save the value, compute the address, store through it and restore the value. */
    method EmitAssignDeref(v: Ast) returns (ok: bool, ghost code: seq<Instr>, ghost oc: seq<Instr>)
      requires InBody() && v.Deref?
      modifies this`out, this`depth, this`stackpos, this`nextLabel
      ensures InBody() && out == old(out) + code && old(nextLabel) <= nextLabel
      ensures ok ==> stackpos == old(stackpos)
      ensures ok <==> Emittable(v.operand) && v.operand.ctype.ptr.Some? && KnownWidth(v.operand.ctype.ptr.value)
      ensures ok ==> (v.operand.ctype.ptr.Some? && DerefStoreCode(v.operand.ctype.ptr.value, 0).Some? &&
        code == [PushReg(RAX)] + oc + DerefStoreCode(v.operand.ctype.ptr.value, 0).value)
      decreases v, 1
    {
      Push(RAX);
      code := [PushReg(RAX)];
      ok, oc := EmitExpr(v.operand);
      Cat(old(out), code, oc);
      code := code + oc;
      if !ok {
        return;
      }
      if v.operand.ctype.ptr.None? {
        return false, code, oc;
      }
      ghost var sc;
      ok, sc := EmitAssignDerefInt(v.operand.ctype.ptr.value, 0);
      Cat(old(out), code, sc);
      code := code + sc;
    }

    /**
     * emit_assign_deref_int: with the value saved on top of the stack and the address in
     * %rax, store the value by the type's width at `off(%rax)` and pop it back into %rax.
     */
    method EmitAssignDerefInt(t: Ctype, off: int) returns (ok: bool, ghost code: seq<Instr>)
      requires InBody() && stackpos >= 16
      modifies this`out, this`depth, this`stackpos, this`nextLabel
      ensures InBody() && out == old(out) + code && nextLabel == old(nextLabel)
      ensures ok <==> KnownWidth(t)
      ensures ok ==> code == DerefStoreCode(t, off).value && stackpos == old(stackpos) - 8
    {
      Emit(Op2(Mov, Mem(RSP, 0), R(RCX)));
      code := [Op2(Mov, Mem(RSP, 0), R(RCX))];
      match IntReg(t, 'c')
      case None =>
        ok := false;
      case Some(reg) =>
        Emit(Op2(Mov, R(reg), Mem(RAX, off)));
        Pop(RAX);
        code := [Op2(Mov, Mem(RSP, 0), R(RCX)), Op2(Mov, R(reg), Mem(RAX, off)), PopReg(RAX)];
        ok := true;
    }

    /**
     * emit_assign_struct_ref: a store into `s.f` resolves the chain of field references
     * down to its base, adding up the field offsets, and stores relative to that base.
     */
    method EmitAssignStructRef(struc: Ast, field: Ctype, off: int)
      returns (ok: bool, ghost code: seq<Instr>, ghost oc: seq<Instr>, total: int)
      requires InBody()
      modifies this`out, this`depth, this`stackpos, this`nextLabel
      ensures InBody() && out == old(out) + code && old(nextLabel) <= nextLabel
      ensures ok ==> stackpos == old(stackpos)
      ensures total == field.offset + ChainSum(struc) + off
      ensures StoresAt(ok, ChainBase(struc), field, total, code, oc)
      ensures ok <==> FieldStores(struc, field)
      decreases struc, 2
    {
      if struc.StructRef? {
        assert ChainBase(struc) == ChainBase(struc.struc);
        ok, code, oc, total := EmitAssignStructRef(struc.struc, field, off + struc.field.offset);
      } else {
        assert ChainBase(struc) == struc && ChainSum(struc) == 0;
        total := field.offset + off;
        ok, code, oc := EmitStoreAtBase(struc, field, total);
      }
    }

    /** The base of a field store: a local or global variable, or a dereference; anything else fails. */
    method EmitStoreAtBase(base: Ast, field: Ctype, total: int) returns (ok: bool, ghost code: seq<Instr>, ghost oc: seq<Instr>)
      requires InBody() && !base.StructRef?
      modifies this`out, this`depth, this`stackpos, this`nextLabel
      ensures InBody() && out == old(out) + code && old(nextLabel) <= nextLabel
      ensures ok ==> stackpos == old(stackpos)
      ensures StoresAt(ok, base, field, total, code, oc)
      ensures ok <==> FieldStores(base, field)
      decreases base, 1
    {
      oc := [];
      if base.LVar? {
        ok, code := EmitOpt(LsaveCode(field, LoffOf(base) + total));
      } else if base.GVar? {
        ok, code := EmitOpt(GsaveCode(base.varname, field, total));
      } else if base.Deref? {
        ok, code, oc := EmitStoreThrough(base, field, total);
      } else {
        NoCode(out);
        ok, code := false, [];
      }
    }

    /**
     * emit_load_struct_ref: a load of `s.f` resolves the chain of field references down
     * to its base in the same way.  Through a pointer, the load is emitted with the
     * pointed-to struct's type as the result type and the field's type as the operand type.
     */
    method EmitLoadStructRef(struc: Ast, field: Ctype, off: int)
      returns (ok: bool, ghost code: seq<Instr>, ghost oc: seq<Instr>, total: int)
      requires InBody()
      modifies this`out, this`depth, this`stackpos, this`nextLabel
      ensures InBody() && out == old(out) + code && old(nextLabel) <= nextLabel
      ensures ok ==> stackpos == old(stackpos)
      ensures total == field.offset + ChainSum(struc) + off
      ensures LoadsAt(ok, ChainBase(struc), field, total, code, oc)
      ensures ok <==> FieldLoads(struc, field)
      decreases struc, 2
    {
      if struc.StructRef? {
        assert ChainBase(struc) == ChainBase(struc.struc);
        ok, code, oc, total := EmitLoadStructRef(struc.struc, field, struc.field.offset + off);
      } else {
        assert ChainBase(struc) == struc && ChainSum(struc) == 0;
        total := field.offset + off;
        ok, code, oc := EmitLoadAtBase(struc, field, total);
      }
    }

    /** The base of a field load: a local or global variable, or a dereference; anything else fails. */
    method EmitLoadAtBase(base: Ast, field: Ctype, total: int) returns (ok: bool, ghost code: seq<Instr>, ghost oc: seq<Instr>)
      requires InBody() && !base.StructRef?
      modifies this`out, this`depth, this`stackpos, this`nextLabel
      ensures InBody() && out == old(out) + code && old(nextLabel) <= nextLabel
      ensures ok ==> stackpos == old(stackpos)
      ensures LoadsAt(ok, base, field, total, code, oc)
      ensures ok <==> FieldLoads(base, field)
      decreases base, 1
    {
      oc := [];
      if base.LVar? {
        ok, code := EmitOpt(LloadCode(field, LoffOf(base) + total));
      } else if base.GVar? {
        ok, code := EmitOpt(GloadCode(field, Named(base.glabel), total));
      } else if base.Deref? {
        ok, code, oc := EmitLoadThrough(base, field, total);
      } else {
        NoCode(out);
        ok, code := false, [];
      }
    }

    /** The base of a field store is a dereference: the value is saved, the pointer computed, and the value stored through it. */
    method EmitStoreThrough(d: Ast, field: Ctype, total: int) returns (ok: bool, ghost code: seq<Instr>, ghost oc: seq<Instr>)
      requires InBody() && d.Deref?
      modifies this`out, this`depth, this`stackpos, this`nextLabel
      ensures InBody() && out == old(out) + code && old(nextLabel) <= nextLabel
      ensures ok ==> stackpos == old(stackpos)
      ensures ok <==> Emittable(d.operand) && KnownWidth(field)
      ensures ok ==> DerefStoreCode(field, total).Some? && code == [PushReg(RAX)] + oc + DerefStoreCode(field, total).value
      decreases d, 0
    {
      Push(RAX);
      code := [PushReg(RAX)];
      ok, oc := EmitExpr(d.operand);
      Cat(old(out), code, oc);
      code := code + oc;
      if !ok {
        return;
      }
      ghost var sc;
      ok, sc := EmitAssignDerefInt(field, total);
      Cat(old(out), code, sc);
      code := code + sc;
    }

    /** The base of a field load is a dereference: the pointer is computed and the field loaded through it. */
    method EmitLoadThrough(d: Ast, field: Ctype, total: int) returns (ok: bool, ghost code: seq<Instr>, ghost oc: seq<Instr>)
      requires InBody() && d.Deref?
      modifies this`out, this`depth, this`stackpos, this`nextLabel
      ensures InBody() && out == old(out) + code && old(nextLabel) <= nextLabel
      ensures ok ==> stackpos == old(stackpos)
      ensures ok <==> Emittable(d.operand) && DerefLoads(d.ctype, field)
      ensures ok ==> LoadDerefCode(d.ctype, field, total).Some? && code == oc + LoadDerefCode(d.ctype, field, total).value
      decreases d, 0
    {
      ok, oc := EmitExpr(d.operand);
      code := oc;
      if !ok {
        return;
      }
      ghost var lc;
      ok, lc := EmitOpt(LoadDerefCode(d.ctype, field, total));
      Cat(old(out), code, lc);
      code := code + lc;
    }

    /**
     * What a store into a field chain emits, given the chain's base and the total offset
     * of the field within it.
     */
    ghost predicate StoresAt(ok: bool, base: Ast, field: Ctype, total: int, code: seq<Instr>, oc: seq<Instr>)
      reads this`loff
    {
      if base.LVar? then
        (ok <==> LsaveCode(field, LoffOf(base) + total).Some?) &&
        (ok ==> code == LsaveCode(field, LoffOf(base) + total).value)
      else if base.GVar? then
        (ok <==> GsaveCode(base.varname, field, total).Some?) &&
        (ok ==> code == GsaveCode(base.varname, field, total).value)
      else if base.Deref? then
        ok ==> DerefStoreCode(field, total).Some? && code == [PushReg(RAX)] + oc + DerefStoreCode(field, total).value
      else !ok
    }

    /** What a load from a field chain emits, given the chain's base and the total offset. */
    ghost predicate LoadsAt(ok: bool, base: Ast, field: Ctype, total: int, code: seq<Instr>, oc: seq<Instr>)
      reads this`loff
    {
      if base.LVar? then
        (ok <==> LloadCode(field, LoffOf(base) + total).Some?) &&
        (ok ==> code == LloadCode(field, LoffOf(base) + total).value)
      else if base.GVar? then
        (ok <==> GloadCode(field, Named(base.glabel), total).Some?) &&
        (ok ==> code == GloadCode(field, Named(base.glabel), total).value)
      else if base.Deref? then
        ok ==> LoadDerefCode(base.ctype, field, total).Some? && code == oc + LoadDerefCode(base.ctype, field, total).value
      else !ok
    }

    /**
     * A declaration with its initialiser: an initialiser list is stored element by element;
     * a char array takes the characters of its string literal; a string literal's address
     * or any other value is stored into the variable's slot.
     */
    method EmitDecl(ast: Ast) returns (ok: bool, ghost code: seq<Instr>, ghost parts: seq<seq<Instr>>)
      requires InBody() && ast.Decl?
      modifies this`out, this`depth, this`stackpos, this`nextLabel
      ensures InBody() && out == old(out) + code && old(nextLabel) <= nextLabel
      ensures ok ==> stackpos == old(stackpos)
      ensures ast.declinit.None? ==> ok && code == []
      ensures ok <==> DeclEmittable(ast)
      ensures ast.declinit.Some? && ast.declinit.value.ArrayInit? && ok ==>
        var elt := ast.declvar.ctype.ptr;
        |parts| == |ast.declinit.value.arrayinit| &&
        (|parts| == 0 ==> code == []) &&
        (|parts| > 0 ==> (elt.Some? && (IsFloType(elt.value) || KnownWidth(elt.value)) &&
          code == ArrayInitCode(parts, elt.value, LoffOf(ast.declvar))))
      ensures ast.declinit.Some? && !ast.declinit.value.ArrayInit? && ast.declvar.ctype.kind == Array ==>
        (ok <==> ast.declinit.value.Str?) &&
        (ok ==> code == StringInitCode(LoffOf(ast.declvar), ast.declinit.value.val))
      ensures ast.declinit.Some? && ast.declinit.value.Str? && ast.declvar.ctype.kind != Array ==>
        var init := ast.declinit.value;
        (ok <==> GloadCode(init.ctype, Named(init.slabel), 0).Some? && LsaveCode(ast.declvar.ctype, LoffOf(ast.declvar)).Some?) &&
        (ok ==> code == GloadCode(init.ctype, Named(init.slabel), 0).value + LsaveCode(ast.declvar.ctype, LoffOf(ast.declvar)).value)
      ensures (ast.declinit.Some? && !ast.declinit.value.ArrayInit? && !ast.declinit.value.Str? &&
        ast.declvar.ctype.kind != Array && ok) ==>
        |parts| == 1 && LsaveCode(ast.declvar.ctype, LoffOf(ast.declvar)).Some? &&
        code == parts[0] + LsaveCode(ast.declvar.ctype, LoffOf(ast.declvar)).value
      decreases ast, 2
    {
      parts := [];
      if ast.declinit.None? {
        NoCode(out);
        return true, [], parts;
      }
      var init := ast.declinit.value;
      var loff := LoffOf(ast.declvar);
      if init.ArrayInit? {
        ok, code, parts := EmitLocalArrayInit(ast);
      } else if ast.declvar.ctype.kind == Array {
        if !init.Str? {
          NoCode(out);
          return false, [], parts;
        }
        code := EmitLocalStringInit(loff, init.val);
        ok := true;
      } else if init.Str? {
        ok, code := EmitOpt(GloadCode(init.ctype, Named(init.slabel), 0));
        if !ok {
          return;
        }
        ghost var sc;
        ok, sc := EmitOpt(LsaveCode(ast.declvar.ctype, loff));
        Cat(old(out), code, sc);
        code := code + sc;
      } else {
        ghost var p;
        ok, p := EmitExpr(init);
        parts := [p];
        code := p;
        if !ok {
          return;
        }
        ghost var sc;
        ok, sc := EmitOpt(LsaveCode(ast.declvar.ctype, loff));
        Cat(old(out), code, sc);
        code := code + sc;
      }
    }

    /**
     * The elements of an initialiser list, each stored at the variable's offset plus the
     * running sum of the element size: element k lands at `loff + k * size`.  A variable
     * whose type has no element type fails at the first element.
     */
    method EmitLocalArrayInit(ast: Ast) returns (ok: bool, ghost code: seq<Instr>, ghost parts: seq<seq<Instr>>)
      requires InBody() && ast.Decl? && ast.declinit.Some? && ast.declinit.value.ArrayInit?
      modifies this`out, this`depth, this`stackpos, this`nextLabel
      ensures InBody() && out == old(out) + code && old(nextLabel) <= nextLabel
      ensures ok ==> stackpos == old(stackpos)
      ensures ok <==> ItemsEmittable(ast.declinit.value.arrayinit, ast.declvar.ctype.ptr)
      ensures ok ==>
        var elt := ast.declvar.ctype.ptr;
        |parts| == |ast.declinit.value.arrayinit| &&
        (|parts| == 0 ==> code == []) &&
        (|parts| > 0 ==> (elt.Some? && (IsFloType(elt.value) || KnownWidth(elt.value)) &&
          code == ArrayInitCode(parts, elt.value, LoffOf(ast.declvar))))
      decreases ast, 1
    {
      var items := ast.declinit.value.arrayinit;
      var loff := LoffOf(ast.declvar);
      var off := 0;
      parts, code := [], [];
      NoCode(out);
      for k := 0 to |items|
        invariant InBody() && out == old(out) + code && old(nextLabel) <= nextLabel && stackpos == old(stackpos)
        invariant |parts| == k && InitSoFar(ast.declvar.ctype.ptr, loff, off, code, parts)
        invariant AllEmittable(items[..k])
      {
        ghost var p, ec;
        ok, off, ec, p := EmitInitItem(ast, k, off, code, parts);
        Cat(old(out), code, ec);
        code := code + ec;
        if !ok {
          AllEmittableAt(items, k);
          return;
        }
        AllEmittableStep(items, k);
        parts := parts + [p];
      }
      assert items[..|items|] == items;
      ok := true;
    }

    /** Element `k` of an initialiser list, after the elements `parts`: its code and its store, and the offset of the next one. */
    method EmitInitItem(ast: Ast, k: nat, off: int, ghost code: seq<Instr>, ghost parts: seq<seq<Instr>>)
      returns (ok: bool, next: int, ghost ec: seq<Instr>, ghost p: seq<Instr>)
      requires InBody() && ast.Decl? && ast.declinit.Some? && ast.declinit.value.ArrayInit?
      requires k < |ast.declinit.value.arrayinit| && |parts| == k
      requires InitSoFar(ast.declvar.ctype.ptr, LoffOf(ast.declvar), off, code, parts)
      modifies this`out, this`depth, this`stackpos, this`nextLabel
      ensures InBody() && out == old(out) + ec && old(nextLabel) <= nextLabel
      ensures ok <==> (Emittable(ast.declinit.value.arrayinit[k]) &&
        ast.declvar.ctype.ptr.Some? && (IsFloType(ast.declvar.ctype.ptr.value) || KnownWidth(ast.declvar.ctype.ptr.value)))
      ensures ok ==> stackpos == old(stackpos) && InitSoFar(ast.declvar.ctype.ptr, LoffOf(ast.declvar), next, code + ec, parts + [p])
      decreases ast, 0
    {
      var elt := ast.declvar.ctype.ptr;
      var loff := LoffOf(ast.declvar);
      next := off;
      ok, ec, p := EmitArrayElem(ast.declinit.value.arrayinit[k], elt, loff + off);
      if ok {
        InitSoFarStep(elt, loff, off, code, parts, p);
        next := off + elt.value.size;
      }
    }

    /** One element of an initialiser list: its value, then its store at `addr` with the element type. */
    method EmitArrayElem(item: Ast, elt: Option<Ctype>, addr: int) returns (ok: bool, ghost code: seq<Instr>, ghost p: seq<Instr>)
      requires InBody()
      modifies this`out, this`depth, this`stackpos, this`nextLabel
      ensures InBody() && out == old(out) + code && old(nextLabel) <= nextLabel
      ensures ok ==> stackpos == old(stackpos)
      ensures ok <==> Emittable(item) && elt.Some? && (IsFloType(elt.value) || KnownWidth(elt.value))
      ensures ok ==> (elt.Some? && (IsFloType(elt.value) || KnownWidth(elt.value)) &&
        code == p + LsaveCode(elt.value, addr).value)
      decreases item, 5
    {
      ok, p := EmitExpr(item);
      code := p;
      if !ok {
        return;
      }
      if elt.None? {
        return false, code, p;
      }
      ghost var sc;
      ok, sc := EmitOpt(LsaveCode(elt.value, addr));
      Cat(old(out), code, sc);
      code := code + sc;
    }

    /**
     * A char array initialised from a string literal: one `movb` per character, then the
     * zero byte at `loff + i`, where `i` is the outer variable that the loop's own `i`
     * shadows, so it is always 0.
     */
    method EmitLocalStringInit(loff: int, val: seq<Byte>) returns (ghost code: seq<Instr>)
      requires InBody()
      modifies this`out, this`depth, this`stackpos, this`nextLabel
      ensures InBody() && stackpos == old(stackpos) && nextLabel == old(nextLabel)
      ensures out == old(out) + code && code == StringInitCode(loff, val)
    {
      code := [];
      NoCode(out);
      var i := 0;
      for i := 0 to |val|
        invariant InBody() && stackpos == old(stackpos) && nextLabel == old(nextLabel)
        invariant out == old(out) + code && code == CharStores(loff, val[..i])
      {
        EmitCode([Op2(Movb, Imm(val[i]), Frame(loff + i))]);
        Cat(old(out), code, [Op2(Movb, Imm(val[i]), Frame(loff + i))]);
        code := code + [Op2(Movb, Imm(val[i]), Frame(loff + i))];
        assert val[..i + 1][..i] == val[..i];
      }
      assert val[..|val|] == val;
      EmitCode([Op2(Movb, Imm(0), Frame(loff + i))]);
      Cat(old(out), code, [Op2(Movb, Imm(0), Frame(loff + i))]);
      code := code + [Op2(Movb, Imm(0), Frame(loff + i))];
    }

    /**
     * A call: save the argument registers the call will overwrite, evaluate the arguments
     * left to right pushing each value, pop them into their registers last argument first,
     * call with %eax holding the number of floating arguments and the stack padded to 16
     * bytes, and finally restore the saved registers.  More integer arguments than
     * registers fail (the source indexes past the register table).
     */
    method EmitFunCall(ast: Ast) returns (ok: bool, ghost code: seq<Instr>, ghost parts: seq<seq<Instr>>, ghost sp: int)
      requires InBody() && ast.FunCall?
      modifies this`out, this`depth, this`stackpos, this`nextLabel
      ensures InBody() && out == old(out) + code && old(nextLabel) <= nextLabel
      ensures ok ==> stackpos == old(stackpos)
      ensures !Fits(Flags(ast.args)) ==> !ok
      ensures ok <==> Emittable(ast)
      ensures sp == old(stackpos) + 8 * |ast.args|
      ensures ok ==>
        var fl := Flags(ast.args);
        Fits(fl) && |parts| == |fl| &&
        code == SaveCode(fl) + (ArgsCode(parts, fl) + (PopRange(fl, 0) + CallSeq(fl, sp, ast.fname) + PopRange(fl, 0)))
      decreases ast, 2
    {
      sp := old(stackpos) + 8 * |ast.args|;
      var fl := Flags(ast.args);
      var ireg, xreg;
      parts := [];
      ok, ireg, xreg, code := EmitSaveArgRegs(fl);
      if !ok {
        return;
      }
      ghost var rest;
      ok, rest, parts := EmitArgsAndCall(ast, fl, ireg, xreg, sp);
      Cat(old(out), code, rest);
      code := code + rest;
    }

    /** A call after the saving pushes: the arguments, then the pops, the call itself and the restoring pops. */
    method EmitArgsAndCall(ast: Ast, fl: seq<bool>, ireg: nat, xreg: nat, ghost sp: int)
      returns (ok: bool, ghost code: seq<Instr>, ghost parts: seq<seq<Instr>>)
      requires InBody() && ast.FunCall? && fl == Flags(ast.args)
      requires Fits(fl) && ireg == CountInt(fl) && xreg == CountFlo(fl)
      requires stackpos == sp && sp >= 8 + 8 * |fl|
      modifies this`out, this`depth, this`stackpos, this`nextLabel
      ensures InBody() && out == old(out) + code && old(nextLabel) <= nextLabel
      ensures ok ==> stackpos == sp - 8 * |fl|
      ensures ok <==> AllEmittable(ast.args)
      ensures ok ==> (|parts| == |fl| &&
        code == ArgsCode(parts, fl) + (PopRange(fl, 0) + CallSeq(fl, sp, ast.fname) + PopRange(fl, 0)))
      decreases ast, 1
    {
      ghost var ac;
      ok, ac, parts := EmitArgs(ast);
      if !ok {
        code := ac;
        return;
      }
      ghost var rc := EmitCallRestore(fl, ireg, xreg, ast.fname);
      Cat(old(out), ac, rc);
      code := ac + rc;
    }

    /**
     * The end of a call: the argument values popped into their registers, the call, and
     * the saved argument registers restored (the same pops again).
     */
    method EmitCallRestore(fl: seq<bool>, ireg: nat, xreg: nat, fname: string) returns (ghost code: seq<Instr>)
      requires InBody() && Fits(fl) && ireg == CountInt(fl) && xreg == CountFlo(fl)
      requires stackpos >= 8 + 16 * |fl|
      modifies this`out, this`depth, this`stackpos, this`nextLabel
      ensures InBody() && out == old(out) + code && nextLabel == old(nextLabel)
      ensures stackpos == old(stackpos) - 16 * |fl|
      ensures code == PopRange(fl, 0) + CallSeq(fl, old(stackpos) - 8 * |fl|, fname) + PopRange(fl, 0)
    {
      EmitPopArgs(fl, ireg, xreg);
      code := PopRange(fl, 0);
      ghost var sp := stackpos;
      EmitCallSeq(fl, xreg, fname);
      Cat(old(out), code, CallSeq(fl, sp, fname));
      code := code + CallSeq(fl, sp, fname);
      EmitPopArgs(fl, ireg, xreg);
      Cat(old(out), code, PopRange(fl, 0));
      code := code + PopRange(fl, 0);
    }

    /** The first loop of a call: push each argument's register, in argument order, counting both classes. */
    method EmitSaveArgRegs(fl: seq<bool>) returns (ok: bool, ireg: nat, xreg: nat, ghost code: seq<Instr>)
      requires InBody()
      modifies this`out, this`depth, this`stackpos, this`nextLabel
      ensures InBody() && out == old(out) + code && nextLabel == old(nextLabel)
      ensures ok <==> Fits(fl)
      ensures ok ==> (ireg == CountInt(fl) && xreg == CountFlo(fl) &&
        code == SaveCode(fl) && stackpos == old(stackpos) + 8 * |fl|)
    {
      ireg, xreg, code := 0, 0, [];
      NoCode(out);
      for j := 0 to |fl|
        invariant InBody() && nextLabel == old(nextLabel)
        invariant Fits(fl[..j]) && ireg == CountInt(fl[..j]) && xreg == CountFlo(fl[..j])
        invariant out == old(out) + code && code == SaveCode(fl[..j]) && stackpos == old(stackpos) + 8 * j
      {
        CountStep(fl, j);
        ghost var f := fl[..j + 1];
        assert f[..j] == fl[..j];
        if fl[j] {
          assert Fits(f);
          assert SaveCode(f) == SaveCode(fl[..j]) + PushLoc(Xmm(xreg));
          PushXmm(xreg);
          Cat(old(out), code, PushLoc(Xmm(xreg)));
          code := code + PushLoc(Xmm(xreg));
          xreg := xreg + 1;
        } else {
          if ireg >= |REGS| {
            CountMono(fl, j + 1, |fl|);
            assert fl[..|fl|] == fl;
            return false, ireg, xreg, code;
          }
          assert Fits(f);
          assert SaveCode(f) == SaveCode(fl[..j]) + PushLoc(Gpr(REGS[ireg]));
          Push(REGS[ireg]);
          Cat(old(out), code, PushLoc(Gpr(REGS[ireg])));
          code := code + PushLoc(Gpr(REGS[ireg]));
          ireg := ireg + 1;
        }
      }
      assert fl[..|fl|] == fl;
      ok := true;
    }

    /** The second loop of a call: each argument's code followed by a push of its value. */
    method EmitArgs(ast: Ast) returns (ok: bool, ghost code: seq<Instr>, ghost parts: seq<seq<Instr>>)
      requires InBody() && ast.FunCall?
      modifies this`out, this`depth, this`stackpos, this`nextLabel
      ensures InBody() && out == old(out) + code && old(nextLabel) <= nextLabel
      ensures ok <==> AllEmittable(ast.args)
      ensures ok ==> (|parts| == |ast.args| &&
        code == ArgsCode(parts, Flags(ast.args)) && stackpos == old(stackpos) + 8 * |ast.args|)
      decreases ast, 0
    {
      var fl := Flags(ast.args);
      parts, code := [], [];
      NoCode(out);
      for j := 0 to |ast.args|
        invariant InBody() && out == old(out) + code && old(nextLabel) <= nextLabel
        invariant |parts| == j && code == ArgsCode(parts, fl[..j]) && stackpos == old(stackpos) + 8 * j
        invariant AllEmittable(ast.args[..j])
      {
        ghost var p, c;
        ok, c, p := EmitArg(ast.args[j]);
        Cat(old(out), code, c);
        if !ok {
          AllEmittableAt(ast.args, j);
          code := code + c;
          return;
        }
        AllEmittableStep(ast.args, j);
        assert fl[j] == IsFloType(ast.args[j].ctype);
        ArgsStep(parts, fl, p, code, c);
        code := code + c;
        parts := parts + [p];
      }
      assert fl[..|fl|] == fl && ast.args[..|ast.args|] == ast.args;
      ok := true;
    }

    /** One argument of a call: its code, then a push of its value from the register of its class. */
    method EmitArg(arg: Ast) returns (ok: bool, ghost code: seq<Instr>, ghost p: seq<Instr>)
      requires InBody()
      modifies this`out, this`depth, this`stackpos, this`nextLabel
      ensures InBody() && out == old(out) + code && old(nextLabel) <= nextLabel
      ensures ok <==> Emittable(arg)
      ensures ok ==> stackpos == old(stackpos) + 8 && code == p + PushLoc(Primary(IsFloType(arg.ctype)))
      decreases arg, 5
    {
      ok, p := EmitExpr(arg);
      code := p;
      if !ok {
        return;
      }
      var flo := IsFloType(arg.ctype);
      if flo {
        PushXmm(0);
      } else {
        Push(RAX);
      }
      Cat(old(out), code, PushLoc(Primary(flo)));
      code := code + PushLoc(Primary(flo));
    }

    /**
     * The pops of a call, last argument first: each value goes to the register of its
     * class counted back from the totals, so every argument reaches its own register.
     */
    method EmitPopArgs(fl: seq<bool>, ireg: nat, xreg: nat)
      requires InBody() && Fits(fl) && ireg == CountInt(fl) && xreg == CountFlo(fl)
      requires stackpos >= 8 + 8 * |fl|
      modifies this`out, this`depth, this`stackpos, this`nextLabel
      ensures InBody() && nextLabel == old(nextLabel)
      ensures out == old(out) + PopRange(fl, 0) && stackpos == old(stackpos) - 8 * |fl|
    {
      var ir, xr := ireg, xreg;
      var j := |fl|;
      assert fl[..|fl|] == fl;
      NoCode(out);
      while j > 0
        invariant 0 <= j <= |fl|
        invariant InBody() && nextLabel == old(nextLabel)
        invariant ir == CountInt(fl[..j]) && xr == CountFlo(fl[..j])
        invariant out == old(out) + PopRange(fl, j) && stackpos == old(stackpos) - 8 * (|fl| - j)
      {
        CountStep(fl, j - 1);
        CountMono(fl, j, |fl|);
        ghost var d := ArgDest(fl, j - 1);
        assert PopRange(fl, j - 1) == PopRange(fl, j) + PopLoc(d);
        if fl[j - 1] {
          xr := xr - 1;
          assert d == Xmm(xr);
          PopXmm(xr);
        } else {
          ir := ir - 1;
          assert d == Gpr(REGS[ir]);
          Pop(REGS[ir]);
        }
        Cat(old(out), PopRange(fl, j), PopLoc(d));
        j := j - 1;
      }
    }

    /**
     * The call itself: %eax gets the number of floating arguments, then the call, padded
     * by 8 bytes when the cursor is not a multiple of 16; the cursor is not changed.
     */
    method EmitCallSeq(fl: seq<bool>, xreg: nat, fname: string)
      requires InBody() && xreg == CountFlo(fl)
      modifies this`out, this`depth, this`stackpos, this`nextLabel
      ensures InBody() && nextLabel == old(nextLabel) && stackpos == old(stackpos)
      ensures out == old(out) + CallSeq(fl, stackpos, fname)
    {
      assert (stackpos + CallPad(stackpos)) % 16 == 0;
      Emit(Op2(Mov, Imm(xreg), R(EAX)));
      if stackpos % 16 != 0 {
        Emit(Op2(Sub, Imm(8), R(RSP)));
      }
      Emit(Call(fname));
      if stackpos % 16 != 0 {
        Emit(Op2(Add, Imm(8), R(RSP)));
      }
    }

    /**
     * emit_data_section: `.data`, then each string literal of the global environment
     * under its label (global variables are skipped, anything else is an error), then
     * each float constant under a new label, which is recorded for the constant.
     */
    method EmitDataSection(globals: seq<Ast>, flonums: seq<Ast>) returns (ok: bool)
      requires Valid()
      modifies this`out, this`depth, this`nextLabel, this`flabel
      ensures Valid() && depth == old(depth)
      ensures ok <==> StringsCode(globals).Some?
      ensures ok ==> out == old(out) + [DataSection] + StringsCode(globals).value + FloCode(flonums, old(nextLabel))
      ensures ok ==> nextLabel == old(nextLabel) + |flonums| && flabel == old(flabel) + FloLabels(flonums, old(nextLabel))
      ensures !ok ==> nextLabel == old(nextLabel) && flabel == old(flabel)
    {
      Emit(DataSection);
      ok := EmitStrings(globals);
      if !ok {
        return;
      }
      EmitFloats(flonums);
      Cat(old(out), [DataSection], StringsCode(globals).value);
    }

    /** The first loop of emit_data_section: each string literal's label and bytes. */
    method EmitStrings(globals: seq<Ast>) returns (ok: bool)
      requires Valid()
      modifies this`out, this`depth
      ensures Valid() && depth == old(depth)
      ensures ok <==> StringsCode(globals).Some?
      ensures ok ==> out == old(out) + StringsCode(globals).value
    {
      NoCode(out);
      for k := 0 to |globals|
        invariant Valid() && depth == old(depth)
        invariant StringsCode(globals[..k]).Some? && out == old(out) + StringsCode(globals[..k]).value
      {
        assert globals[..k + 1][..k] == globals[..k];
        var v := globals[k];
        if v.Str? {
          QuietTwo(Def(Named(v.slabel)), StringData(v.val));
          Cat(old(out), StringsCode(globals[..k]).value, [Def(Named(v.slabel)), StringData(v.val)]);
          EmitCode([Def(Named(v.slabel)), StringData(v.val)]);
        } else if !v.GVar? {
          assert !(globals[k].Str? || globals[k].GVar?);
          return false;
        }
      }
      assert globals[..|globals|] == globals;
      ok := true;
    }

    /** The second loop of emit_data_section: each float constant under a new label, recorded for it. */
    method EmitFloats(flonums: seq<Ast>)
      requires Valid()
      modifies this`out, this`depth, this`nextLabel, this`flabel
      ensures Valid() && depth == old(depth)
      ensures out == old(out) + FloCode(flonums, old(nextLabel))
      ensures nextLabel == old(nextLabel) + |flonums| && flabel == old(flabel) + FloLabels(flonums, old(nextLabel))
    {
      ghost var base := nextLabel;
      assert old(flabel) + map[] == old(flabel);
      NoCode(out);
      for k := 0 to |flonums|
        invariant Valid() && depth == old(depth)
        invariant nextLabel == base + k && out == old(out) + FloCode(flonums[..k], base)
        invariant flabel == old(flabel) + FloLabels(flonums[..k], base)
      {
        EmitFloat(flonums[k], flonums, k, base, old(out), old(flabel));
      }
      assert flonums[..|flonums|] == flonums;
    }

    /** One float constant of the data section: a new label, recorded for the constant and defined before its words. */
    method EmitFloat(v: Ast, ghost fs: seq<Ast>, ghost k: nat, ghost base: nat, ghost o: seq<Instr>, ghost labels: map<nat, Sym>)
      requires Valid() && k < |fs| && fs[k] == v && nextLabel == base + k
      requires out == o + FloCode(fs[..k], base) && flabel == labels + FloLabels(fs[..k], base)
      modifies this`out, this`depth, this`nextLabel, this`flabel
      ensures Valid() && depth == old(depth) && nextLabel == base + k + 1
      ensures out == o + FloCode(fs[..k + 1], base) && flabel == labels + FloLabels(fs[..k + 1], base)
    {
      FloStep(fs, base, k);
      var lab := MakeLabel();
      if v.Literal? {
        MergeUpdate(labels, FloLabels(fs[..k], base), v.id, Local(lab));
        flabel := flabel[v.id := Local(lab)];
      }
      Cat(o, FloCode(fs[..k], base), FloEntry(v, lab));
      EmitCode(FloEntry(v, lab));
    }

    /** emit_data_int: one directive of the element's own width; an array-typed element or another size is an error. */
    method EmitDataInt(e: Ast) returns (ok: bool)
      requires Valid()
      modifies this`out, this`depth
      ensures Valid() && depth == old(depth)
      ensures ok <==> DataInt(e).Some?
      ensures out == old(out) + (if ok then [DataInt(e).value] else [])
    {
      if e.ctype.kind == Array {
        return false;
      }
      if e.ctype.size == 1 {
        Emit(ByteData(IvalOf(e)));
      } else if e.ctype.size == 4 {
        Emit(LongData(IvalOf(e)));
      } else if e.ctype.size == 8 {
        Emit(QuadData(IvalOf(e)));
      } else {
        return false;
      }
      ok := true;
    }

    /**
     * emit_data: the global's name, made global and defined, then one directive per
     * element of an array initialiser, or one for an integer literal; any other
     * initialiser is an error.
     */
    method EmitData(v: Ast) returns (ok: bool)
      requires Valid() && v.Decl? && v.declinit.Some?
      modifies this`out, this`depth
      ensures Valid() && depth == old(depth)
      ensures ok <==> DataCode(v).Some?
      ensures ok ==> out == old(out) + DataCode(v).value
    {
      var name := VarnameOf(v.declvar);
      QuietTwo(Global(name), Def(Named(name)));
      EmitCode([Global(name), Def(Named(name))]);
      ghost var head := out;
      var init := v.declinit.value;
      if init.ArrayInit? {
        var items := init.arrayinit;
        for k := 0 to |items|
          invariant Valid() && depth == old(depth) && head == old(out) + [Global(name), Def(Named(name))]
          invariant DataInts(items[..k]).Some? && out == head + DataInts(items[..k]).value
        {
          assert items[..k + 1][..k] == items[..k];
          ok := EmitDataInt(items[k]);
          if !ok {
            assert DataInt(items[k]).None?;
            return;
          }
          Cat(head, DataInts(items[..k]).value, [DataInt(items[k]).value]);
        }
        assert items[..|items|] == items;
        Cat(old(out), [Global(name), Def(Named(name))], DataInts(items).value);
        return true;
      }
      if !(init.Literal? && IsIntType(init.ctype)) {
        return false;
      }
      ok := EmitDataInt(init);
      if ok {
        Cat(old(out), [Global(name), Def(Named(name))], [DataInt(init).value]);
      }
    }

    /** emit_bss: reserve the type's size, uninitialised, under the global's name. */
    method EmitBss(v: Ast)
      requires Valid() && v.Decl?
      modifies this`out, this`depth
      ensures Valid() && depth == old(depth)
      ensures out == old(out) + [Lcomm(VarnameOf(v.declvar), v.declvar.ctype.size)]
    {
      Emit(Lcomm(VarnameOf(v.declvar), v.declvar.ctype.size));
    }

    /** emit_global_var: data for an initialised global, reserved space for an uninitialised one. */
    method EmitGlobalVar(v: Ast) returns (ok: bool)
      requires Valid() && v.Decl?
      modifies this`out, this`depth
      ensures Valid() && depth == old(depth)
      ensures ok <==> GlobalVarCode(v).Some?
      ensures ok ==> out == old(out) + GlobalVarCode(v).value
    {
      if v.declinit.Some? {
        ok := EmitData(v);
      } else {
        EmitBss(v);
        ok := true;
      }
    }

    /**
     * emit_func_prologue: the header and frame set-up of a function.  Each parameter's
     * register is pushed (a floating one after narrowing it in place; the source's
     * separate branch for doubles is unreachable, as doubles are floating) and gets the
     * next frame slot, then each local variable does; the frame is allocated by one
     * `add` of the final (negative) offset.  An integer parameter beyond the sixth is an
     * error (the register table has six entries).  On success the cursor is the stack
     * depth again.
     */
    method EmitFuncPrologue(fn: Ast) returns (ok: bool)
      requires Valid() && fn.Func? && stackpos == 0 && depth == 8
      requires SizesNonNegative(fn.params + fn.localvars)
      modifies this`out, this`depth, this`stackpos, this`loff
      ensures Valid()
      ensures ok <==> Fits(Flags(fn.params))
      ensures ok ==> InBody() && stackpos == 16 + 8 * |fn.params| + SumAligned(fn.params + fn.localvars)
      ensures ok ==> out == old(out) + PrologueCode(fn)
      ensures ok ==> loff == old(loff) + FrameMap(fn.params + fn.localvars)
    {
      EmitFuncHeader(fn.fname);
      ghost var h := FuncHeader(fn.fname);
      var off;
      ok, off := EmitParams(fn.params);
      if !ok {
        return;
      }
      ghost var ps := ParamSpill(Flags(fn.params));
      Cat(old(out), h, ps);
      EmitFrame(fn, off, old(loff));
      Cat(old(out), h + ps, FrameCode(-SumAligned(fn.params + fn.localvars)));
    }

    /** The locals' frame slots after the parameters', and the allocation of the whole frame. */
    method EmitFrame(fn: Ast, off: int, ghost base: map<nat, int>)
      requires Valid() && fn.Func? && depth == stackpos + 8 && stackpos >= 0
      requires SizesNonNegative(fn.params + fn.localvars)
      requires off == -SumAligned(fn.params) && loff == base + FrameMap(fn.params)
      modifies this`out, this`depth, this`stackpos, this`loff
      ensures InBody() && out == old(out) + FrameCode(-SumAligned(fn.params + fn.localvars))
      ensures stackpos == old(stackpos) + 8 + SumAligned(fn.params + fn.localvars)
      ensures loff == base + FrameMap(fn.params + fn.localvars)
    {
      var total := LayoutLocals(fn.params, fn.localvars, off, base);
      SumAlignedShape(fn.params + fn.localvars);
      AllocFrame(total);
    }

    /** The head of the prologue: the function is made global and defined, and %rbp is saved and set to the frame. */
    method EmitFuncHeader(fname: string)
      requires Valid() && stackpos == 0 && depth == 8
      modifies this`out, this`depth, this`stackpos
      ensures Valid() && stackpos == 8 && depth == 16
      ensures out == old(out) + FuncHeader(fname)
    {
      Emit(Text);
      Emit(Global(fname));
      Emit(Def(Named(fname)));
      Push(RBP);
      Emit(Op2(Mov, R(RSP), R(RBP)));
    }

    /**
     * The end of the prologue: the frame is allocated by adding the (negative) final
     * offset to %rsp, unless it is zero, and the cursor catches up with the real depth.
     */
    method AllocFrame(off: int)
      requires Valid() && depth == stackpos + 8 && stackpos >= 0 && off <= 0 && off % 8 == 0
      modifies this`out, this`depth, this`stackpos
      ensures InBody() && out == old(out) + FrameCode(off) && stackpos == old(stackpos) + 8 - off
    {
      if off != 0 {
        Emit(Op2(Add, Imm(off), R(RSP)));
      } else {
        NoCode(out);
      }
      stackpos := stackpos + -(off - 8);
    }

    /**
     * The parameter loop of the prologue: each parameter's register is pushed, in
     * parameter order, and the parameter gets the next frame slot below the previous one.
     */
    method EmitParams(ps: seq<Ast>) returns (ok: bool, off: int)
      requires Valid() && depth == stackpos + 8
      modifies this`out, this`depth, this`stackpos, this`loff
      ensures Valid() && depth == stackpos + 8
      ensures ok <==> Fits(Flags(ps))
      ensures ok ==> out == old(out) + ParamSpill(Flags(ps)) && stackpos == old(stackpos) + 8 * |ps|
      ensures ok ==> off == -SumAligned(ps) && loff == old(loff) + FrameMap(ps)
    {
      var fl := Flags(ps);
      var ireg, xreg := 0, 0;
      off := 0;
      NoCode(out);
      for j := 0 to |ps|
        invariant Valid() && depth == stackpos + 8
        invariant Fits(fl[..j]) && ireg == CountInt(fl[..j]) && xreg == CountFlo(fl[..j])
        invariant out == old(out) + ParamSpill(fl[..j]) && stackpos == old(stackpos) + 8 * j
        invariant off == -SumAligned(ps[..j]) && loff == old(loff) + FrameMap(ps[..j])
      {
        var v := ps[j];
        ok, ireg, xreg := SpillParam(v, ireg, xreg, fl, j, old(out));
        if !ok {
          CountMono(fl, j + 1, |fl|);
          assert fl[..|fl|] == fl;
          return false, off;
        }
        off := NextSlot(v, off, ps, j, old(loff));
      }
      assert fl[..|fl|] == fl && ps[..|ps|] == ps;
      ok := true;
    }

    /** The second loop of the prologue: each local variable gets the next frame slot below the parameters'. */
    method LayoutLocals(ps: seq<Ast>, locals: seq<Ast>, off0: int, ghost base: map<nat, int>) returns (off: int)
      requires off0 == -SumAligned(ps) && loff == base + FrameMap(ps)
      modifies this`loff
      ensures off == -SumAligned(ps + locals) && loff == base + FrameMap(ps + locals)
    {
      ghost var all := ps + locals;
      ghost var np := |ps|;
      assert all[..np] == ps;
      off := off0;
      for j := 0 to |locals|
        invariant off == -SumAligned(all[..np + j]) && loff == base + FrameMap(all[..np + j])
      {
        assert all[np + j] == locals[j];
        off := NextSlot(locals[j], off, all, np + j, base);
      }
      assert all[..np + |locals|] == all;
    }

    /**
     * One parameter of the prologue's first loop: a floating one is narrowed in place and
     * pushed from its %xmm register, an integer one is pushed from the next of REGS, and
     * there is no seventh.  The source's separate branch for doubles is unreachable.
     */
    method SpillParam(v: Ast, ireg0: nat, xreg0: nat, ghost fl: seq<bool>, ghost j: nat, ghost o: seq<Instr>)
      returns (ok: bool, ireg: nat, xreg: nat)
      requires Valid() && depth == stackpos + 8
      requires j < |fl| && fl[j] == IsFloType(v.ctype)
      requires Fits(fl[..j]) && ireg0 == CountInt(fl[..j]) && xreg0 == CountFlo(fl[..j])
      requires out == o + ParamSpill(fl[..j])
      modifies this`out, this`depth, this`stackpos
      ensures Valid() && depth == stackpos + 8
      ensures ok <==> Fits(fl[..j + 1])
      ensures ok ==> out == o + ParamSpill(fl[..j + 1]) && stackpos == old(stackpos) + 8
      ensures ok ==> ireg == CountInt(fl[..j + 1]) && xreg == CountFlo(fl[..j + 1])
    {
      ireg, xreg := ireg0, xreg0;
      CountStep(fl, j);
      ghost var f := fl[..j + 1];
      assert f[..j] == fl[..j];
      if IsFloType(v.ctype) {
        assert Fits(f);
        Emit(Op2(Cvtpd2ps, X(xreg), X(xreg)));
        Cat(o, ParamSpill(fl[..j]), [Op2(Cvtpd2ps, X(xreg), X(xreg))]);
        PushXmm(xreg);
        Cat(o, ParamSpill(fl[..j]) + [Op2(Cvtpd2ps, X(xreg), X(xreg))], PushLoc(Xmm(xreg)));
        assert ParamSpill(f) == ParamSpill(fl[..j]) + [Op2(Cvtpd2ps, X(xreg), X(xreg))] + PushLoc(Xmm(xreg));
        xreg := xreg + 1;
      } else if v.ctype.kind == Double {
        assert false;
      } else {
        if ireg >= |REGS| {
          return false, ireg, xreg;
        }
        assert Fits(f);
        Push(REGS[ireg]);
        Cat(o, ParamSpill(fl[..j]), PushLoc(Gpr(REGS[ireg])));
        assert ParamSpill(f) == ParamSpill(fl[..j]) + PushLoc(Gpr(REGS[ireg]));
        ireg := ireg + 1;
      }
      ok := true;
    }

    /**
     * The slot assignment of both prologue loops: the offset moves down by the variable's
     * size rounded up to 8, and a local variable records the new offset as its own.
     */
    method NextSlot(v: Ast, off0: int, ghost vs: seq<Ast>, ghost j: nat, ghost base: map<nat, int>) returns (off: int)
      requires j < |vs| && vs[j] == v
      requires off0 == -SumAligned(vs[..j]) && loff == base + FrameMap(vs[..j])
      modifies this`loff
      ensures off == -SumAligned(vs[..j + 1]) && loff == base + FrameMap(vs[..j + 1])
    {
      FrameStep(vs, j);
      off := off0 - Align(v.ctype.size, 8);
      if v.LVar? {
        MergeUpdate(base, FrameMap(vs[..j]), v.id, off);
        loff := loff[v.id := off];
      }
    }

    /** emit_func_epilogue: restore the caller's frame and return. */
    method EmitFuncEpilogue()
      requires Valid()
      modifies this`out, this`depth
      ensures Valid() && depth == old(depth)
      ensures out == old(out) + [Leave, Ret]
    {
      Emit(Leave);
      Emit(Ret);
    }

    /**
     * emit_toplevel: the cursor is reset; a function is emitted as prologue, body and
     * epilogue, a declaration as a global variable, and anything else is an error.  A
     * function's code, `code`, starts at the stack depth of a call's target and makes
     * every call of its own with the stack pointer 16-byte aligned.
     */
    method EmitToplevel(v: Ast) returns (ok: bool, ghost code: seq<Instr>, ghost body: seq<Instr>)
      requires Valid()
      requires v.Func? ==> SizesNonNegative(v.params + v.localvars)
      modifies this`out, this`depth, this`stackpos, this`nextLabel, this`loff, this`fstart
      ensures Valid() && old(nextLabel) <= nextLabel
      ensures ok ==> out == old(out) + code
      ensures v.Func? ==> (ok <==> Fits(Flags(v.params)) && Emittable(v.body))
      ensures v.Func? && ok ==> (Fits(Flags(v.params)) && CallsAligned(code) &&
        code == PrologueCode(v) + body + [Leave, Ret] &&
        loff == old(loff) + FrameMap(v.params + v.localvars))
      ensures v.Decl? ==> (ok <==> GlobalVarCode(v).Some?) && (ok ==> code == GlobalVarCode(v).value)
      ensures !v.Func? && !v.Decl? ==> !ok && out == old(out)
    {
      stackpos := 0;
      code, body := [], [];
      if v.Func? {
        fstart := |out|;
        depth := 8;
        ok, code, body := EmitFunction(v);
      } else if v.Decl? {
        ok := EmitGlobalVar(v);
        if ok {
          code := GlobalVarCode(v).value;
        }
      } else {
        ok := false;
      }
    }

    /** The function case of emit_toplevel, on a fresh function record. */
    method EmitFunction(fn: Ast) returns (ok: bool, ghost code: seq<Instr>, ghost body: seq<Instr>)
      requires Valid() && fn.Func? && SizesNonNegative(fn.params + fn.localvars)
      requires stackpos == 0 && depth == 8 && fstart == |out|
      modifies this`out, this`depth, this`stackpos, this`nextLabel, this`loff
      ensures Valid() && old(nextLabel) <= nextLabel
      ensures ok ==> out == old(out) + code
      ensures ok <==> Fits(Flags(fn.params)) && Emittable(fn.body)
      ensures ok ==> (Fits(Flags(fn.params)) && CallsAligned(code) &&
        code == PrologueCode(fn) + body + [Leave, Ret] &&
        loff == old(loff) + FrameMap(fn.params + fn.localvars))
    {
      code, body := [], [];
      ok := EmitFuncPrologue(fn);
      if !ok {
        return;
      }
      ghost var pc := PrologueCode(fn);
      ok, body := EmitExpr(fn.body);
      if !ok {
        return;
      }
      EmitFuncEpilogue();
      Cat(old(out), pc, body);
      Cat(old(out), pc + body, [Leave, Ret]);
      code := pc + body + [Leave, Ret];
      TracedCallsAligned(old(out), code, depth);
    }
  }
}

=== FILE: data.dfy ===
/**
 * What is emitted for global variables and for the data section: the directives of an
 * initialised global, the reserved space of an uninitialised one, string literals, and
 * the float constants with the labels they are given.
 */
module Data {
  import opened Syntax
  import opened Asm

  /** The width in bytes of a data directive (.byte, .long, .quad); 0 for anything else. */
  function DataWidth(i: Instr): int {
    match i
    case ByteData(_) => 1
    case LongData(_) => 4
    case QuadData(_) => 8
    case _ => 0
  }

  /** The value a data directive writes; 0 for anything else. */
  function DataValue(i: Instr): int {
    match i
    case ByteData(v) => v
    case LongData(v) => v
    case QuadData(v) => v
    case _ => 0
  }

  /**
   * emit_data_int: one directive of the initialiser's own width carrying its integer
   * value; an array-typed initialiser or any other size stops with an error.
   */
  function DataInt(e: Ast): (d: Option<Instr>)
    ensures d.Some? <==> e.ctype.kind != Array && (e.ctype.size == 1 || e.ctype.size == 4 || e.ctype.size == 8)
    ensures d.Some? ==> DataWidth(d.value) == e.ctype.size && DataValue(d.value) == IvalOf(e) && Quiet(d.value)
  {
    if e.ctype.kind == Array then None
    else if e.ctype.size == 1 then Some(ByteData(IvalOf(e)))
    else if e.ctype.size == 4 then Some(LongData(IvalOf(e)))
    else if e.ctype.size == 8 then Some(QuadData(IvalOf(e)))
    else None
  }

  /** The directives of an array initialiser, element by element; an error if any element has none. */
  function DataInts(items: seq<Ast>): (r: Option<seq<Instr>>)
    ensures r.Some? <==> forall k :: 0 <= k < |items| ==> DataInt(items[k]).Some?
    ensures r.Some? ==> |r.value| == |items| && Neutral(r.value)
    ensures r.Some? ==> forall k :: 0 <= k < |items| ==> r.value[k] == DataInt(items[k]).value
  {
    if items == [] then Some([])
    else
      var init := items[..|items| - 1];
      assert forall k :: 0 <= k < |init| ==> init[k] == items[k];
      match DataInts(init)
      case None => None
      case Some(ds) =>
        match DataInt(items[|items| - 1])
        case None => None
        case Some(d) => Some(ds + [d])
  }

  /** The total number of bytes a sequence of data directives occupies. */
  function Bytes(ds: seq<Instr>): int {
    if ds == [] then 0 else Bytes(ds[..|ds| - 1]) + DataWidth(ds[|ds| - 1])
  }

  /** The sum of the sizes of the initialiser's elements. */
  function SumSizes(items: seq<Ast>): int {
    if items == [] then 0 else SumSizes(items[..|items| - 1]) + items[|items| - 1].ctype.size
  }

  /** An initialised array occupies exactly the sum of its elements' sizes. */
  lemma {:induction false} DataIntsBytes(items: seq<Ast>)
    requires DataInts(items).Some?
    ensures Bytes(DataInts(items).value) == SumSizes(items)
  {
    if items != [] {
      var init := items[..|items| - 1];
      assert DataInts(init).Some?;
      DataIntsBytes(init);
      var ds := DataInts(items).value;
      assert ds[..|ds| - 1] == DataInts(init).value;
    }
  }

  /**
   * emit_data: the global's name is made global and defined, then either the directives
   * of an array initialiser, or a single directive for an integer literal initialiser;
   * any other initialiser stops with an error.
   */
  function DataCode(v: Ast): (code: Option<seq<Instr>>)
    requires v.Decl? && v.declinit.Some?
    ensures code.Some? ==> Neutral(code.value) && |code.value| >= 2
    ensures code.Some? ==> code.value[..2] == [Global(VarnameOf(v.declvar)), Def(Named(VarnameOf(v.declvar)))]
    ensures code.Some? && v.declinit.value.ArrayInit? ==>
      DataInts(v.declinit.value.arrayinit).Some? && code.value[2..] == DataInts(v.declinit.value.arrayinit).value
    ensures !v.declinit.value.ArrayInit? ==>
      (code.Some? <==> v.declinit.value.Literal? && IsIntType(v.declinit.value.ctype) && DataInt(v.declinit.value).Some?)
    ensures code.Some? && !v.declinit.value.ArrayInit? ==> code.value[2..] == [DataInt(v.declinit.value).value]
  {
    var name := VarnameOf(v.declvar);
    var head := [Global(name), Def(Named(name))];
    var init := v.declinit.value;
    if init.ArrayInit? then
      match DataInts(init.arrayinit)
      case None => None
      case Some(ds) => Some(head + ds)
    else if !(init.Literal? && IsIntType(init.ctype)) then None
    else
      match DataInt(init)
      case None => None
      case Some(d) => Some(head + [d])
  }

  /**
   * emit_global_var: an initialised global gets its data; an uninitialised one reserves
   * its type's size with .lcomm.
   */
  function GlobalVarCode(v: Ast): (code: Option<seq<Instr>>)
    requires v.Decl?
    ensures v.declinit.None? ==> code == Some([Lcomm(VarnameOf(v.declvar), v.declvar.ctype.size)])
    ensures v.declinit.Some? ==> code == DataCode(v)
    ensures code.Some? ==> Neutral(code.value)
  {
    if v.declinit.Some? then DataCode(v)
    else Some([Lcomm(VarnameOf(v.declvar), v.declvar.ctype.size)])
  }

  /** The first loop of emit_data_section: each string literal's label and bytes; globals are skipped; anything else is an error. */
  function StringsCode(globals: seq<Ast>): (code: Option<seq<Instr>>)
    ensures code.Some? <==> forall k :: 0 <= k < |globals| ==> globals[k].Str? || globals[k].GVar?
    ensures code.Some? ==> Neutral(code.value)
  {
    if globals == [] then Some([])
    else
      var init := globals[..|globals| - 1];
      var v := globals[|globals| - 1];
      assert forall k :: 0 <= k < |init| ==> init[k] == globals[k];
      match StringsCode(init)
      case None => None
      case Some(c) =>
        if v.Str? then Some(c + [Def(Named(v.slabel)), StringData(v.val)])
        else if v.GVar? then Some(c)
        else None
  }

  /** How many of `globals` are string literals. */
  function StrCount(globals: seq<Ast>): nat {
    if globals == [] then 0
    else StrCount(globals[..|globals| - 1]) + (if globals[|globals| - 1].Str? then 1 else 0)
  }

  /** Each string literal contributes two entries, a global nothing. */
  lemma {:induction false} StringsCodeLength(globals: seq<Ast>)
    requires StringsCode(globals).Some?
    ensures |StringsCode(globals).value| == 2 * StrCount(globals)
  {
    if globals != [] {
      var init := globals[..|globals| - 1];
      assert forall k :: 0 <= k < |init| ==> init[k] == globals[k];
      StringsCodeLength(init);
    }
  }

  /**
   * The k-th global, when a string literal, is defined in order: its label, then its
   * bytes, right after the entries of the string literals before it.
   */
  lemma {:induction false} StringsCodeDefines(globals: seq<Ast>, k: nat)
    requires StringsCode(globals).Some? && k < |globals| && globals[k].Str?
    ensures 2 * StrCount(globals[..k]) + 1 < |StringsCode(globals).value|
    ensures StringsCode(globals).value[2 * StrCount(globals[..k])] == Def(Named(globals[k].slabel))
    ensures StringsCode(globals).value[2 * StrCount(globals[..k]) + 1] == StringData(globals[k].val)
  {
    var n := |globals| - 1;
    var init, v := globals[..n], globals[n];
    assert StringsCode(init).Some?;
    var c := StringsCode(init).value;
    assert StringsCode(globals).value == c + (if v.Str? then [Def(Named(v.slabel)), StringData(v.val)] else []);
    StringsCodeLength(init);
    if k < n {
      assert init[k] == globals[k];
      StringsCodeDefines(init, k);
      assert init[..k] == globals[..k];
    } else {
      assert globals[..k] == init;
    }
  }

  /** Float constants are literals. */
  predicate AllLiterals(fs: seq<Ast>) {
    forall k :: 0 <= k < |fs| ==> fs[k].Literal?
  }

  /**
   * The second loop of emit_data_section: the k-th float constant gets the label
   * `base + k` from the label counter, defined just before its two 32-bit words.
   */
  function FloCode(fs: seq<Ast>, base: nat): (code: seq<Instr>)
    ensures |code| == 3 * |fs|
  {
    if fs == [] then [] else FloCode(fs[..|fs| - 1], base) + FloEntry(fs[|fs| - 1], base + |fs| - 1)
  }

  /** One float constant in the data: its label, then the low and the high 32-bit word of its value. */
  function FloEntry(v: Ast, l: nat): (code: seq<Instr>)
    ensures |code| == 3 && Neutral(code)
    ensures code[0] == Def(Local(l))
    ensures code[1] == FloatWord(FvalOf(v), false) && code[2] == FloatWord(FvalOf(v), true)
  {
    [Def(Local(l)), FloatWord(FvalOf(v), false), FloatWord(FvalOf(v), true)]
  }

  /**
   * The labels the second loop records, by literal identity: the k-th constant maps to
   * label `base + k`, and a later duplicate wins.
   */
  function FloLabels(fs: seq<Ast>, base: nat): map<nat, Sym> {
    if fs == [] then map[]
    else
      var v := fs[|fs| - 1];
      if v.Literal? then FloLabels(fs[..|fs| - 1], base)[v.id := Local(base + |fs| - 1)]
      else FloLabels(fs[..|fs| - 1], base)
  }

  /** One more constant: its entry follows the earlier ones' and its label is recorded over theirs. */
  lemma FloStep(fs: seq<Ast>, base: nat, k: nat)
    requires k < |fs|
    ensures FloCode(fs[..k + 1], base) == FloCode(fs[..k], base) + FloEntry(fs[k], base + k)
    ensures FloLabels(fs[..k + 1], base) ==
      if fs[k].Literal? then FloLabels(fs[..k], base)[fs[k].id := Local(base + k)] else FloLabels(fs[..k], base)
  {
    assert fs[..k + 1][..k] == fs[..k];
  }

  /** Each constant's label is defined in the data right before that constant's two words. */
  lemma {:induction false} FloCodeDefines(fs: seq<Ast>, base: nat, k: nat)
    requires k < |fs|
    ensures FloCode(fs, base)[3 * k] == Def(Local(base + k))
    ensures FloCode(fs, base)[3 * k + 1] == FloatWord(FvalOf(fs[k]), false)
    ensures FloCode(fs, base)[3 * k + 2] == FloatWord(FvalOf(fs[k]), true)
  {
    var n := |fs|;
    var init := fs[..n - 1];
    if k < n - 1 {
      FloCodeDefines(init, base, k);
      assert init[k] == fs[k];
    }
  }

  /**
   * With distinct constants, every constant's identity is mapped to the label defined for
   * it, and the labels recorded are new ones, `base` onward, no two alike.
   */
  lemma {:induction false} FloLabelsOwn(fs: seq<Ast>, base: nat, k: nat)
    requires AllLiterals(fs) && k < |fs|
    requires forall i, j :: 0 <= i < j < |fs| ==> fs[i].id != fs[j].id
    ensures fs[k].id in FloLabels(fs, base) && FloLabels(fs, base)[fs[k].id] == Local(base + k)
  {
    var n := |fs|;
    var init := fs[..n - 1];
    if k < n - 1 {
      assert AllLiterals(init) by {
        forall i | 0 <= i < |init| ensures init[i].Literal? { assert init[i] == fs[i]; }
      }
      FloLabelsOwn(init, base, k);
      assert init[k] == fs[k];
      assert fs[n - 1].id != fs[k].id;
    }
  }

  /** Every label recorded for a float constant is one of the new labels `base .. base + |fs| - 1`. */
  lemma {:induction false} FloLabelsFresh(fs: seq<Ast>, base: nat)
    ensures forall id :: id in FloLabels(fs, base) ==>
      FloLabels(fs, base)[id].Local? && base <= FloLabels(fs, base)[id].n < base + |fs|
  {
    if fs != [] {
      FloLabelsFresh(fs[..|fs| - 1], base);
    }
  }
}

=== FILE: layout.dfy ===
/**
 * Frame layout: `align` and the offsets the prologue gives to parameters and locals,
 * and the padding decision made before a call.
 */
module Layout {
  import opened Syntax

  function Abs(m: int): int {
    if m < 0 then -m else m
  }

  /** Go's `%`: truncating remainder, whose sign is the dividend's. */
  function GoRem(n: int, m: int): (r: int)
    requires m != 0
    ensures -Abs(m) < r < Abs(m)
    ensures n >= 0 ==> r == n % Abs(m)
  {
    if n >= 0 then n % Abs(m) else -((-n) % Abs(m))
  }

  /**
   * align: `n` rounded up to a multiple of `m` (for `n >= 0` and `m > 0`).
   * `m == 0` is a division by zero in the source; the generator only passes 8.
   */
  function Align(n: int, m: int): int
    requires m != 0
  {
    var rem := GoRem(n, m);
    if rem == 0 then n else n - rem + m
  }

  /** For `n >= 0` and `m > 0`, align(n, m) is the least multiple of `m` that is at least `n`. */
  lemma AlignProperties(n: int, m: int)
    requires n >= 0 && m > 0
    ensures Align(n, m) % m == 0 && n <= Align(n, m) < n + m
    ensures Align(n, m) == n <==> n % m == 0
  {
    var q, rem := n / m, n % m;
    assert n == m * q + rem;
    if rem != 0 {
      assert Align(n, m) == m * (q + 1) + 0;
      ModUnique(Align(n, m), m, q + 1, 0);
    }
  }

  /** align(n, m) is a multiple of `m` for a negative `n` too, which is all the frame layout needs of it. */
  lemma AlignMultiple(n: int, m: int)
    requires m > 0
    ensures Align(n, m) % m == 0
  {
    if n >= 0 {
      AlignProperties(n, m);
    } else {
      var a := -n;
      var q, r := a / m, a % m;
      assert a == m * q + r;
      if r == 0 {
        assert n == m * (-q) + 0;
        ModUnique(n, m, -q, 0);
      } else {
        assert Align(n, m) == m * (1 - q) + 0;
        ModUnique(Align(n, m), m, 1 - q, 0);
      }
    }
  }

  lemma {:induction false} MulAtLeast(m: int, d: int)
    requires m > 0 && d >= 1
    ensures m * d >= m
  {
    if d > 1 {
      MulAtLeast(m, d - 1);
      assert m * d == m * (d - 1) + m;
    }
  }

  /** Euclidean division has one quotient and one remainder. */
  lemma ModUnique(a: int, m: int, q: int, r: int)
    requires m > 0 && 0 <= r < m && a == m * q + r
    ensures a % m == r
  {
    var q', r' := a / m, a % m;
    assert a == m * q' + r';
    if q' < q {
      assert m * (q - q') == r' - r;
      MulAtLeast(m, q - q');
    } else if q' > q {
      assert m * (q' - q) == r - r';
      MulAtLeast(m, q' - q);
    }
  }

  /** Sum of `align(size, 8)` over the variables, in declaration order. */
  function SumAligned(vs: seq<Ast>): int {
    if vs == [] then 0 else SumAligned(vs[..|vs| - 1]) + Align(vs[|vs| - 1].ctype.size, 8)
  }

  /** The frame offset the prologue gives to the k-th of the variables laid out in order `vs`. */
  function FrameOffset(vs: seq<Ast>, k: nat): int
    requires k < |vs|
  {
    -SumAligned(vs[..k + 1])
  }

  predicate SizesNonNegative(vs: seq<Ast>) {
    forall k :: 0 <= k < |vs| ==> vs[k].ctype.size >= 0
  }

  /**
   * The offsets written by a layout of `vs`, keyed by variable identity.  A variable that
   * occurs twice keeps the offset written last, as repeated writes to `v.loff` would.
   */
  function FrameMap(vs: seq<Ast>): map<nat, int> {
    if vs == [] then map[]
    else
      var last := vs[|vs| - 1];
      if last.LVar? then FrameMap(vs[..|vs| - 1])[last.id := -SumAligned(vs)]
      else FrameMap(vs[..|vs| - 1])
  }

  /** Laying out one more variable: its slot is the next one down, and it is recorded if it is a local variable. */
  lemma FrameStep(vs: seq<Ast>, j: nat)
    requires j < |vs|
    ensures SumAligned(vs[..j + 1]) == SumAligned(vs[..j]) + Align(vs[j].ctype.size, 8)
    ensures FrameMap(vs[..j + 1]) ==
      if vs[j].LVar? then FrameMap(vs[..j])[vs[j].id := -SumAligned(vs[..j + 1])] else FrameMap(vs[..j])
  {
    assert vs[..j + 1][..j] == vs[..j];
  }

  /** A sum of 8-aligned non-negative sizes is a non-negative multiple of 8. */
  lemma {:induction false} SumAlignedShape(vs: seq<Ast>)
    requires SizesNonNegative(vs)
    ensures SumAligned(vs) >= 0 && SumAligned(vs) % 8 == 0
  {
    if vs != [] {
      var init := vs[..|vs| - 1];
      assert SizesNonNegative(init) by {
        forall k | 0 <= k < |init| ensures init[k].ctype.size >= 0 {
          assert init[k] == vs[k];
        }
      }
      SumAlignedShape(init);
      AlignProperties(vs[|vs| - 1].ctype.size, 8);
    }
  }

  /** Whatever the sizes, the running sum is a multiple of 8, so the frame keeps the cursor 8-aligned. */
  lemma {:induction false} SumAlignedMultiple(vs: seq<Ast>)
    ensures SumAligned(vs) % 8 == 0
  {
    if vs != [] {
      SumAlignedMultiple(vs[..|vs| - 1]);
      AlignMultiple(vs[|vs| - 1].ctype.size, 8);
    }
  }

  /**
   * The frame offsets of a layout: each is at most 0 and a multiple of 8, and each next
   * variable sits exactly `align(size, 8)` below the previous one.
   */
  lemma FrameOffsetShape(vs: seq<Ast>, k: nat)
    requires SizesNonNegative(vs) && k < |vs|
    ensures FrameOffset(vs, k) <= 0 && FrameOffset(vs, k) % 8 == 0
    ensures k == 0 ==> FrameOffset(vs, 0) == -Align(vs[0].ctype.size, 8)
    ensures k > 0 ==> FrameOffset(vs, k) == FrameOffset(vs, k - 1) - Align(vs[k].ctype.size, 8)
    ensures k > 0 ==> FrameOffset(vs, k) <= FrameOffset(vs, k - 1)
  {
    var p := vs[..k + 1];
    assert SizesNonNegative(p) by {
      forall j | 0 <= j < |p| ensures p[j].ctype.size >= 0 {
        assert p[j] == vs[j];
      }
    }
    SumAlignedShape(p);
    assert p[..k] == vs[..k];
    assert p[k] == vs[k];
    if k > 0 {
      assert vs[..k] == vs[..k - 1 + 1];
    } else {
      assert p[..0] == [];
    }
  }

  /** Offsets are non-increasing over the whole declaration order, not only between neighbours. */
  lemma {:induction false} FrameOffsetMonotone(vs: seq<Ast>, i: nat, j: nat)
    requires SizesNonNegative(vs) && i <= j < |vs|
    ensures FrameOffset(vs, j) <= FrameOffset(vs, i)
    decreases j - i
  {
    if i < j {
      FrameOffsetMonotone(vs, i, j - 1);
      FrameOffsetShape(vs, j);
    }
  }

  /** No two entries of `vs` are the same local variable. */
  predicate DistinctLocals(vs: seq<Ast>) {
    (forall k :: 0 <= k < |vs| ==> vs[k].LVar?) &&
    (forall i, j :: 0 <= i < j < |vs| ==> vs[i].id != vs[j].id)
  }

  /** With distinct local variables, the map records for each one the offset of its own position. */
  lemma {:induction false} FrameMapLookup(vs: seq<Ast>, k: nat)
    requires DistinctLocals(vs) && k < |vs|
    ensures vs[k].id in FrameMap(vs) && FrameMap(vs)[vs[k].id] == FrameOffset(vs, k)
  {
    var n := |vs|;
    var init := vs[..n - 1];
    if k == n - 1 {
      assert vs[..k + 1] == vs;
    } else {
      assert DistinctLocals(init) by {
        forall i | 0 <= i < |init| ensures init[i].LVar? { assert init[i] == vs[i]; }
        forall i, j | 0 <= i < j < |init| ensures init[i].id != init[j].id {
          assert init[i] == vs[i] && init[j] == vs[j];
        }
      }
      FrameMapLookup(init, k);
      assert init[k] == vs[k];
      assert init[..k + 1] == vs[..k + 1];
      assert vs[n - 1].id != vs[k].id;
    }
  }

  /** The keys of the map are exactly the identities of the local variables laid out. */
  lemma {:induction false} FrameMapKeys(vs: seq<Ast>, id: nat)
    ensures id in FrameMap(vs) <==> exists k :: 0 <= k < |vs| && vs[k].LVar? && vs[k].id == id
  {
    if vs != [] {
      var n := |vs|;
      var init := vs[..n - 1];
      FrameMapKeys(init, id);
      if id in FrameMap(init) {
        var k :| 0 <= k < |init| && init[k].LVar? && init[k].id == id;
        assert vs[k] == init[k];
      }
      if exists k :: 0 <= k < n && vs[k].LVar? && vs[k].id == id {
        var k :| 0 <= k < n && vs[k].LVar? && vs[k].id == id;
        if k < n - 1 {
          assert init[k] == vs[k];
        }
      }
    }
  }

  /**
   * When every parameter is at most 8 bytes (and not empty), the k-th parameter's offset
   * is -8(k+1): exactly the slot that the prologue's k-th push below the saved frame base wrote.
   */
  lemma {:induction false} ParamSlotsMatchPushes(params: seq<Ast>, locals: seq<Ast>, k: nat)
    requires forall j :: 0 <= j < |params| ==> 1 <= params[j].ctype.size <= 8
    requires k < |params|
    ensures FrameOffset(params + locals, k) == -8 * (k + 1)
  {
    var all := params + locals;
    assert all[..k + 1] == params[..k + 1];
    SumAlignedSmall(params[..k + 1]);
  }

  lemma {:induction false} SumAlignedSmall(ps: seq<Ast>)
    requires forall j :: 0 <= j < |ps| ==> 1 <= ps[j].ctype.size <= 8
    ensures SumAligned(ps) == 8 * |ps|
  {
    if ps != [] {
      var init := ps[..|ps| - 1];
      assert forall j :: 0 <= j < |init| ==> init[j] == ps[j];
      SumAlignedSmall(init);
      AlignProperties(ps[|ps| - 1].ctype.size, 8);
    }
  }

  /** The 8 bytes of padding inserted before a call when the cursor is not a multiple of 16. */
  function CallPad(stackpos: int): (pad: int)
    ensures pad == 0 || pad == 8
    ensures stackpos % 8 == 0 ==> (stackpos + pad) % 16 == 0
  {
    if stackpos % 16 != 0 then 8 else 0
  }
}

=== FILE: marshal.dfy ===
/**
 * Argument marshalling for a call: which register each argument travels in, the code
 * that saves those registers, pops the evaluated arguments into them and restores them,
 * and a small stack-machine reading of that push/pop code that shows where the values go.
 *
 * An argument list is described by its register classes: `fl[j]` holds when the j-th
 * argument has a floating type (is_flotype) and so travels in an %xmm register.
 */
module Marshal {
  import opened Syntax
  import opened Asm
  import opened Layout

  /** A register an argument can travel in: an integer register, or %xmm`k`. */
  datatype Loc = Gpr(reg: Reg) | Xmm(k: int)

  /** The register classes of an argument list. */
  function Flags(args: seq<Ast>): (fl: seq<bool>)
    ensures |fl| == |args| && forall k :: 0 <= k < |args| ==> fl[k] == IsFloType(args[k].ctype)
  {
    if args == [] then [] else Flags(args[..|args| - 1]) + [IsFloType(args[|args| - 1].ctype)]
  }

  /** The number of integer-class arguments. */
  function CountInt(fl: seq<bool>): nat {
    if fl == [] then 0 else CountInt(fl[..|fl| - 1]) + (if fl[|fl| - 1] then 0 else 1)
  }

  /** The number of floating-class arguments. */
  function CountFlo(fl: seq<bool>): nat {
    if fl == [] then 0 else CountFlo(fl[..|fl| - 1]) + (if fl[|fl| - 1] then 1 else 0)
  }

  /** Every argument is counted in exactly one class. */
  lemma {:induction false} CountSplit(fl: seq<bool>)
    ensures CountInt(fl) + CountFlo(fl) == |fl|
  {
    if fl != [] {
      CountSplit(fl[..|fl| - 1]);
    }
  }

  /** Extending a prefix by one argument adds it to its own class. */
  lemma CountStep(fl: seq<bool>, j: nat)
    requires j < |fl|
    ensures CountInt(fl[..j + 1]) == CountInt(fl[..j]) + (if fl[j] then 0 else 1)
    ensures CountFlo(fl[..j + 1]) == CountFlo(fl[..j]) + (if fl[j] then 1 else 0)
  {
    assert fl[..j + 1][..j] == fl[..j];
  }

  /** Counts over a prefix never exceed counts over a longer prefix. */
  lemma {:induction false} CountMono(fl: seq<bool>, i: nat, j: nat)
    requires i <= j <= |fl|
    ensures CountInt(fl[..i]) <= CountInt(fl[..j]) && CountFlo(fl[..i]) <= CountFlo(fl[..j])
    decreases j - i
  {
    if i < j {
      CountMono(fl, i, j - 1);
      CountStep(fl, j - 1);
    }
  }

  /** No more integer arguments than integer argument registers. */
  predicate Fits(fl: seq<bool>) {
    CountInt(fl) <= |REGS|
  }

  lemma RoomFor(fl: seq<bool>, j: nat)
    requires Fits(fl) && j < |fl| && !fl[j]
    ensures CountInt(fl[..j]) < |REGS|
  {
    CountStep(fl, j);
    CountMono(fl, j + 1, |fl|);
    assert fl[..|fl|] == fl;
  }

  /**
   * The register of the j-th argument: the k-th integer argument (counting from 0, left to
   * right) travels in REGS[k], the k-th floating argument in %xmm`k`.
   */
  function ArgDest(fl: seq<bool>, j: nat): Loc
    requires Fits(fl) && j < |fl|
  {
    if fl[j] then Xmm(CountFlo(fl[..j]))
    else
      RoomFor(fl, j);
      Gpr(REGS[CountInt(fl[..j])])
  }

  lemma RegsDistinct(a: nat, b: nat)
    requires a < b < |REGS|
    ensures REGS[a] != REGS[b]
  {
    if a == 0 {
      assert REGS[0] == RDI;
    }
  }

  /** Different arguments travel in different registers. */
  lemma ArgDestDistinct(fl: seq<bool>, i: nat, j: nat)
    requires Fits(fl) && i < j < |fl|
    ensures ArgDest(fl, i) != ArgDest(fl, j)
  {
    CountStep(fl, i);
    CountMono(fl, i + 1, j);
    if !fl[i] && !fl[j] {
      RoomFor(fl, j);
      RegsDistinct(CountInt(fl[..i]), CountInt(fl[..j]));
    }
  }

  /** The integer registers used are exactly REGS[0], ..., REGS[CountInt - 1]; nothing past the last used one. */
  lemma {:induction false} IntDestsArePrefix(fl: seq<bool>, k: nat)
    requires Fits(fl) && k < CountInt(fl)
    ensures exists j :: 0 <= j < |fl| && !fl[j] && ArgDest(fl, j) == Gpr(REGS[k])
  {
    var n := |fl|;
    var init := fl[..n - 1];
    CountMono(fl, n - 1, n);
    assert fl[..n] == fl;
    if k < CountInt(init) {
      assert Fits(init);
      IntDestsArePrefix(init, k);
      var j :| 0 <= j < |init| && !init[j] && ArgDest(init, j) == Gpr(REGS[k]);
      assert init[..j] == fl[..j];
    } else {
      assert !fl[n - 1] && CountInt(init) == k;
      assert ArgDest(fl, n - 1) == Gpr(REGS[k]);
    }
  }

  /** Likewise the %xmm registers used are %xmm0, ..., %xmm(CountFlo - 1). */
  lemma {:induction false} FloDestsArePrefix(fl: seq<bool>, k: nat)
    requires Fits(fl) && k < CountFlo(fl)
    ensures exists j :: 0 <= j < |fl| && fl[j] && ArgDest(fl, j) == Xmm(k)
  {
    var n := |fl|;
    var init := fl[..n - 1];
    CountMono(fl, n - 1, n);
    assert fl[..n] == fl;
    if k < CountFlo(init) {
      assert Fits(init);
      FloDestsArePrefix(init, k);
      var j :| 0 <= j < |init| && init[j] && ArgDest(init, j) == Xmm(k);
      assert init[..j] == fl[..j];
    } else {
      assert ArgDest(fl, n - 1) == Xmm(k);
    }
  }

  /** Conversely, an integer argument's register is REGS[k] for some k below the number of integer arguments. */
  lemma IntDestsInRange(fl: seq<bool>, j: nat)
    requires Fits(fl) && j < |fl| && !fl[j]
    ensures exists k :: 0 <= k < CountInt(fl) && ArgDest(fl, j) == Gpr(REGS[k])
  {
    CountStep(fl, j);
    CountMono(fl, j + 1, |fl|);
    assert fl[..|fl|] == fl;
    var k := CountInt(fl[..j]);
    assert ArgDest(fl, j) == Gpr(REGS[k]);
  }

  /** Likewise a floating argument's register is %xmm`k` for some k below the number of floating arguments. */
  lemma FloDestsInRange(fl: seq<bool>, j: nat)
    requires Fits(fl) && j < |fl| && fl[j]
    ensures exists k :: 0 <= k < CountFlo(fl) && ArgDest(fl, j) == Xmm(k)
  {
    CountStep(fl, j);
    CountMono(fl, j + 1, |fl|);
    assert fl[..|fl|] == fl;
    assert ArgDest(fl, j) == Xmm(CountFlo(fl[..j]));
  }

  /** push / push_xmm of an argument register. */
  function PushLoc(l: Loc): seq<Instr> {
    match l
    case Gpr(r) => [PushReg(r)]
    case Xmm(k) => [Op2(Sub, Imm(8), R(RSP)), Op2(Movsd, X(k), Mem(RSP, 0))]
  }

  /** pop / pop_xmm into an argument register. */
  function PopLoc(l: Loc): seq<Instr> {
    match l
    case Gpr(r) => [PopReg(r)]
    case Xmm(k) => [Op2(Movsd, Mem(RSP, 0), X(k)), Op2(Add, Imm(8), R(RSP))]
  }

  /** The register of the value just computed, by its class: %rax or %xmm0. */
  function Primary(flo: bool): Loc {
    if flo then Xmm(0) else Gpr(RAX)
  }

  lemma FitsPrefix(fl: seq<bool>, m: nat)
    requires Fits(fl) && m <= |fl|
    ensures Fits(fl[..m])
  {
    CountMono(fl, m, |fl|);
    assert fl[..|fl|] == fl;
  }

  /** An argument's register depends only on the arguments up to it. */
  lemma ArgDestPrefix(fl: seq<bool>, m: nat, j: nat)
    requires Fits(fl) && j < m <= |fl|
    ensures Fits(fl[..m]) && ArgDest(fl[..m], j) == ArgDest(fl, j)
  {
    FitsPrefix(fl, m);
    assert fl[..m][..j] == fl[..j];
  }

  /**
   * The evaluation of the arguments, in order: each argument's own code (`parts[j]`)
   * followed by a push of the register its value is left in.
   */
  function ArgsCode(parts: seq<seq<Instr>>, fl: seq<bool>): seq<Instr>
    requires |parts| == |fl|
  {
    if fl == [] then []
    else ArgsCode(parts[..|parts| - 1], fl[..|fl| - 1]) + parts[|parts| - 1] + PushLoc(Primary(fl[|fl| - 1]))
  }

  /** One more argument: its code and its push come after the earlier arguments'. */
  lemma ArgsStep(parts: seq<seq<Instr>>, fl: seq<bool>, p: seq<Instr>, code: seq<Instr>, c: seq<Instr>)
    requires |parts| < |fl| && code == ArgsCode(parts, fl[..|parts|])
    requires c == p + PushLoc(Primary(fl[|parts|]))
    ensures |parts + [p]| == |fl[..|parts| + 1]|
    ensures ArgsCode(parts + [p], fl[..|parts| + 1]) == code + c
  {
    var j := |parts|;
    var f, q := fl[..j + 1], parts + [p];
    assert f[..j] == fl[..j] && f[j] == fl[j];
    assert q[..j] == parts && q[j] == p;
    assert ArgsCode(q, f) == ArgsCode(q[..j], f[..j]) + q[j] + PushLoc(Primary(f[j]));
  }

  /** The caller's saving pushes of the argument registers, in argument order. */
  function SaveCode(fl: seq<bool>): seq<Instr>
    requires Fits(fl)
  {
    if fl == [] then []
    else
      FitsPrefix(fl, |fl| - 1);
      SaveCode(fl[..|fl| - 1]) + PushLoc(ArgDest(fl, |fl| - 1))
  }

  /**
   * The callee's spill of its incoming parameters, in parameter order: each parameter's
   * register is pushed, a floating one after narrowing it to single precision in place.
   */
  function ParamSpill(fl: seq<bool>): seq<Instr>
    requires Fits(fl)
  {
    if fl == [] then []
    else
      var n := |fl| - 1;
      FitsPrefix(fl, n);
      var k := CountFlo(fl[..n]);
      ParamSpill(fl[..n]) + (if fl[n] then [Op2(Cvtpd2ps, X(k), X(k))] else []) + PushLoc(ArgDest(fl, n))
  }

  /** The pops into the registers of arguments `|fl| - 1` down to `lo`, last argument first. */
  function PopRange(fl: seq<bool>, lo: nat): seq<Instr>
    requires Fits(fl) && lo <= |fl|
    decreases |fl| - lo
  {
    if lo == |fl| then [] else PopRange(fl, lo + 1) + PopLoc(ArgDest(fl, lo))
  }

  /** The push/pop part of the machine: argument registers and the stack, top last. */
  datatype Machine = Machine(regs: map<Loc, int>, stack: seq<int>)

  /** A register never written reads as 0. */
  function Get(regs: map<Loc, int>, l: Loc): int {
    if l in regs then regs[l] else 0
  }

  /** The top of the stack; an empty stack, which the lemmas below never pop, reads as 0. */
  function Top(s: seq<int>): int {
    if s == [] then 0 else s[|s| - 1]
  }

  function Drop(s: seq<int>): seq<int> {
    if s == [] then [] else s[..|s| - 1]
  }

  /** What one instruction of the push/pop code does; every other instruction is left alone. */
  function Step(m: Machine, i: Instr): Machine {
    match i
    case PushReg(r) => Machine(m.regs, m.stack + [Get(m.regs, Gpr(r))])
    case PopReg(r) => Machine(m.regs[Gpr(r) := Top(m.stack)], Drop(m.stack))
    case Op2(Sub, Imm(8), R(RSP)) => Machine(m.regs, m.stack + [0])
    case Op2(Add, Imm(8), R(RSP)) => Machine(m.regs, Drop(m.stack))
    case Op2(Movsd, X(k), Mem(RSP, 0)) => Machine(m.regs, Drop(m.stack) + [Get(m.regs, Xmm(k))])
    case Op2(Movsd, Mem(RSP, 0), X(k)) => Machine(m.regs[Xmm(k) := Top(m.stack)], m.stack)
    case _ => m
  }

  function Exec(m: Machine, code: seq<Instr>): Machine {
    if code == [] then m else Step(Exec(m, code[..|code| - 1]), code[|code| - 1])
  }

  lemma {:induction false} ExecAppend(m: Machine, a: seq<Instr>, b: seq<Instr>)
    ensures Exec(m, a + b) == Exec(Exec(m, a), b)
    decreases |b|
  {
    if b == [] {
      assert a + b == a;
    } else {
      assert (a + b)[..|a + b| - 1] == a + b[..|b| - 1];
      ExecAppend(m, a, b[..|b| - 1]);
    }
  }

  /** A push puts the register's value on top of the stack and changes no register. */
  lemma PushLocExec(m: Machine, l: Loc)
    ensures Exec(m, PushLoc(l)) == Machine(m.regs, m.stack + [Get(m.regs, l)])
  {
    match l
    case Gpr(r) =>
    case Xmm(k) =>
      var code := PushLoc(l);
      assert code[..1] == [code[0]];
      assert Exec(m, code[..1]) == Machine(m.regs, m.stack + [0]);
      assert Drop(m.stack + [0]) == m.stack;
  }

  /** A pop moves the top of the stack into the register and removes it. */
  lemma PopLocExec(m: Machine, l: Loc)
    requires |m.stack| > 0
    ensures Exec(m, PopLoc(l)) == Machine(m.regs[l := Top(m.stack)], Drop(m.stack))
  {
    match l
    case Gpr(r) =>
    case Xmm(k) =>
      var code := PopLoc(l);
      var m1 := Machine(m.regs[l := Top(m.stack)], m.stack);
      assert Step(m, code[0]) == m1;
      assert code[..1] == [code[0]];
      assert Exec(m, code[..1]) == m1 by {
        assert code[..1][..0] == [];
      }
      assert Step(m1, code[1]) == Machine(m1.regs, Drop(m.stack));
  }

  /**
   * The saving pushes leave every register as it was and push the argument registers'
   * values, in argument order.
   */
  lemma {:induction false} SaveExec(fl: seq<bool>, m: Machine)
    requires Fits(fl)
    ensures Exec(m, SaveCode(fl)).regs == m.regs
    ensures |Exec(m, SaveCode(fl)).stack| == |m.stack| + |fl|
    ensures Exec(m, SaveCode(fl)).stack[..|m.stack|] == m.stack
    ensures forall j :: 0 <= j < |fl| ==> Exec(m, SaveCode(fl)).stack[|m.stack| + j] == Get(m.regs, ArgDest(fl, j))
  {
    if fl != [] {
      var n := |fl| - 1;
      var init := fl[..n];
      FitsPrefix(fl, n);
      SaveExec(init, m);
      var m1 := Exec(m, SaveCode(init));
      ExecAppend(m, SaveCode(init), PushLoc(ArgDest(fl, n)));
      PushLocExec(m1, ArgDest(fl, n));
      var s := Exec(m, SaveCode(fl)).stack;
      assert s == m1.stack + [Get(m.regs, ArgDest(fl, n))];
      forall j | 0 <= j < |fl|
        ensures s[|m.stack| + j] == Get(m.regs, ArgDest(fl, j))
      {
        if j < n {
          ArgDestPrefix(fl, n, j);
          assert s[|m.stack| + j] == m1.stack[|m.stack| + j];
        }
      }
      assert s[..|m.stack|] == m1.stack[..|m.stack|];
    }
  }

  /** The narrowing instruction leaves the push/pop machine alone. */
  lemma SpillLast(fl: seq<bool>, m: Machine)
    requires Fits(fl) && fl != []
    ensures Fits(fl[..|fl| - 1])
    ensures Exec(m, ParamSpill(fl)) == Exec(Exec(m, ParamSpill(fl[..|fl| - 1])), PushLoc(ArgDest(fl, |fl| - 1)))
  {
    var n := |fl| - 1;
    var init := fl[..n];
    FitsPrefix(fl, n);
    var k := CountFlo(init);
    var cvt := if fl[n] then [Op2(Cvtpd2ps, X(k), X(k))] else [];
    var push := PushLoc(ArgDest(fl, n));
    assert ParamSpill(fl) == ParamSpill(init) + cvt + push;
    ExecAppend(m, ParamSpill(init) + cvt, push);
    ExecAppend(m, ParamSpill(init), cvt);
    var m1 := Exec(m, ParamSpill(init));
    if fl[n] {
      assert cvt[..0] == [];
    }
    assert Exec(m1, cvt) == m1;
  }

  /**
   * The callee's spill leaves the j-th parameter's register value in the j-th slot pushed
   * (the narrowing of a floating value is not part of this machine).
   */
  lemma {:induction false} ParamSpillExec(fl: seq<bool>, m: Machine)
    requires Fits(fl)
    ensures Exec(m, ParamSpill(fl)).regs == m.regs
    ensures |Exec(m, ParamSpill(fl)).stack| == |m.stack| + |fl|
    ensures Exec(m, ParamSpill(fl)).stack[..|m.stack|] == m.stack
    ensures forall j :: 0 <= j < |fl| ==> Exec(m, ParamSpill(fl)).stack[|m.stack| + j] == Get(m.regs, ArgDest(fl, j))
  {
    if fl != [] {
      var n := |fl| - 1;
      var init := fl[..n];
      SpillLast(fl, m);
      ParamSpillExec(init, m);
      var m1 := Exec(m, ParamSpill(init));
      PushLocExec(m1, ArgDest(fl, n));
      var s := Exec(m, ParamSpill(fl)).stack;
      assert s == m1.stack + [Get(m.regs, ArgDest(fl, n))];
      forall j | 0 <= j < |fl|
        ensures s[|m.stack| + j] == Get(m.regs, ArgDest(fl, j))
      {
        if j < n {
          ArgDestPrefix(fl, n, j);
          assert s[|m.stack| + j] == m1.stack[|m.stack| + j];
        }
      }
      assert s[..|m.stack|] == m1.stack[..|m.stack|];
    }
  }

  /** A register that none of the arguments `lo ..` travels in. */
  predicate Untouched(fl: seq<bool>, lo: nat, l: Loc)
    requires Fits(fl) && lo <= |fl|
  {
    forall j :: lo <= j < |fl| ==> ArgDest(fl, j) != l
  }

  /**
   * Popping with the values `vals` of arguments `lo ..` on top of the stack (the last
   * argument's on top) puts each value into its own argument's register, removes exactly
   * those values from the stack, and changes no other register.
   */
  lemma {:induction false} PopRangeExec(fl: seq<bool>, lo: nat, m: Machine, s: seq<int>, vals: seq<int>)
    requires Fits(fl) && lo <= |fl|
    requires |vals| == |fl| - lo && m.stack == s + vals
    ensures Exec(m, PopRange(fl, lo)).stack == s
    ensures forall j :: lo <= j < |fl| ==> Get(Exec(m, PopRange(fl, lo)).regs, ArgDest(fl, j)) == vals[j - lo]
    ensures forall l :: Untouched(fl, lo, l) ==> Get(Exec(m, PopRange(fl, lo)).regs, l) == Get(m.regs, l)
    decreases |fl| - lo
  {
    if lo == |fl| {
      assert s + vals == s;
    } else {
      var s1 := s + [vals[0]];
      assert m.stack == s1 + vals[1..];
      PopRangeExec(fl, lo + 1, m, s1, vals[1..]);
      var m1 := Exec(m, PopRange(fl, lo + 1));
      var d := ArgDest(fl, lo);
      ExecAppend(m, PopRange(fl, lo + 1), PopLoc(d));
      PopLocExec(m1, d);
      var r := Exec(m, PopRange(fl, lo)).regs;
      assert r == m1.regs[d := vals[0]];
      forall j | lo <= j < |fl|
        ensures Get(r, ArgDest(fl, j)) == vals[j - lo]
      {
        if j > lo {
          ArgDestDistinct(fl, lo, j);
          assert vals[1..][j - (lo + 1)] == vals[j - lo];
        }
      }
      forall l | Untouched(fl, lo, l)
        ensures Get(r, l) == Get(m.regs, l)
      {
        assert Untouched(fl, lo + 1, l);
        assert l != d;
      }
    }
  }

  /**
   * With the evaluated arguments pushed in order on the stack, the pops emitted before the
   * call deliver the j-th argument's value to ArgDest(fl, j), for every j, and leave the
   * stack as it was before the arguments were pushed.
   */
  lemma ArgumentsDelivered(fl: seq<bool>, m: Machine, s: seq<int>, vals: seq<int>)
    requires Fits(fl) && |vals| == |fl| && m.stack == s + vals
    ensures Exec(m, PopRange(fl, 0)).stack == s
    ensures forall j :: 0 <= j < |fl| ==> Get(Exec(m, PopRange(fl, 0)).regs, ArgDest(fl, j)) == vals[j]
  {
    PopRangeExec(fl, 0, m, s, vals);
  }

  /**
   * The saving pushes followed by the same pops in reverse (what is emitted around the
   * call, with whatever runs in between leaving the stack balanced) restore every register
   * and the stack.
   */
  lemma SaveRestoreIdentity(fl: seq<bool>, m: Machine)
    requires Fits(fl)
    ensures Exec(m, SaveCode(fl) + PopRange(fl, 0)).stack == m.stack
    ensures forall l :: Get(Exec(m, SaveCode(fl) + PopRange(fl, 0)).regs, l) == Get(m.regs, l)
  {
    var save, pops := SaveCode(fl), PopRange(fl, 0);
    var m1 := Exec(m, save);
    SaveExec(fl, m);
    ExecAppend(m, save, pops);
    var saved := m1.stack[|m.stack|..];
    assert m1.stack == m.stack + saved;
    PopRangeExec(fl, 0, m1, m.stack, saved);
    var r := Exec(m1, pops).regs;
    forall l
      ensures Get(r, l) == Get(m.regs, l)
    {
      SavedValues(fl, m, m1, saved);
      RestoredReg(fl, m.regs, saved, r, l);
    }
  }

  /** The values the saving pushes leave above the old stack are the argument registers' values, in order. */
  lemma SavedValues(fl: seq<bool>, m: Machine, m1: Machine, saved: seq<int>)
    requires Fits(fl) && |m1.stack| == |m.stack| + |fl| && saved == m1.stack[|m.stack|..]
    requires forall j :: 0 <= j < |fl| ==> m1.stack[|m.stack| + j] == Get(m.regs, ArgDest(fl, j))
    ensures |saved| == |fl|
    ensures forall j :: 0 <= j < |fl| ==> saved[j] == Get(m.regs, ArgDest(fl, j))
  {
    forall j | 0 <= j < |fl|
      ensures saved[j] == Get(m.regs, ArgDest(fl, j))
    {
      assert saved[j] == m1.stack[|m.stack| + j];
    }
  }

  /** A register the pops write receives the value saved from it; any other keeps its value. */
  lemma RestoredReg(fl: seq<bool>, regs: map<Loc, int>, saved: seq<int>, r: map<Loc, int>, l: Loc)
    requires Fits(fl) && |saved| == |fl|
    requires forall j :: 0 <= j < |fl| ==> saved[j] == Get(regs, ArgDest(fl, j))
    requires forall j :: 0 <= j < |fl| ==> Get(r, ArgDest(fl, j)) == saved[j]
    requires Untouched(fl, 0, l) ==> Get(r, l) == Get(regs, l)
    ensures Get(r, l) == Get(regs, l)
  {
    if !Untouched(fl, 0, l) {
      var j :| 0 <= j < |fl| && ArgDest(fl, j) == l;
    }
  }

  /** Code that leaves the stack as it found it, whatever the state it starts from. */
  ghost predicate KeepsStack(code: seq<Instr>) {
    forall m: Machine :: Exec(m, code).stack == m.stack
  }

  /**
   * The values the argument evaluation pushes, started in state `m`: the j-th is what
   * `parts[j]` leaves in the register of its class (%rax or %xmm0), run after the
   * earlier arguments' code and pushes.
   */
  function ArgValues(m: Machine, parts: seq<seq<Instr>>, fl: seq<bool>): (vals: seq<int>)
    requires |parts| == |fl|
    ensures |vals| == |fl|
  {
    if fl == [] then []
    else
      var n := |fl| - 1;
      var before := Exec(m, ArgsCode(parts[..n], fl[..n]));
      ArgValues(m, parts[..n], fl[..n]) + [Get(Exec(before, parts[n]).regs, Primary(fl[n]))]
  }

  /** One more value pushed after `vals`. */
  lemma PushAfter(s: seq<int>, vals: seq<int>, x: int)
    ensures (s + vals) + [x] == s + (vals + [x])
  {
  }

  /** The evaluation of the last argument runs after that of the others: its code, then its push. */
  lemma ArgsCodeLast(m: Machine, parts: seq<seq<Instr>>, fl: seq<bool>)
    requires |parts| == |fl| && fl != []
    ensures var n := |fl| - 1;
      var after := Exec(Exec(m, ArgsCode(parts[..n], fl[..n])), parts[n]);
      Exec(m, ArgsCode(parts, fl)) == Exec(after, PushLoc(Primary(fl[n]))) &&
      ArgValues(m, parts, fl) == ArgValues(m, parts[..n], fl[..n]) + [Get(after.regs, Primary(fl[n]))]
  {
    var n := |fl| - 1;
    var pre := ArgsCode(parts[..n], fl[..n]);
    ExecAppend(m, pre, parts[n]);
    ExecAppend(m, pre + parts[n], PushLoc(Primary(fl[n])));
  }

  /** Each argument's code, run where the evaluation started in `m` runs it, leaves the stack as it found it. */
  ghost predicate Balanced(m: Machine, parts: seq<seq<Instr>>, fl: seq<bool>)
    requires |parts| == |fl|
  {
    fl == [] ||
      var n := |fl| - 1;
      var before := Exec(m, ArgsCode(parts[..n], fl[..n]));
      Balanced(m, parts[..n], fl[..n]) && Exec(before, parts[n]).stack == before.stack
  }

  /** Code that keeps the stack from any state keeps it where the evaluation runs it. */
  lemma {:induction false} KeepsStackBalanced(m: Machine, parts: seq<seq<Instr>>, fl: seq<bool>)
    requires |parts| == |fl|
    requires forall j :: 0 <= j < |parts| ==> KeepsStack(parts[j])
    ensures Balanced(m, parts, fl)
  {
    if fl != [] {
      var n := |fl| - 1;
      var ps := parts[..n];
      assert forall j :: 0 <= j < |ps| ==> ps[j] == parts[j];
      KeepsStackBalanced(m, ps, fl[..n]);
      assert KeepsStack(parts[n]);
    }
  }

  /** When each argument's code keeps the stack, the evaluation pushes exactly ArgValues, in order. */
  lemma {:induction false} ArgsCodeExec(m: Machine, parts: seq<seq<Instr>>, fl: seq<bool>)
    requires |parts| == |fl| && Balanced(m, parts, fl)
    ensures Exec(m, ArgsCode(parts, fl)).stack == m.stack + ArgValues(m, parts, fl)
  {
    if fl != [] {
      var n := |fl| - 1;
      var ps, fs := parts[..n], fl[..n];
      ArgsCodeExec(m, ps, fs);
      var after := Exec(Exec(m, ArgsCode(ps, fs)), parts[n]);
      ArgsCodeLast(m, parts, fl);
      PushLocExec(after, Primary(fl[n]));
      PushAfter(m.stack, ArgValues(m, ps, fs), Get(after.regs, Primary(fl[n])));
    }
  }

  /** The 8 bytes of padding around a call, pushed by `sub` and removed by `add`, when the cursor is not a multiple of 16. */
  function PadCode(stackpos: int, opc: Opcode): seq<Instr> {
    if stackpos % 16 != 0 then [Op2(opc, Imm(8), R(RSP))] else []
  }

  /**
   * From loading %eax with the number of floating arguments to the call and back: the
   * padding is pushed before the call and removed after it under the same test.
   */
  function CallSeq(fl: seq<bool>, stackpos: int, fname: string): seq<Instr> {
    [Op2(Mov, Imm(CountFlo(fl)), R(EAX))] + PadCode(stackpos, Sub) + [Call(fname)] + PadCode(stackpos, Add)
  }

  /**
   * With a cursor that is a multiple of 8 and equal to the stack depth, the call
   * instruction is reached at a depth that is a multiple of 16, and the sequence as a
   * whole leaves the depth unchanged.
   */
  lemma CallSeqAligned(fl: seq<bool>, stackpos: int, fname: string)
    requires stackpos % 8 == 0
    ensures var before := [Op2(Mov, Imm(CountFlo(fl)), R(EAX))] + PadCode(stackpos, Sub);
      CallSeq(fl, stackpos, fname) == before + [Call(fname)] + PadCode(stackpos, Add) &&
      (stackpos + SumDelta(before)) % 16 == 0
    ensures SumDelta(CallSeq(fl, stackpos, fname)) == 0
  {
    var mov := Op2(Mov, Imm(CountFlo(fl)), R(EAX));
    var before := [mov] + PadCode(stackpos, Sub);
    assert [mov][..0] == [];
    assert SumDelta([mov]) == 0;
    assert SumDelta(PadCode(stackpos, Sub)) == CallPad(stackpos) by {
      if stackpos % 16 != 0 {
        assert [Op2(Sub, Imm(8), R(RSP))][..0] == [];
      }
    }
    assert SumDelta(PadCode(stackpos, Add)) == -CallPad(stackpos) by {
      if stackpos % 16 != 0 {
        assert [Op2(Add, Imm(8), R(RSP))][..0] == [];
      }
    }
    SumDeltaAppend([mov], PadCode(stackpos, Sub));
    assert [Call(fname)][..0] == [];
    SumDeltaAppend(before, [Call(fname)]);
    SumDeltaAppend(before + [Call(fname)], PadCode(stackpos, Add));
  }

  /** The call sequence leaves the push/pop machine as it found it: the padding is pushed and dropped again. */
  lemma CallSeqExec(fl: seq<bool>, stackpos: int, fname: string, m: Machine)
    ensures Exec(m, CallSeq(fl, stackpos, fname)) == m
  {
    var mov := Op2(Mov, Imm(CountFlo(fl)), R(EAX));
    var pre := [mov] + PadCode(stackpos, Sub);
    assert [mov][..0] == [];
    ExecAppend(m, [mov], PadCode(stackpos, Sub));
    ExecAppend(m, pre, [Call(fname)]);
    ExecAppend(m, pre + [Call(fname)], PadCode(stackpos, Add));
    assert [Call(fname)][..0] == [];
    if stackpos % 16 != 0 {
      assert [Op2(Sub, Imm(8), R(RSP))][..0] == [];
      assert [Op2(Add, Imm(8), R(RSP))][..0] == [];
      assert Drop(m.stack + [0]) == m.stack;
    }
  }

  /**
   * A whole call as emitted: the saving pushes, the argument evaluation, the pops, the call
   * sequence and the restoring pops. When each argument's code keeps the stack, the j-th
   * argument's value is in ArgDest(fl, j) when the call sequence starts (which leaves the
   * machine as it is), and afterwards every argument register holds its value from before
   * the call again and the stack is as it was.
   */
  lemma FunCallExec(fl: seq<bool>, parts: seq<seq<Instr>>, stackpos: int, fname: string, m: Machine)
    requires Fits(fl) && |parts| == |fl|
    requires forall j :: 0 <= j < |parts| ==> KeepsStack(parts[j])
    ensures var saved := Exec(m, SaveCode(fl));
      var atCall := Exec(saved, ArgsCode(parts, fl) + PopRange(fl, 0));
      Exec(atCall, CallSeq(fl, stackpos, fname)) == atCall &&
      forall j :: 0 <= j < |fl| ==> Get(atCall.regs, ArgDest(fl, j)) == ArgValues(saved, parts, fl)[j]
    ensures var final := Exec(m, SaveCode(fl) + (ArgsCode(parts, fl) + (PopRange(fl, 0) + CallSeq(fl, stackpos, fname) + PopRange(fl, 0))));
      final.stack == m.stack &&
      forall j :: 0 <= j < |fl| ==> Get(final.regs, ArgDest(fl, j)) == Get(m.regs, ArgDest(fl, j))
  {
    var save, args, pops, cs := SaveCode(fl), ArgsCode(parts, fl), PopRange(fl, 0), CallSeq(fl, stackpos, fname);
    var m1 := Exec(m, save);
    SaveExec(fl, m);
    var saved := m1.stack[|m.stack|..];
    assert m1.stack == m.stack + saved;
    KeepsStackBalanced(m1, parts, fl);
    ArgsCodeExec(m1, parts, fl);
    var m2 := Exec(m1, args);
    var vals := ArgValues(m1, parts, fl);
    ArgumentsDelivered(fl, m2, m1.stack, vals);
    var m3 := Exec(m2, pops);
    ExecAppend(m1, args, pops);
    CallSeqExec(fl, stackpos, fname, m3);
    ArgumentsDelivered(fl, m3, m.stack, saved);
    var m5 := Exec(m3, pops);
    ExecAppend(m2, pops, cs);
    ExecAppend(m2, pops + cs, pops);
    ExecAppend(m1, args, pops + cs + pops);
    ExecAppend(m, save, args + (pops + cs + pops));
    forall j | 0 <= j < |fl|
      ensures Get(m5.regs, ArgDest(fl, j)) == Get(m.regs, ArgDest(fl, j))
    {
      assert saved[j] == m1.stack[|m.stack| + j];
    }
  }
}

=== FILE: syntax.dfy ===
/**
 * The typed syntax tree the code generator walks, and the type descriptors it reads.
 *
 * Only the fields that gen.go actually reads are kept: a type's kind, size, element
 * type (`ptr`) and, for a type that describes a struct field, that field's byte offset;
 * a node's kind, type and per-kind payload.  Frame offsets (`loff`) and float-constant
 * labels (`flabel`), which gen.go writes into the nodes, are kept by the generator in
 * maps keyed by the node's `id` instead, so that the tree itself stays immutable.
 */
module Syntax {

  datatype Option<+T> = None | Some(value: T)

  /** The type kinds (CTYPE_*) the generator distinguishes. */
  datatype Kind = Void | Char | Int | Long | Float | Double | Ptr | Array | Struct

  /**
   * A type descriptor.  `ptr` is the element type of a pointer or an array (nil in the
   * source for other kinds); `offset` is meaningful only for a type that describes a
   * struct field, and is the byte offset of that field in its struct.
   */
  datatype Ctype = Ctype(kind: Kind, size: int, ptr: Option<Ctype>, offset: int)

  /** is_flotype: a float or a double. */
  predicate IsFloType(t: Ctype) {
    t.kind == Float || t.kind == Double
  }

  /** is_inttype: char, int or long. */
  predicate IsIntType(t: Ctype) {
    t.kind == Char || t.kind == Int || t.kind == Long
  }

  type Byte = x: int | 0 <= x < 256

  /** The operators of binary nodes ('=', PUNCT_EQ, '<', '>', '+', '-', '*', '/', '&', '|',
      PUNCT_LOGAND, PUNCT_LOGOR); any other operator code is kept as `OtherOp`. */
  datatype BinOp =
    | Assign | Eq | Lt | Gt | Plus | Minus | Times | Divide
    | BitAnd | BitOr | LogAnd | LogOr
    | OtherOp(code: int)

  /** The operators of unary nodes handled by emit_expr (PUNCT_INC, PUNCT_DEC, '!'). */
  datatype UnOp = Inc | Dec | Not

  /**
   * A node of the typed tree.  Every variant carries its type; statements carry a void
   * type (the source leaves the pointer nil, and never reads it for a statement).
   * `If` stands for both AST_IF and AST_TERNARY, which are emitted by the same code.
   * `id` is the identity of a local variable (whose frame offset the prologue assigns)
   * or of a literal (whose float-constant label the data section assigns).
   */
  datatype Ast =
    | Literal(ctype: Ctype, ival: int, fval: real, id: nat)
    | Str(ctype: Ctype, val: seq<Byte>, slabel: string)
    | LVar(ctype: Ctype, id: nat)
    | GVar(ctype: Ctype, varname: string, glabel: string)
    | FunCall(ctype: Ctype, fname: string, args: seq<Ast>)
    | Func(ctype: Ctype, fname: string, params: seq<Ast>, localvars: seq<Ast>, body: Ast)
    | Decl(ctype: Ctype, declvar: Ast, declinit: Option<Ast>)
    | ArrayInit(ctype: Ctype, arrayinit: seq<Ast>)
    | Addr(ctype: Ctype, operand: Ast)
    | Deref(ctype: Ctype, operand: Ast)
    | If(ctype: Ctype, cond: Ast, thenPart: Ast, els: Option<Ast>)
    | For(ctype: Ctype, init: Option<Ast>, forCond: Option<Ast>, step: Option<Ast>, body: Ast)
    | Return(ctype: Ctype, retval: Ast)
    | Compound(ctype: Ctype, stmts: seq<Ast>)
    | StructRef(ctype: Ctype, struc: Ast, field: Ctype)
    | Unary(ctype: Ctype, uop: UnOp, operand: Ast)
    | Binary(ctype: Ctype, op: BinOp, left: Ast, right: Ast)

  /** The `ival` field as the source reads it from any node: zero unless a literal. */
  function IvalOf(e: Ast): int {
    if e.Literal? then e.ival else 0
  }

  /** The `fval` field as the source reads it from any node: zero unless a literal. */
  function FvalOf(e: Ast): real {
    if e.Literal? then e.fval else 0.0
  }

  /** The `varname` field as the source reads it from any node: empty unless a global. */
  function VarnameOf(e: Ast): string {
    if e.GVar? then e.varname else ""
  }
}
